=== FILE: README.md ===
# SwiftBackup transfer core in Dafny

This project models the core of SwiftBackup's `NSP3` library:

- **Packet codec** (`SocketUtil`).
  - A payload is GZip-compressed.
  - With a password it is also AES-encrypted, with the IV in front.
  - The body gets the marker `[4, 3, 5, 2]` and its SHA-256 appended, and the whole is base64-encoded.
  - Decoding splits on the marker and checks the checksum. Then it decrypts and decompresses.
- **Byte utilities used by the codec.** `SeperateBytes` splits on a delimiter. `ByteArraysEqual`, `TrimEnd` and `GenerateRandomString` are also modelled.
- **File transfer jobs** (`FileJob`, `FileJobPool`).
  - A transmit job announces a file with `SWHD^^path^^id^^length`. It then sends `SWFD` chunks of up to 65535 bytes, each waiting for an acknowledgement, and ends with `SWDD^^id^^parts`.
  - A receive job appends chunks and compares the part count at the end.
  - Jobs can be queued (`SWQS`) and resumed (`SWQE`). A step past the deadline fails the job.
  - The pool fans every token out to its jobs. With auto-receive on, it first creates a job for any `SWHD` header it can parse.
- **Server bookkeeping** (`SwiftServer`).
  - Accepting a client draws a unique 4-character ID (at most 100 attempts) and sets a one-minute keep-alive.
  - Kicking removes a client and queues its ID for removal. The password setter stores SHA-256 of the UTF-8 text.
  - The polling loop of `HandleClients`:
    1. It drains the remove queue from the `ids`/`tasks` arrays.
    2. It appends newly accepted clients.
    3. It checks keep-alives.
    4. It handles completed accept and receive tasks. A `SERVKEEPALIVE` message only refreshes the deadline.
- **Wake-on-LAN packet** (`WakeOnLAN.BuildMagicPacket`). Separators `:`, space and `-` are stripped and the rest is read as hex. The packet is six `0xFF` bytes followed by 16 copies of the address.

Everything is modelled as pure functions over immutable data.

- **Environment as parameters.** The clock (milliseconds), the random source, the Guid, the AES IV and the library primitives are parameters. The primitives are SHA-256, GZip, AES, base64 and UTF-8. The ghost predicate `Codec.Lawful` states the facts about them that the round trips use.
- **Exceptions.** Exceptions that escape the source's `try` blocks become explicit results (`Threw`, `ParseThrew`, `AddThrew`, `PoolThrew`, `PollThrew`, `Failure(InvalidBase64)`). Caught ones become `None` or `false`, as in the source. A job or pool result that ends in an exception carries the state the exception leaves behind, because the objects are mutated in place.
- **File system.** A map from paths to contents plus a set of directories.
- **Job step.** The token loop of a job (`FileJobs.RunAll`) and the pool's sweep take the job's step as a function (`FileJobs.StepFn`). `FileJobs.ProcessAll` and the pool's `Process` pass `FileJobs.Process`, and the loop and fan-out lemmas hold for any step.
- **Sockets.** A socket is known only by its identity (a `nat`). What a socket delivers, and whether sends to it fail, are inputs. `Accept` hands out a new socket object each time, so the distinctness lemmas take the accepted socket to be one no client holds (`Server.FreshSocket`).

Modules and files:

| file | module | source |
|---|---|---|
| wrappers.dfy | `Wrappers` | `Option` and `Result` |
| separate.dfy | `Separate` | the delimiter split behind `SeperateBytes` and `String.Split("^^")` |
| socket_util.dfy | `SocketUtil` | `NSP3/SocketUtil.cs` byte utilities |
| text.dfy | `Text` | .NET `String.Trim`, `Convert.ToInt64`, `long.ToString` |
| codec.dfy | `Codec` | `NSP3/SocketUtil.cs` packet codec |
| file_job.dfy | `FileJobs` | `NSP3/FileJob.cs`, class `FileJob` |
| file_job_pool.dfy | `JobPool` | `NSP3/FileJob.cs`, class `FileJobPool` |
| swift_server.dfy | `Server` | `NSP3/SwiftServer.cs` |
| wake_on_lan.dfy | `WakeOnLan` | `NSP3/WakeOnLAN.cs` |

Behaviour kept as the code has it:

- **Packet frame.** The frame carries the checksum after the marker, and decoding checks it.
- **Bad base64.** A bad base64 text throws from `DecodePacket`, because the conversion comes before its `try`. `ReceivePacketBytes` catches it.
- **Transmit job ID.** A transmit job never stores the ID it announces.
- **Acknowledgement.** The acknowledgement it waits for is the literal text `$SWAK^^{ID}`, so the receiver's `SWAK^^ID` is ignored.
- **Auto-received jobs.** They get their deadline at creation, so the first step fails them.
- **Received packets in `HandleClients`.** They are decoded without the password hash.
- **Count mismatch.** A receive job whose end count differs is marked FAILED, but its step returns true. So `Process` does not finish it, and its end time is not set.

## Model

| member | source | states |
|---|---|---|
| Separate.JoinSplit | NSP3/SocketUtil.cs:46-75 | joining the parts of a split with the delimiter gives back the input |
| Separate.SplitJoin | NSP3/SocketUtil.cs:46-75 | splitting a join of delimiter-free parts (each clean at its end) gives back exactly those parts |
| Separate.SplitProperties | NSP3/SocketUtil.cs:46-75 | a split has at least one part, no part contains the delimiter, and the parts rejoin to the input |
| Separate.SplitAtFirstMatch | NSP3/SocketUtil.cs:46-75 | the first part ends at the leftmost occurrence of the delimiter and scanning resumes after it |
| Separate.NoOccurrenceSplit | NSP3/SocketUtil.cs:46-75 | input without the delimiter is its own single part |
| Separate.OccurrenceBeforeDelimiter | NSP3/SocketUtil.cs:46-75 | a delimiter inside the first segment yields at least three parts |
| SocketUtil.SeperateBytes | NSP3/SocketUtil.cs:46-75 | the nested scan loops compute the delimiter split: at least one part, none containing the separator, rejoining to the source |
| SocketUtil.MatchesAt | NSP3/SocketUtil.cs:55-62 | the inner comparison loop reports a match exactly when the separator occurs at the position |
| SocketUtil.SeperateBytesExample | GlobalTests/SocketUtilTests.cs:31-35 | [1,2,3,9,9,4,5,6] split on [9,9] is [[1,2,3],[4,5,6]] |
| SocketUtil.EmptySeparatorNeverTerminates | NSP3/SocketUtil.cs:46-75 | with an empty separator the outer loop stays at position 0 with its guard true after any number of iterations |
| SocketUtil.ByteArraysEqual | NSP3/SocketUtil.cs:22-25 | true exactly when the arrays have the same length and the same byte at every index |
| SocketUtil.ByteArraysEqualExamples | GlobalTests/SocketUtilTests.cs:14-15 | [1,2,3,4] differs from [5,6,7,8]; [1,2,3] equals [1,2,3] |
| SocketUtil.FindLastNonZero | NSP3/SocketUtil.cs:165 | the index of the last non-zero byte, -1 when every byte is zero |
| SocketUtil.TrimEnd | NSP3/SocketUtil.cs:163-168 | a prefix of the input that does not end in 0 and after which only zeros follow |
| SocketUtil.TrimEndUnique | NSP3/SocketUtil.cs:163-168 | any prefix with those properties is the result of TrimEnd |
| SocketUtil.TrimEndIdempotent | NSP3/SocketUtil.cs:163-168 | trimming twice equals trimming once |
| SocketUtil.TrimEndIgnoresZeroPadding | NSP3/SocketUtil.cs:163-168 | appending zero bytes does not change the trimmed array |
| SocketUtil.GenerateRandomString | NSP3/SocketUtil.cs:82-92 | the requested number of characters (none for a non-positive length), each the charset character of one draw, all alphanumeric |
| SocketUtil.CharsetIsAlphanumeric | NSP3/SocketUtil.cs:84 | the charset has 62 characters, all letters or digits |
| SocketUtil.GenerateRandomStringReachesEveryId | NSP3/SocketUtil.cs:82-92 | every string over the charset is the outcome of some random source |
| Text.TrimWith | NSP3/FileJob.cs:232-235 | the result is the input without leading and trailing white space and starts and ends with a non-white character |
| Text.TrimWithIdempotent | NSP3/FileJob.cs:232-235 | trimming is idempotent |
| Text.ParseInt64 | NSP3/FileJob.cs:236 | a parsed value is within the 64-bit range and text without digits is rejected |
| Text.FormatInt | NSP3/FileJob.cs:296 | digits with a leading minus sign exactly for negative numbers |
| Text.ParseFormatInt | NSP3/FileJob.cs:236 | parsing the formatted text of a 64-bit number gives the number back |
| Codec.Encrypt | NSP3/SocketUtil.cs:133-161 | the result starts with the 16-byte IV; it fails exactly when AES fails |
| Codec.Decrypt | NSP3/SocketUtil.cs:100-125 | input shorter than 16 bytes is rejected |
| Codec.EncryptDecrypt | NSP3/SocketUtil.cs:100-161 | with lawful primitives encryption succeeds and decryption under the same password hash gives the plain text back |
| Codec.PacketBody | NSP3/SocketUtil.cs:263-277 | without a usable key the body is the compressed payload; with one it starts with the IV |
| Codec.Frame | NSP3/SocketUtil.cs:280 | the frame is the body, then the marker, then the checksum of the body, at those offsets |
| Codec.GeneratePacket | NSP3/SocketUtil.cs:258-289 | a packet is produced exactly when the body is; without a key it is base64 of the frame of the compressed payload |
| Codec.GeneratePacketText | NSP3/SocketUtil.cs:246-249 | the text overload packs the UTF-8 bytes of the text: a packet exactly when their body can be built, and without a key the base64 frame of their compressed form; `Codec.RoundTripText` is its inverse |
| Codec.DecodePacket | NSP3/SocketUtil.cs:202-245 | bad base64 is the escaping exception; a success means the bytes are a well-formed frame of two parts with a matching checksum, and without a key the payload decompresses from the first part |
| Codec.ReceivePacketBytes | NSP3/SocketUtil.cs:170-182 | returns a payload exactly when decoding succeeds, and then it is the decoded payload; bad base64 gives null rather than an exception |
| Codec.MarkerBorderFree | NSP3/SocketUtil.cs:13 | the marker cannot overlap itself |
| Codec.SplitFrame | NSP3/SocketUtil.cs:213-218 | a frame whose body lacks the marker splits into the body and the split checksum |
| Codec.RoundTrip | NSP3/SocketUtil.cs:202-289 | a generated packet decodes, under the same password hash, to the original bytes when the marker occurs neither in the body nor its checksum |
| Codec.RoundTripText | NSP3/SocketUtil.cs:202-250 | a text packet decodes to bytes whose UTF-8 decoding is the text |
| Codec.MarkerInBodyCorruptsFrame | NSP3/SocketUtil.cs:213-215 | a body that contains the marker makes an intact packet be rejected as corrupt |
| Codec.MarkerInChecksumCorruptsFrame | NSP3/SocketUtil.cs:213-215 | a checksum that contains the marker makes an intact packet be rejected as corrupt |
| Codec.DecodeWithoutKeyDecompressesCipher | NSP3/SocketUtil.cs:224-236 | decoding an encrypted packet without a key decompresses the cipher text instead of the payload |
| FileJobs.Fields | NSP3/FileJob.cs:231 | a token has at least one field and its fields rejoin with `^^` to the token |
| FileJobs.NewJob | NSP3/FileJob.cs:266-270 | a new job is disabled, has no ID and no stream, and its part counter is -1 |
| FileJobs.CreateReceiveJob | NSP3/FileJob.cs:536-544 | a disabled receive job without ID |
| FileJobs.CreateTransmitJob | NSP3/FileJob.cs:536-544 | a disabled transmit job without ID |
| FileJobs.CloseStream | NSP3/FileJob.cs:513-522 | closing keeps content and position and marks the stream closed |
| FileJobs.RequestQueueBegin | NSP3/FileJob.cs:139-145 | only a running job becomes queued and announces `SWQS^^ID`; any other job is unchanged and sends nothing |
| FileJobs.RequestQueueEnd | NSP3/FileJob.cs:147-153 | only a queued job resumes and announces `SWQE^^ID` |
| FileJobs.QueueBeginEndRestores | NSP3/FileJob.cs:139-153 | beginning then ending a queue request restores a running job |
| FileJobs.TruncDiv | NSP3/FileJob.cs:194 | on non-negative operands `long` division agrees with Euclidean division |
| FileJobs.Percentage | NSP3/FileJob.cs:188-196 | as written the value is 0 when no length is expected, and otherwise only 0 or 100, being 100 exactly once the transfer is complete |
| FileJobs.PercentageIntended | NSP3/FileJob.cs:188-196 | the rounded-down share of the expected length in percent, capped at 100 |
| FileJobs.PercentageHalfway | NSP3/FileJob.cs:194 | half of a 100-byte transfer reads 0 % as written and 50 % as intended |
| FileJobs.ReadHeaderFields | NSP3/FileJob.cs:229-235 | accepted exactly when the token is non-empty, has four fields and the trimmed first is `SWHD`; the path and ID are trimmed |
| FileJobs.CreateDirectories | NSP3/FileJob.cs:247-251 | every non-empty component becomes a directory; it throws exactly when a component names an existing file; files are untouched |
| FileJobs.TryParseReceiveHeader | NSP3/FileJob.cs:221-264 | on success the ID, the parsed length and the path (with the Guid appended to a directory path) are those of the header and an empty file is created where none was; a rejected or throwing parse creates no file |
| FileJobs.TryParse | NSP3/FileJob.cs:203-219 | a parsed header gives a running receive job with an open empty stream whose deadline is the current time |
| FileJobs.HeaderTokenFields | NSP3/FileJob.cs:231 | a header built from plain fields splits into exactly those four fields |
| FileJobs.HeaderRoundTrip | NSP3/FileJob.cs:229-236 | the header a transmit job sends is read back by the receiver as its trimmed path, trimmed ID and length |
| FileJobs.RawProcessTransmit | NSP3/FileJob.cs:283-369 | a transmit step does not touch the file system or the ID; a receive job is refused; a completed job stays; it throws only on a missing file or a closed stream |
| FileJobs.RawProcessReceive | NSP3/FileJob.cs:372-480 | a receive step never throws; a transmit job is refused; a token without fields is ignored; files change only when a disabled job accepts a header |
| FileJobs.Finish | NSP3/FileJob.cs:513-522 | a failed step marks the job failed; the end time is set and the stream closed; counters are kept |
| FileJobs.Settle | NSP3/FileJob.cs:511-522 | a job is finished when the step returned false or the job succeeded; otherwise, a job the step marked failed included, it stays as the raw step left it |
| FileJobs.SettleValid | NSP3/FileJob.cs:511-522 | the bookkeeping after a step, finishing or not, keeps the job invariant |
| FileJobs.Process | NSP3/FileJob.cs:498-534 | a running or queued job past its deadline fails without reading the token; a step that returned false leaves a failed job with a closed stream and end time; success closes the stream; an exception of the transmit step escapes before that bookkeeping, leaving the job as the step left it |
| FileJobs.ProcessAll | NSP3/FileJob.cs:482-496 | no more successful steps than tokens and no more packets than successful steps |
| FileJobs.RunAll | NSP3/FileJob.cs:482-496 | the token loop over any step counts no more successful steps than tokens and keeps no more packets than successful steps; a run that completes had a completed first step |
| FileJobs.RunAllSingle | NSP3/FileJob.cs:482-496 | one token: the run is that token's step, counted exactly when it returned true, with its packet kept when it returned true and produced one; an exception escapes with the job as it left it |
| FileJobs.RunAllAppend | NSP3/FileJob.cs:482-496 | the loop over two token lists is the loop over the first, continued from its job and file system by the second, with the counts added and the packets in order |
| FileJobs.ProcessAllSingle | NSP3/FileJob.cs:482-496 | `Process(string[])` on one token is `Process(string)` on it, counted when true, its non-null packet kept |
| FileJobs.ProcessAllAppend | NSP3/FileJob.cs:482-496 | `Process(string[])` over concatenated token lists is the run over the first continued by the second; with `ProcessAllSingle` this fixes the count as the number of true steps and the packets as their non-null packets in order |
| FileJobs.ProcessAllValid | NSP3/FileJob.cs:482-496 | a job that keeps the job invariant keeps it over any list of tokens |
| FileJobs.NewJobValid | NSP3/FileJob.cs:266-270 | a new job satisfies the job invariant |
| FileJobs.TryParseValid | NSP3/FileJob.cs:203-219 | a parsed job satisfies the job invariant |
| FileJobs.RawProcessTransmitValid | NSP3/FileJob.cs:283-369 | a transmit step keeps the invariant: one full chunk read per part and the stream open exactly while the job is not complete |
| FileJobs.RawProcessReceiveValid | NSP3/FileJob.cs:372-480 | a receive step keeps the invariant: the byte count is the stream position at its end |
| FileJobs.ProcessValid | NSP3/FileJob.cs:498-534 | every step keeps the job invariant |
| FileJobs.ProcessThrowsOnlyOnMissingFile | NSP3/FileJob.cs:290-302 | a valid job throws only when a transmit job starts on a file that does not exist |
| FileJobs.TransmitIdNeverStored | NSP3/FileJob.cs:290-312 | a new transmit job announces a freshly drawn ID but keeps its empty ID |
| FileJobs.RealAckIgnored | NSP3/FileJob.cs:323-330 | `SWAK^^ID` does not satisfy a pending acknowledgement: nothing changes and nothing is sent |
| FileJobs.TransmitQueueRequest | NSP3/FileJob.cs:317-322 | `SWQS^^ID` queues a running transmit job for five minutes |
| FileJobs.TransmitWaits | NSP3/FileJob.cs:323-330 | with an acknowledgement pending, or no stream yet, nothing is read or sent |
| FileJobs.TransmitChunk | NSP3/FileJob.cs:332-354 | the next chunk of up to 65535 bytes is read and counted as one part, sent as base64 in `SWFD` without the password hash, and an acknowledgement becomes due |
| FileJobs.TransmitEnd | NSP3/FileJob.cs:332-343 | at the end of the file `SWDD^^ID^^parts` is sent and the job succeeds with its stream closed |
| FileJobs.CompletedTransmitStays | NSP3/FileJob.cs:356-367 | a completed transmit job keeps its status and counters and sends nothing |
| FileJobs.ProcessEndsCompleted | NSP3/FileJob.cs:155-161 | `IsCompleted` (SUCCESS or FAILED) holds after every step that returned false or left the job successful, with the end time set and the stream closed |
| FileJobs.DeadlineFails | NSP3/FileJob.cs:502 | a running or queued job at or past its deadline fails whatever the token |
| FileJobs.ParsedJobExpiresAtOnce | NSP3/FileJob.cs:203-219 | a job created by TryParse fails on its first step |
| FileJobs.CommandFields | NSP3/FileJob.cs:377 | a command token with one argument splits into the command and the argument |
| FileJobs.CompletedReceiveRequeues | NSP3/FileJob.cs:400-414 | `SWQS^^ID` queues a receive job even after it completed |
| FileJobs.ReceiveChunk | NSP3/FileJob.cs:435-452 | a chunk addressed to a running receive job is appended, counted and acknowledged with `SWAK^^ID` |
| FileJobs.RawReceiveChunk | NSP3/FileJob.cs:435-452 | before the deadline check, a chunk for a running receive job appends the decoded bytes, counts one part and answers `SWAK^^ID` |
| FileJobs.ReceiveEnd | NSP3/FileJob.cs:453-472 | the end token makes the job succeed exactly when the announced part count equals its own, fail otherwise, and closes the stream |
| FileJobs.MismatchedEndNotFinished | NSP3/FileJob.cs:465-474 | a mismatched end count leaves the job FAILED with its stream closed, yet the step returns true and the end time is unchanged, because `Process` finishes only on false or SUCCESS (lines 513-522) |
| FileJobs.RawReceiveEnd | NSP3/FileJob.cs:453-472 | before the deadline check, the end token closes the stream and sets success exactly when the announced count equals the parts received |
| JobPool.NewPool | NSP3/FileJob.cs:30-36 | an empty pool with 16 slots, auto-receive on, base folder `Received` |
| JobPool.AddJob | NSP3/FileJob.cs:51-62 | the job is appended and then processed once with the empty token; its packet is returned; when the step throws, the pool keeps the job as the exception left it |
| JobPool.AddJobValid | NSP3/FileJob.cs:51-62 | adding a job that keeps the job invariant to a pool whose jobs keep it leaves every job keeping it |
| JobPool.MissingFileJobStays | NSP3/FileJob.cs:51-62 | a transmit job for a missing file throws on being added, stays in the pool unchanged, and throws again on any token while the file is missing |
| JobPool.FindFrom | NSP3/FileJob.cs:64-72 | the first matching index, or none when no job matches |
| JobPool.FindJobByID | NSP3/FileJob.cs:64-72 | a job is found exactly when some job has the ID, and it is the first such job |
| JobPool.Promote | NSP3/FileJob.cs:97-108 | a completed job dequeues at most one queued ID; with an empty queue nothing happens |
| JobPool.SweepJobs | NSP3/FileJob.cs:95-114 | the sweep keeps the number of jobs and the settings and adds no job, also when a step throws; `JobPool.SweepIsStepEach` gives its result |
| JobPool.StepEach | NSP3/FileJob.cs:109-113 | the fan-out of one token over a list of jobs, for any job step, changes no job count and yields at most one packet per job |
| JobPool.StepEachSingle | NSP3/FileJob.cs:109-113 | over one job the fan-out is that job's step, with its packet kept exactly when the step succeeded |
| JobPool.StepEachValid | NSP3/FileJob.cs:109-113 | with a step that keeps the job invariant, a completed fan-out over jobs that keep it leaves jobs that keep it |
| JobPool.ProcessKeepsValid | NSP3/FileJob.cs:498-534 | the job's own `Process` step is such a step |
| JobPool.SweepAtThrew | NSP3/FileJob.cs:95-114 | with an empty queue, a job whose step throws ends the sweep there, with that job as the exception left it and the file system unchanged |
| JobPool.SweepAtDone | NSP3/FileJob.cs:95-114 | with an empty queue, a job whose step completes is replaced by the stepped job and the rest of the sweep follows on the new file system, behind the step's packet when it succeeded |
| JobPool.SweepIsStepEach | NSP3/FileJob.cs:95-114 | with an empty queue, for any job step, the sweep replaces each job, in order, by its step on the token, threads the file system, and collects the packets of the successful steps in order; an exception stops it with the jobs stepped so far |
| JobPool.AutoAdd | NSP3/FileJob.cs:82-94 | with auto-receive off nothing happens; otherwise at most one job, one that TryParse accepted, is appended |
| JobPool.AutoAddValid | NSP3/FileJob.cs:82-94 | the auto-receive step keeps the job invariant of every job, the parsed one included |
| JobPool.Process | NSP3/FileJob.cs:74-117 | at most one job per token is added, none without auto-receive; settings are kept; an empty queue stays empty |
| JobPool.ProcessOneToken | NSP3/FileJob.cs:74-117 | with an empty queue one token runs the auto-receive step and then the fan-out of each job's `Process` step over every job, the new one included; its packets follow the auto-receive packet |
| JobPool.ProcessOneTokenValid | NSP3/FileJob.cs:74-117 | with an empty queue one token keeps the job invariant of every job in the pool, the auto-received one included |
| JobPool.PromotionIsDead | NSP3/FileJob.cs:31 | nothing enqueues an ID, so from a new pool the promotion branch never changes anything |
| JobPool.AutoReceivedJobFailsOnAdd | NSP3/FileJob.cs:82-94 | a job added by auto-receive has already failed when AddJob returns |
| Server.NewServer | NSP3/SwiftServer.cs:176-185 | no clients, nothing queued for removal, no password |
| Server.SetPassword | NSP3/SwiftServer.cs:156-164 | an empty password clears the hash; otherwise it is SHA-256 of the UTF-8 text; clients untouched |
| Server.PasswordKeys | NSP3/SwiftServer.cs:156-164 | the stored hash is a usable 32-byte key exactly when the password is non-empty |
| Server.SamePasswordRoundTrip | NSP3/SwiftServer.cs:156-164 | a packet generated under one server's password decodes under another server with the same password |
| Server.RemoveAt | NSP3/SwiftServer.cs:220-230 | defined exactly for an index in range; the element there is dropped and the others keep their order |
| Server.RemoveAtMultiset | NSP3/SwiftServer.cs:220-230 | removing keeps every other element |
| Server.RemoveAtInsert | NSP3/SwiftServer.cs:220-230 | removing an element just inserted gives the original array back |
| Server.FindClient | NSP3/SwiftServer.cs:202-213 | the first client with the ID, or none exactly when no client has it |
| Server.FirstFree | NSP3/SwiftServer.cs:103-120 | the first candidate no client uses, after only used ones |
| Server.NewClientId | NSP3/SwiftServer.cs:102-122 | a fresh 4-character alphanumeric ID that no client has, drawn in one of 100 attempts; none exactly when all 100 are taken |
| Server.FirstClientTakesFirstDraw | NSP3/SwiftServer.cs:103-120 | the first client gets the first ID drawn |
| Server.AcceptClient | NSP3/SwiftServer.cs:94-123 | an accepted client is appended with an unused ID, its connect time, and a keep-alive one minute later; the constructor throws exactly when no ID is found |
| Server.AcceptKeepsIdsUnique | NSP3/SwiftServer.cs:293-298 | accepting keeps the client IDs pairwise distinct |
| Server.RemoveClient | NSP3/SwiftServer.cs:198 | removal by socket identity; true exactly when such a client was present |
| Server.Kick | NSP3/SwiftServer.cs:187-200 | an unknown ID changes nothing and returns false; the remove queue only gains the ID; clients only shrink |
| Server.KickEffect | NSP3/SwiftServer.cs:64-81 | kicking removes the first client with the ID and queues the ID once plus once per failed send; it returns true only when no send failed |
| Server.KickRemovesId | NSP3/SwiftServer.cs:187-200 | after a kick no client has the ID |
| Server.InitialSlots | NSP3/SwiftServer.cs:234-241 | one slot, the listener, accepting |
| Server.RemoveSlot | NSP3/SwiftServer.cs:251-259 | the first slot with the ID is removed from both arrays; without one nothing changes; the listener's slot is kept unless it is the one removed |
| Server.DrainRemoveQueue | NSP3/SwiftServer.cs:246-261 | draining keeps both arrays the same length and only removes slots |
| Server.RemoveSlotDistinct | NSP3/SwiftServer.cs:251-259 | with distinct IDs the removed ID is gone afterwards |
| Server.DrainRemovesQueued | NSP3/SwiftServer.cs:246-261 | after draining no queued ID has a slot |
| Server.DrainKeepsListener | NSP3/SwiftServer.cs:246-261 | draining IDs other than `Listener` keeps the listener in slot 0 |
| Server.FillSlot | NSP3/SwiftServer.cs:270-278 | every dequeued ID is written to the same slot, so only the last one stays |
| Server.AddStep | NSP3/SwiftServer.cs:264-279 | as written: the arrays grow by the queue length, the first new slot holds the last queued ID and the others stay empty |
| Server.ReceiveTask | NSP3/SwiftServer.cs:274-277 | a client gets a receive task on its socket; an unknown ID leaves the slot empty |
| Server.AddStepIntended | NSP3/SwiftServer.cs:264-279 | corrected: queued ID j goes to new slot j with its receive task |
| Server.AddStepSingle | NSP3/SwiftServer.cs:264-279 | with at most one queued ID the step as written equals the intended one |
| Server.AddStepLosesIds | NSP3/SwiftServer.cs:264-279 | two queued IDs leave the first one without a slot and an empty slot behind |
| Server.CheckKeepAlive | NSP3/SwiftServer.cs:284-290 | only a known non-listener client is checked, and it is kicked exactly when its deadline has passed |
| Server.ExpiredClientKicked | NSP3/SwiftServer.cs:284-290 | a client past its deadline is no longer connected after the check |
| Server.ReceiveStep | NSP3/SwiftServer.cs:306-326 | the loop breaks exactly on a missing client or an undecodable packet; otherwise the deadline moves to ten seconds from now and anything but `SERVKEEPALIVE` is handed on |
| Server.KeepAliveNotForwarded | NSP3/SwiftServer.cs:319-323 | a `SERVKEEPALIVE` packet only refreshes the deadline |
| Server.MessageForwarded | NSP3/SwiftServer.cs:324-325 | any other message is handed on unchanged |
| Server.PollSlot | NSP3/SwiftServer.cs:282-327 | polling a slot keeps the ID array, changes only its own task, keeps the listener accepting, adds at most one ID and only at the listener, and throws on an empty slot |
| Server.PollFrom | NSP3/SwiftServer.cs:282-327 | polling keeps the ID array and only appends to the add queue, at most one ID when only the first slot is the listener |
| Server.Round | NSP3/SwiftServer.cs:244-327 | a round (drain, the add step as written, poll) keeps the two arrays the same length |
| Server.RoundIntended | NSP3/SwiftServer.cs:244-327 | the round with the corrected add step keeps the two arrays the same length |
| Server.RoundsAgree | NSP3/SwiftServer.cs:266-278 | between rounds, the round as written equals the round with the corrected add step |
| Server.KickKeepsIdsShort | NSP3/SwiftServer.cs:187-200 | kicking keeps every client and queued ID four characters long |
| Server.PollFromKeepsIdsShort | NSP3/SwiftServer.cs:282-327 | polling keeps every client and queued ID four characters long |
| Server.RoundKeepsInvariant | NSP3/SwiftServer.cs:244-327 | the listener stays in slot 0 accepting and is the only slot with its name, at most one client waits to be added, and every ID stays four characters long, so no client is ever taken for the listener |
| Server.AddStepLatent | NSP3/SwiftServer.cs:264-279 | in every round reachable from the start the add step as written equals the corrected one |
| Server.InitialInvariant | NSP3/SwiftServer.cs:176-185 | a new server with the initial slots satisfies the loop invariant and starts with no clients, so their sockets and IDs are distinct |
| Server.KickKeepsDistinct | NSP3/SwiftServer.cs:187-200 | kicking keeps the clients' sockets and IDs pairwise distinct |
| Server.AcceptKeepsDistinct | NSP3/SwiftServer.cs:293-298 | accepting a socket no client holds keeps the clients' sockets and IDs pairwise distinct |
| Server.ReceiveKeepsDistinct | NSP3/SwiftServer.cs:306-326 | a completed receive keeps the clients' sockets and IDs pairwise distinct |
| Server.CheckKeepAliveKeepsDistinct | NSP3/SwiftServer.cs:284-290 | the keep-alive check keeps the clients' sockets and IDs pairwise distinct and leaves the server alone at the listener slot |
| Server.PollSlotKeepsDistinct | NSP3/SwiftServer.cs:282-327 | polling one slot keeps the clients' sockets and IDs pairwise distinct when a listener's accepted socket is new |
| Server.PollFromKeepsDistinct | NSP3/SwiftServer.cs:282-327 | the polling loop keeps the clients' sockets and IDs pairwise distinct when the listener is only in slot 0 and its accepted socket is new |
| Server.RoundSlots | NSP3/SwiftServer.cs:244-279 | after draining and adding, the slot arrays are well formed and the listener is in slot 0, accepting, and nowhere else |
| Server.RoundKeepsDistinct | NSP3/SwiftServer.cs:244-327 | every round keeps the clients' sockets and IDs pairwise distinct when the accepted socket is new, so the kick lemmas' premise holds in every round reached from a new server |
| WakeOnLan.StripSeparators | NSP3/WakeOnLAN.cs:47 | no `:`, space or `-` remains, and every character comes from the input |
| WakeOnLan.StripAppend | NSP3/WakeOnLAN.cs:47 | stripping distributes over concatenation |
| WakeOnLan.StripKeeps | NSP3/WakeOnLAN.cs:47 | text without separators is unchanged |
| WakeOnLan.FromHexString | NSP3/WakeOnLAN.cs:48 | accepted exactly when the length is even and every character is a hex digit; one byte per two characters |
| WakeOnLan.FromHexStringBytes | NSP3/WakeOnLAN.cs:48 | byte k is 16 times digit 2k plus digit 2k+1 |
| WakeOnLan.FromHexStringByte | NSP3/WakeOnLAN.cs:48 | two hex digits of a byte followed by valid hex decode to that byte followed by the rest |
| WakeOnLan.FromToHexString | NSP3/WakeOnLAN.cs:48 | reading the hex text of bytes gives the bytes back |
| WakeOnLan.StripFormatMac | NSP3/WakeOnLAN.cs:45-47 | a MAC written with any of the separators strips to its plain hex text |
| WakeOnLan.MagicPacket | NSP3/WakeOnLAN.cs:50-52 | the packet is 6 + 16 × address-length bytes and starts with the header |
| WakeOnLan.BuildMagicPacket | NSP3/WakeOnLAN.cs:45-53 | fails exactly when the stripped text is not hex; otherwise six 0xFF bytes followed by 16 copies of the decoded address |
| WakeOnLan.RepeatBlock | NSP3/WakeOnLAN.cs:51 | every block of a repetition is the repeated address |
| WakeOnLan.BlocksAreRepeat | NSP3/WakeOnLAN.cs:51 | a sequence whose every block is the address is the repetition |
| WakeOnLan.MagicPacketIff | NSP3/WakeOnLAN.cs:50-52 | a packet has the header-plus-16-copies shape exactly when it is the magic packet of the address |
| WakeOnLan.BuildFromFormattedMac | NSP3/WakeOnLAN.cs:45-53 | a formatted 6-byte MAC gives its 102-byte magic packet |
| WakeOnLan.EmptyAddressGivesHeader | NSP3/WakeOnLAN.cs:45-53 | an empty address gives the bare header |
| WakeOnLan.MalformedRejected | NSP3/WakeOnLAN.cs:48 | an odd number of digits, or a non-hex digit, is rejected |

## Left out

- **Sockets and threads.** Sockets, `Task` polling, threads, `_ClientLock` and `Start`/`Stop` are left out. A socket is an identity; whether a task completed, what it delivered and whether a send failed are inputs of each poll.
- **Events.** Events (`ClientConnected`, `OnJobUpdate`, `OnJobCompleted` and the others) and logging (`SimpleLogger`) are left out. They do not affect the state.
- **Time and network properties.** `ElapsedTime`, `Uptime`, `BytesPerSecond`, `Address`, `IsConnected`, `MaxClients`, `Port` and `KeepAlive` are read-only or unused by the core. They depend on the clock or the network.
- **Library primitives.** SHA-256, GZip, AES-256-CBC, base64 and UTF-8 are parameters, and `Codec.Lawful` states what the proofs assume of them. Their algorithms are not modelled.
- **Path oracle.** `MakeRelative(Path.GetFullPath(_))` is a parameter function of the job environment.
- **Socket receive.** The socket receive in `ReceivePacketBytes` is left out. `Codec.ReceivePacketBytes` starts from the received text.
- **Server sends.** `SendMessage` of the server client is modelled only through its effect: a failed send kicks the client (the `failedSends` input of `Server.Kick`).
- **Integer width.** 64-bit overflow of the job counters and of the clock arithmetic is not modelled, since the counters stay far below 2^63 for any real file.
- **Convert.ToInt64 details.** The value range and surrounding white space are modelled. Trailing NUL characters are not.
- **Directory names.** Invalid directory names, permission errors and all other I/O failures except an existing file or directory in the way are not modelled. The file system is a map and a set of names.
- **Received bytes.** A receive job's written bytes are kept in its stream content, not copied into the file-system map. The source writes through an open `FileStream`.
- **Pool inputs.** `JobPool.Process` takes one set of environment inputs (clock, IV, random source, Guid) per token, shared by every job in that sweep.
- **Wake-on-LAN sending.** `WakeOnLan` and `SendWakeOnLan` (network interface discovery and UDP send) are left out. Only the packet is modelled.
- **Other components.** `SwiftClient`, `FileServer/Program.cs`, `IClient`, `IServerClient` and the `AwesomeSockets` library are outside the modelled core.
- SocketUtil.SeperateBytes: requires a non-empty separator, because with an empty one the source loops forever. `SocketUtil.EmptySeparatorNeverTerminates` proves that the scan never ends in that case.
- SocketUtil.GenerateRandomString: the draws are an input sequence in place of the fresh `new Random()` of each call.
- Codec.DecodePacket: a `Buffer` is taken to be its text; the `Buffer` framing of the socket library is not modelled.
- Codec.RoundTrip: requires that the marker `[4, 3, 5, 2]` occur neither in the body nor its checksum. Without that, the packet is rejected (`Codec.MarkerInBodyCorruptsFrame`, `Codec.MarkerInChecksumCorruptsFrame`).
- Server.Kick: the recursion through failed sends is bounded by the `failedSends` input. That input counts how many nested `SERVKICK` sends fail.
- Server.Round: only the bookkeeping of one pass of the `while (IsRunning)` loop is modelled, not the loop's repetition or its termination.
- WakeOnLan.BuildMagicPacket: the `FormatException` of `Convert.FromHexString` is the `None` result.

## Findings

| source | as written | input that shows it | evidently intended | confidence | as-written member | corrected member |
|---|---|---|---|---|---|---|
| NSP3/FileJob.cs:194 | `_CurrentLength / _ExpectedLength * 100` divides two `long`s first, so the percentage is 0 until the transfer completes | expected length 100, current length 50: the result is 0 | the share in percent, 50 | not executed | FileJobs.PercentageHalfway | FileJobs.PercentageIntended |
| NSP3/SwiftServer.cs:266-278 | `idx` is never advanced, so every queued ID is written to the same slot; the other new slots stay null and throw when polled | two clients queued in one round, "AAAA" and "BBBB": ids become [Listener, BBBB, null] | each queued ID gets its own slot and receive task | not executed | Server.AddStepLosesIds | Server.AddStepIntended |

`Server.Round` runs the step as written, and `Server.RoundIntended` runs the corrected one. The defect is latent in the current loop. The listener has a single slot, so at most one client is accepted per pass and the add queue holds at most one ID. `Server.AddStepSingle` and `Server.AddStepLatent` show that in every reachable round the step as written equals the corrected one, and `Server.RoundsAgree` lifts this to the whole round, so the invariant `Server.RoundKeepsInvariant` proves for the round as written carries over to the corrected one.

=== FILE: codec.dfy ===
/**
 The packet codec of `SocketUtil`: AES encryption with the IV in front,
 and the frame `base64(body ++ [4, 3, 5, 2] ++ SHA-256(body))` whose body is
 the GZip-compressed (and, with a password, encrypted) payload.

 The library primitives (SHA-256, GZip, AES-256-CBC, base64, UTF-8) are
 parameters: a `Primitives` value carries one implementation of each, and
 `Lawful` states the facts about them the codec relies on.
 */
module Codec {
  import opened Wrappers
  import Separate
  import SocketUtil

  type byte = SocketUtil.byte
  type Bytes = seq<byte>

  /** `CHECKSUM_PREFIX`: the marker between the body and its checksum. */
  const ChecksumPrefix: Bytes := [4, 3, 5, 2]

  /** Length of the initialisation vector AES puts in front of the cipher text. */
  const IvLength: nat := 16

  /** A 16-byte initialisation vector, as `Aes.GenerateIV` produces. */
  type Iv = s: Bytes | |s| == IvLength witness seq(16, _ => 0)

  /** The library functions the codec calls. `None` is an exception the
      codec's `try` catches. */
  datatype Primitives = Primitives(
    sha256: Bytes -> Bytes,
    gzip: Bytes -> Bytes,
    gunzip: Bytes -> Option<Bytes>,
    aesEncrypt: (Bytes, Bytes, Bytes) -> Option<Bytes>, // key, IV, plain text
    aesDecrypt: (Bytes, Bytes, Bytes) -> Option<Bytes>, // key, IV, cipher text
    toBase64: Bytes -> string,
    fromBase64: string -> Option<Bytes>,
    utf8Encode: string -> Bytes,
    utf8Decode: Bytes -> string)

  /** What the round trips need of the primitives: SHA-256 digests are 32
      bytes, decompression, decryption and base64 decoding invert their
      counterparts, and AES accepts every 32-byte key with a 16-byte IV. */
  ghost predicate Lawful(p: Primitives) {
    && (forall x :: |p.sha256(x)| == 32)
    && (forall x :: p.gunzip(p.gzip(x)) == Some(x))
    && (forall k, iv, x :: |k| == 32 && |iv| == IvLength ==> p.aesEncrypt(k, iv, x).Some?)
    && (forall k, iv, x :: p.aesEncrypt(k, iv, x).Some? ==>
          p.aesDecrypt(k, iv, p.aesEncrypt(k, iv, x).value) == Some(x))
    && (forall x :: p.fromBase64(p.toBase64(x)) == Some(x))
    && (forall s :: p.utf8Decode(p.utf8Encode(s)) == s)
  }

  /** A password hash is used only when it is present and non-empty. */
  predicate HasKey(passHash: Option<Bytes>) {
    passHash.Some? && |passHash.value| > 0
  }

  // ---------------------------------------------------------------- Encrypt / Decrypt

  /** `Encrypt`: AES with key SHA-256(passHash) and a fresh IV (the
      parameter `iv`); the IV is put in front of the cipher text. */
  function Encrypt(p: Primitives, plain: Bytes, passHash: Bytes, iv: Iv): (r: Option<Bytes>)
    ensures r.Some? ==> |r.value| >= IvLength && r.value[..IvLength] == iv
    ensures r.Some? <==> p.aesEncrypt(p.sha256(passHash), iv, plain).Some?
  {
    var c :- p.aesEncrypt(p.sha256(passHash), iv, plain);
    assert (iv + c)[..IvLength] == iv;
    Some(iv + c)
  }

  /** `Decrypt`: fewer than 16 bytes cannot hold the IV; otherwise the first
      16 bytes are the IV and the rest is decrypted. */
  function Decrypt(p: Primitives, cipher: Bytes, passHash: Bytes): (r: Option<Bytes>)
    ensures |cipher| < IvLength ==> r.None?
  {
    if |cipher| < IvLength then None
    else p.aesDecrypt(p.sha256(passHash), cipher[..IvLength], cipher[IvLength..])
  }

  /** Decryption inverts encryption under the same password hash. */
  lemma EncryptDecrypt(p: Primitives, plain: Bytes, passHash: Bytes, iv: Iv)
    requires Lawful(p)
    ensures Encrypt(p, plain, passHash, iv).Some?
    ensures Decrypt(p, Encrypt(p, plain, passHash, iv).value, passHash) == Some(plain)
  {
    var key := p.sha256(passHash);
    var c := p.aesEncrypt(key, iv, plain).value;
    assert (iv + c)[IvLength..] == c;
  }

  // ---------------------------------------------------------------- GeneratePacket

  /** The body of a packet: the compressed payload, encrypted when a key is
      given (`None` when encryption fails). */
  function PacketBody(p: Primitives, obj: Bytes, passHash: Option<Bytes>, iv: Iv): (r: Option<Bytes>)
    ensures !HasKey(passHash) ==> r == Some(p.gzip(obj))
    ensures HasKey(passHash) && r.Some? ==> |r.value| >= IvLength && r.value[..IvLength] == iv
  {
    var z := p.gzip(obj);
    if HasKey(passHash) then Encrypt(p, z, passHash.value, iv) else Some(z)
  }

  /** The bytes that get base64-encoded: body, marker, checksum of the body. */
  function Frame(p: Primitives, body: Bytes): (f: Bytes)
    ensures |f| == |body| + |ChecksumPrefix| + |p.sha256(body)|
    ensures f[..|body|] == body
    ensures f[|body|..|body| + 4] == ChecksumPrefix
    ensures f[|body| + 4..] == p.sha256(body)
  {
    body + ChecksumPrefix + p.sha256(body)
  }

  /** `GeneratePacket(byte[], passHash)`: the base64 text of the frame, or
      `None` when encryption failed. */
  function GeneratePacket(p: Primitives, obj: Bytes, passHash: Option<Bytes>, iv: Iv): (r: Option<string>)
    ensures r.Some? <==> PacketBody(p, obj, passHash, iv).Some?
    ensures !HasKey(passHash) ==> r == Some(p.toBase64(Frame(p, p.gzip(obj))))
  {
    var body :- PacketBody(p, obj, passHash, iv);
    Some(p.toBase64(Frame(p, body)))
  }

  /** `GeneratePacket(string, passHash)`: the UTF-8 bytes of the text. */
  function GeneratePacketText(p: Primitives, text: string, passHash: Option<Bytes>, iv: Iv): (r: Option<string>)
    ensures r.Some? <==> PacketBody(p, p.utf8Encode(text), passHash, iv).Some?
    ensures !HasKey(passHash) ==> r == Some(p.toBase64(Frame(p, p.gzip(p.utf8Encode(text)))))
  {
    GeneratePacket(p, p.utf8Encode(text), passHash, iv)
  }

  // ---------------------------------------------------------------- DecodePacket

  /** Why a packet was not decoded. `InvalidBase64` is the exception
      `Convert.FromBase64String` throws before the `try`; every other case is
      a `null` result. */
  datatype DecodeError =
    | InvalidBase64
    | EmptyPacket
    | CorruptFrame
    | ChecksumMismatch
    | DecryptFailed
    | DecompressFailed

  /** `DecodePacket`: base64-decode, split on the marker (exactly two parts
      expected), compare the checksum, decrypt when a key is given, then
      decompress. */
  function DecodePacket(p: Primitives, packet: string, passHash: Option<Bytes>): (r: Result<Bytes, DecodeError>)
    ensures r == Failure(InvalidBase64) <==> p.fromBase64(packet).None?
    ensures r.Success? ==>
      var bytes := p.fromBase64(packet).value;
      var spl := Separate.Split(bytes, ChecksumPrefix);
      |spl| == 2 && p.sha256(spl[0]) == spl[1] && bytes == Frame(p, spl[0])
    ensures r.Success? && !HasKey(passHash) ==>
      p.gunzip(Separate.Split(p.fromBase64(packet).value, ChecksumPrefix)[0]) == Some(r.value)
  {
    match p.fromBase64(packet)
    case None => Failure(InvalidBase64)
    case Some(bytes) =>
      if |bytes| == 0 then Failure(EmptyPacket)
      else
        var spl := Separate.Split(bytes, ChecksumPrefix);
        if |spl| != 2 then Failure(CorruptFrame)
        else if !SocketUtil.ByteArraysEqual(p.sha256(spl[0]), spl[1]) then Failure(ChecksumMismatch)
        else
          var plain := if HasKey(passHash) then Decrypt(p, spl[0], passHash.value) else Some(spl[0]);
          if plain.None? then Failure(DecryptFailed)
          else
            match p.gunzip(plain.value)
            case None => Failure(DecompressFailed)
            case Some(data) =>
              Separate.JoinSplit(bytes, ChecksumPrefix);
              assert Separate.Join(spl, ChecksumPrefix) == spl[0] + ChecksumPrefix + spl[1];
              Success(data)
  }

  /** `ReceivePacketBytes` once the text has arrived: the exception of a bad
      base64 text is caught there, so every failure is `null`. */
  function ReceivePacketBytes(p: Primitives, received: string, passHash: Option<Bytes>): (r: Option<Bytes>)
    ensures r.Some? <==> DecodePacket(p, received, passHash).Success?
    ensures r.Some? ==> DecodePacket(p, received, passHash) == Success(r.value)
    ensures p.fromBase64(received).None? ==> r.None?
  {
    DecodePacket(p, received, passHash).ToOption()
  }

  // ---------------------------------------------------------------- Round trip

  /** The marker has no proper prefix that is also a suffix: two of its
      occurrences never overlap. */
  lemma MarkerBorderFree()
    ensures Separate.BorderFree(ChecksumPrefix)
  {
    var m := ChecksumPrefix;
    forall d | 0 < d < |m|
      ensures m[d..] != m[..|m| - d]
    {
      assert m[d..][0] != m[..|m| - d][0];
    }
  }

  /** A frame whose body is free of the marker splits into the body and the
      rest after the marker. */
  lemma SplitFrame(p: Primitives, body: Bytes)
    requires !Separate.Occurs(body, ChecksumPrefix)
    ensures Separate.Split(Frame(p, body), ChecksumPrefix)
         == [body] + Separate.Split(p.sha256(body), ChecksumPrefix)
  {
    MarkerBorderFree();
    Separate.BorderFreeClean(body, ChecksumPrefix);
    Separate.SplitClean(body, ChecksumPrefix, p.sha256(body));
  }

  /** A generated packet decodes, under the same password hash, to the bytes
      it was generated from — provided the marker [4, 3, 5, 2] occurs neither
      in the body nor in its checksum. */
  lemma RoundTrip(p: Primitives, obj: Bytes, passHash: Option<Bytes>, iv: Iv)
    requires Lawful(p)
    requires var body := PacketBody(p, obj, passHash, iv);
      body.Some? ==>
        !Separate.Occurs(body.value, ChecksumPrefix)
        && !Separate.Occurs(p.sha256(body.value), ChecksumPrefix)
    ensures GeneratePacket(p, obj, passHash, iv).Some?
    ensures DecodePacket(p, GeneratePacket(p, obj, passHash, iv).value, passHash) == Success(obj)
  {
    var z := p.gzip(obj);
    if HasKey(passHash) {
      EncryptDecrypt(p, z, passHash.value, iv);
    }
    var body := PacketBody(p, obj, passHash, iv).value;
    var f := Frame(p, body);
    SplitFrame(p, body);
    Separate.NoOccurrenceSplit(p.sha256(body), ChecksumPrefix);
    assert Separate.Split(f, ChecksumPrefix) == [body, p.sha256(body)];
  }

  /** A text packet decodes back to the UTF-8 bytes of its text, which decode
      to the text. */
  lemma RoundTripText(p: Primitives, text: string, passHash: Option<Bytes>, iv: Iv)
    requires Lawful(p)
    requires var body := PacketBody(p, p.utf8Encode(text), passHash, iv);
      body.Some? ==>
        !Separate.Occurs(body.value, ChecksumPrefix)
        && !Separate.Occurs(p.sha256(body.value), ChecksumPrefix)
    ensures GeneratePacketText(p, text, passHash, iv).Some?
    ensures var d := DecodePacket(p, GeneratePacketText(p, text, passHash, iv).value, passHash);
      d.Success? && p.utf8Decode(d.value) == text
  {
    var bytes := p.utf8Encode(text);
    RoundTrip(p, bytes, passHash, iv);
    assert GeneratePacketText(p, text, passHash, iv) == GeneratePacket(p, bytes, passHash, iv);
    assert p.utf8Decode(bytes) == text;
  }

  /** A body that happens to contain the marker yields three or more parts:
      the packet is rejected as corrupt although nothing was damaged. */
  lemma MarkerInBodyCorruptsFrame(p: Primitives, body: Bytes, passHash: Option<Bytes>)
    requires Lawful(p)
    requires Separate.Occurs(body, ChecksumPrefix)
    ensures DecodePacket(p, p.toBase64(Frame(p, body)), passHash) == Failure(CorruptFrame)
  {
    MarkerBorderFree();
    Separate.OccurrenceBeforeDelimiter(body, ChecksumPrefix, p.sha256(body));
  }

  /** Likewise when the checksum contains the marker. */
  lemma MarkerInChecksumCorruptsFrame(p: Primitives, body: Bytes, passHash: Option<Bytes>)
    requires Lawful(p)
    requires !Separate.Occurs(body, ChecksumPrefix)
    requires Separate.Occurs(p.sha256(body), ChecksumPrefix)
    ensures DecodePacket(p, p.toBase64(Frame(p, body)), passHash) == Failure(CorruptFrame)
  {
    var h := p.sha256(body);
    SplitFrame(p, body);
    var q :| 0 <= q <= |h| && Separate.MatchAt(h, ChecksumPrefix, q);
    Separate.MatchGivesTwoParts(h, ChecksumPrefix, 0, 0, q);
  }

  /** Without a key, a packet generated with a key is not decoded to the
      payload: what is decompressed is the cipher text. */
  lemma DecodeWithoutKeyDecompressesCipher(p: Primitives, obj: Bytes, passHash: Bytes, iv: Iv)
    requires Lawful(p) && |passHash| > 0
    requires var body := PacketBody(p, obj, Some(passHash), iv);
      body.Some? ==>
        !Separate.Occurs(body.value, ChecksumPrefix)
        && !Separate.Occurs(p.sha256(body.value), ChecksumPrefix)
    ensures var d := DecodePacket(p, GeneratePacket(p, obj, Some(passHash), iv).value, None);
      d.Success? ==> p.gunzip(Encrypt(p, p.gzip(obj), passHash, iv).value) == Some(d.value)
  {
    EncryptDecrypt(p, p.gzip(obj), passHash, iv);
    var body := PacketBody(p, obj, Some(passHash), iv).value;
    SplitFrame(p, body);
    Separate.NoOccurrenceSplit(p.sha256(body), ChecksumPrefix);
  }
}

=== FILE: file_job.dfy ===
/**
 `FileJob`: one file transfer, either sending (transmit) or receiving, driven
 by `^^`-separated text tokens. Each `Process` call is a step function from
 the job, the token and the file system to the next job, the success flag,
 the packet to send and the next file system.

 The clock (`now`, in milliseconds), the IV of an encryption, the random
 source and the Guid are inputs of the step; the file system is a map from
 paths to contents plus a set of directories.
 */
module FileJobs {
  import opened Wrappers
  import Separate
  import SocketUtil
  import Text
  import Codec

  type Bytes = Codec.Bytes

  /** The field separator of every token. */
  const FieldSeparator: string := "^^"

  /** Bytes read per `SWFD` chunk. */
  const ChunkSize: nat := 65535

  /** `AddSeconds(30)`: the deadline after every step that expects an answer. */
  const StepTimeout: int := 30_000

  /** `AddMinutes(5)`: the deadline while queued. */
  const QueueTimeout: int := 300_000

  /** The acknowledgement a transmit job waits for, written without string
      interpolation: it is the literal text `$SWAK^^{ID}`. */
  const AckLiteral: string := "$SWAK^^{ID}"

  datatype JobType = Transmit | Receive

  datatype Status = Disabled | Queued | Running | Success | Failed

  /** A `FileStream`: the bytes of the file, the read or write position and
      whether it is still open. A receive job's stream grows as it writes. */
  datatype Stream = Stream(content: Bytes, position: nat, open: bool)

  datatype Job = Job(
    jobType: JobType,
    id: string,
    filePath: string,
    status: Status,
    expectedLength: int,
    currentLength: int,
    currentParts: int,
    stream: Option<Stream>,
    expire: int,
    ackRequired: bool,
    endTime: Option<int>)

  datatype FileSystem = FileSystem(files: map<string, Bytes>, dirs: set<string>)

  /** What stays fixed across steps: the library primitives, the password
      hash and `MakeRelative(Path.GetFullPath(_))`. */
  datatype Env = Env(prims: Codec.Primitives, passHash: Option<Bytes>, relativize: string -> string)

  /** What the environment supplies to one step. */
  datatype Inputs = Inputs(now: int, iv: Codec.Iv, rng: SocketUtil.Rng, guid: string)

  /** The result of a step: the `bool` the source returns and its `out`
      packet, or `Threw` for an exception no `try` of the job catches,
      with the job as the exception leaves it. */
  datatype Step =
    | Done(job: Job, ok: bool, packet: Option<string>, fs: FileSystem)
    | Threw(job: Job)

  function Min(a: int, b: int): int {
    if a <= b then a else b
  }

  /** The fields of a token. */
  function Fields(token: string): (spl: seq<string>)
    ensures |spl| >= 1
    ensures Separate.Join(spl, FieldSeparator) == token
  {
    Separate.SplitProperties(token, FieldSeparator);
    Separate.Split(token, FieldSeparator)
  }

  // ---------------------------------------------------------------- construction

  /** `new FileJob(type, filePath)`: a disabled job with no ID; `_Expire`
      is the construction time and the part counter starts at -1. */
  function NewJob(jobType: JobType, filePath: string, now: int): (j: Job)
    ensures j.jobType == jobType && j.filePath == filePath && j.status == Disabled
    ensures j.id == "" && j.stream.None? && j.currentParts == -1 && j.currentLength == 0
  {
    Job(jobType, "", filePath, Disabled, 0, 0, -1, None, now, false, None)
  }

  function CreateReceiveJob(filePath: string, now: int): (j: Job)
    ensures j.jobType == Receive && j.status == Disabled && j.id == ""
  {
    NewJob(Receive, filePath, now)
  }

  function CreateTransmitJob(filePath: string, now: int): (j: Job)
    ensures j.jobType == Transmit && j.status == Disabled && j.id == ""
  {
    NewJob(Transmit, filePath, now)
  }

  // ---------------------------------------------------------------- status

  predicate IsCompleted(j: Job) {
    j.status == Status.Success || j.status == Failed
  }

  predicate StreamClosed(j: Job) {
    j.stream.None? || !j.stream.value.open
  }

  function CloseStream(s: Option<Stream>): (r: Option<Stream>)
    ensures r.None? <==> s.None?
    ensures r.Some? ==> !r.value.open && r.value.content == s.value.content && r.value.position == s.value.position
  {
    match s
    case None => None
    case Some(st) => Some(st.(open := false))
  }

  /** A job and the packet a queue request produced. */
  datatype Requested = Requested(job: Job, packet: Option<string>)

  /** `RequestQueueBegin`: a running job becomes queued and announces
      `SWQS^^ID`; any other job is left as it is. */
  function RequestQueueBegin(env: Env, inp: Inputs, j: Job): (r: Requested)
    ensures j.status != Running ==> r == Requested(j, None)
    ensures j.status == Running ==>
      && r.job == j.(status := Queued)
      && r.packet == Codec.GeneratePacketText(env.prims, "SWQS^^" + j.id, env.passHash, inp.iv)
  {
    if j.status != Running then Requested(j, None)
    else Requested(j.(status := Queued), Codec.GeneratePacketText(env.prims, "SWQS^^" + j.id, env.passHash, inp.iv))
  }

  /** `RequestQueueEnd`: a queued job resumes and announces `SWQE^^ID`. */
  function RequestQueueEnd(env: Env, inp: Inputs, j: Job): (r: Requested)
    ensures j.status != Queued ==> r == Requested(j, None)
    ensures j.status == Queued ==>
      && r.job == j.(status := Running)
      && r.packet == Codec.GeneratePacketText(env.prims, "SWQE^^" + j.id, env.passHash, inp.iv)
  {
    if j.status != Queued then Requested(j, None)
    else Requested(j.(status := Running), Codec.GeneratePacketText(env.prims, "SWQE^^" + j.id, env.passHash, inp.iv))
  }

  /** Beginning and then ending a queue request brings a running job back to
      where it was. */
  lemma QueueBeginEndRestores(env: Env, inp: Inputs, j: Job)
    requires j.status == Running
    ensures RequestQueueEnd(env, inp, RequestQueueBegin(env, inp, j).job).job == j
  {
  }

  // ---------------------------------------------------------------- Percentage

  function Abs(a: int): nat {
    if a < 0 then -a else a
  }

  /** C# `long` division: the quotient is truncated toward zero. */
  function TruncDiv(a: int, b: int): (q: int)
    requires b != 0
    ensures a >= 0 && b > 0 ==> q == a / b
  {
    if (a < 0) != (b < 0) then -(Abs(a) / Abs(b)) else Abs(a) / Abs(b)
  }

  /** `Percentage` as written: the division comes before the multiplication,
      so the result is 0 until the transfer is complete and 100 after. */
  function Percentage(j: Job): (r: int)
    ensures r <= 100
    ensures j.expectedLength <= 0 ==> r == 0
    ensures j.expectedLength > 0 && j.currentLength >= 0 ==>
      (r == 0 || r == 100) && (r == 100 <==> j.currentLength >= j.expectedLength)
  {
    if j.expectedLength <= 0 then 0
    else Min(TruncDiv(j.currentLength, j.expectedLength) * 100, 100)
  }

  /** The percentage the property evidently means: the share of the expected
      length received so far, rounded down and capped at 100. */
  function PercentageIntended(j: Job): (r: int)
    ensures r <= 100
    ensures j.expectedLength <= 0 ==> r == 0
    ensures j.expectedLength > 0 && j.currentLength >= 0 ==>
      0 <= r && r * j.expectedLength <= j.currentLength * 100
      && (r < 100 ==> j.currentLength * 100 < (r + 1) * j.expectedLength)
  {
    if j.expectedLength <= 0 then 0
    else Min(j.currentLength * 100 / j.expectedLength, 100)
  }

  /** Half of a 100-byte file: the source reports 0 %, the intended value is 50 %. */
  lemma PercentageHalfway()
    ensures var j := NewJob(Receive, "f", 0).(expectedLength := 100, currentLength := 50);
      Percentage(j) == 0 && PercentageIntended(j) == 50
  {
  }

  // ---------------------------------------------------------------- TryParseReceiveHeader

  /** The text fields of an `SWHD^^path^^id^^length` header. */
  datatype HeaderFields = HeaderFields(filePath: string, id: string, lengthText: string)

  /** The syntactic checks of `TryParseReceiveHeader`: a non-empty token of
      exactly four fields whose first is `SWHD` once trimmed; path and id are
      trimmed, the length text is not. */
  function ReadHeaderFields(token: string): (r: Option<HeaderFields>)
    ensures r.Some? <==> token != "" && |Fields(token)| == 4 && Text.Trim(Fields(token)[0]) == "SWHD"
    ensures r.Some? ==>
      && r.value.filePath == Text.Trim(Fields(token)[1])
      && r.value.id == Text.Trim(Fields(token)[2]) && r.value.lengthText == Fields(token)[3]
  {
    if token == "" then None
    else
      var spl := Fields(token);
      if |spl| != 4 || Text.Trim(spl[0]) != "SWHD" then None
      else Some(HeaderFields(Text.Trim(spl[1]), Text.Trim(spl[2]), spl[3]))
  }

  /** A header the parser accepts. */
  datatype Header = Header(id: string, filePath: string, expectedLength: int)

  /** The outcome of a parse that touches the file system: the value, a
      rejection (`false`), or an exception, each with the file system as it
      was left. */
  datatype Parse<T> = Parsed(value: T, fs: FileSystem) | Rejected(fs: FileSystem) | ParseThrew(fs: FileSystem)

  predicate EndsWithSeparator(path: string) {
    |path| > 0 && (path[|path| - 1] == '/' || path[|path| - 1] == '\\')
  }

  /** The separator the directory loop splits on: `/`, unless that gives a
      single part, then `\`. */
  function PathSeparator(path: string): (sep: string)
    ensures |sep| == 1
  {
    if |PathComponents(path, "/")| > 1 then "/" else "\\"
  }

  /** The components of a path between separators. */
  function PathComponents(path: string, sep: string): (parts: seq<string>)
    requires |sep| > 0
    ensures |parts| >= 1
  {
    Separate.Split(path, sep)
  }

  /** `Directory.CreateDirectory` applied to each of `dirs` in turn, skipping
      empty names. Creating a directory where a file exists throws; the
      flag says so, and the file system is the one at that point. */
  function CreateDirectories(fs: FileSystem, dirs: seq<string>): (r: (FileSystem, bool))
    ensures r.0.files == fs.files && fs.dirs <= r.0.dirs
    ensures r.1 <==> exists k :: 0 <= k < |dirs| && dirs[k] != "" && dirs[k] in fs.files
    ensures !r.1 ==> r.0.dirs == fs.dirs + (set k | 0 <= k < |dirs| && dirs[k] != "" :: dirs[k])
    decreases |dirs|
  {
    if |dirs| == 0 then (fs, false)
    else if dirs[0] != "" && dirs[0] in fs.files then (fs, true)
    else
      var fs1 := if dirs[0] == "" then fs else fs.(dirs := fs.dirs + {dirs[0]});
      var r := CreateDirectories(fs1, dirs[1..]);
      assert forall k :: 0 < k < |dirs| ==> dirs[k] == dirs[1..][k - 1];
      assert r.1 ==> exists k :: 0 <= k < |dirs| && dirs[k] != "" && dirs[k] in fs.files by {
        if r.1 {
          var k :| 0 <= k < |dirs[1..]| && dirs[1..][k] != "" && dirs[1..][k] in fs1.files;
          assert dirs[k + 1] == dirs[1..][k];
        }
      }
      assert !r.1 ==> r.0.dirs == fs.dirs + (set k | 0 <= k < |dirs| && dirs[k] != "" :: dirs[k]) by {
        if !r.1 {
          var tail := set k | 0 <= k < |dirs[1..]| && dirs[1..][k] != "" :: dirs[1..][k];
          var all := set k | 0 <= k < |dirs| && dirs[k] != "" :: dirs[k];
          assert all == tail + (if dirs[0] == "" then {} else {dirs[0]}) by {
            forall d | d in all ensures d in tail + (if dirs[0] == "" then {} else {dirs[0]}) {
              var k :| 0 <= k < |dirs| && dirs[k] != "" && dirs[k] == d;
              if k > 0 {
                assert dirs[1..][k - 1] == d;
              }
            }
            forall d | d in tail ensures d in all {
              var k :| 0 <= k < |dirs[1..]| && dirs[1..][k] != "" && dirs[1..][k] == d;
              assert dirs[k + 1] == d;
            }
          }
        }
      }
      r
  }

  /** Where `FileMode.CreateNew` succeeds: a non-empty path naming neither a
      file nor a directory, in a directory that exists. */
  predicate CanCreateNew(fs: FileSystem, path: string, parent: string) {
    path != "" && path !in fs.files && path !in fs.dirs && (parent == "" || parent in fs.dirs)
  }

  /** `TryParseReceiveHeader`: read the fields, convert the length (an
      exception, outside any `try`), append the Guid to a path that names a
      directory, create every directory component at the top level, then
      create the file. */
  function TryParseReceiveHeader(token: string, fs: FileSystem, guid: string): (r: Parse<Header>)
    ensures ReadHeaderFields(token).None? ==> r == Rejected(fs)
    ensures r.Parsed? || r.ParseThrew? ==> ReadHeaderFields(token).Some?
    ensures r.Parsed? ==>
      var f := ReadHeaderFields(token).value;
      && r.value.id == f.id
      && Text.ParseInt64(f.lengthText) == Some(r.value.expectedLength)
      && r.value.filePath == (if EndsWithSeparator(f.filePath) then f.filePath + guid else f.filePath)
      && r.value.filePath !in fs.files
      && r.fs.files == fs.files[r.value.filePath := []]
    ensures fs.dirs <= r.fs.dirs
    ensures r.Rejected? || r.ParseThrew? ==> r.fs.files == fs.files
  {
    match ReadHeaderFields(token)
    case None => Rejected(fs)
    case Some(f) =>
      match Text.ParseInt64(f.lengthText)
      case None => ParseThrew(fs)
      case Some(len) =>
        var path := if EndsWithSeparator(f.filePath) then f.filePath + guid else f.filePath;
        var sep := PathSeparator(path);
        var comps := PathComponents(path, sep);
        var (fs1, threw) := CreateDirectories(fs, comps[..|comps| - 1]);
        if threw then ParseThrew(fs1)
        else if !CanCreateNew(fs1, path, Separate.Join(comps[..|comps| - 1], sep)) then Rejected(fs1)
        else Parsed(Header(f.id, path, len), fs1.(files := fs1.files[path := []]))
  }

  /** `FileJob.TryParse`: the job of an accepted header is a running receive
      job that owns the freshly created file; its deadline is the
      construction time. The base folder is not used. */
  function TryParse(token: string, baseFolderPath: string, fs: FileSystem, inp: Inputs): (r: Parse<Job>)
    ensures r.Parsed? ==>
      && r.value.jobType == Receive && r.value.status == Running
      && r.value.stream == Some(Stream([], 0, true))
      && r.value.expire == inp.now
      && r.value.currentParts == -1 && r.value.currentLength == 0
    ensures r.Parsed? <==> TryParseReceiveHeader(token, fs, inp.guid).Parsed?
  {
    match TryParseReceiveHeader(token, fs, inp.guid)
    case Parsed(h, fs1) =>
      Parsed(Job(Receive, h.id, h.filePath, Running, h.expectedLength, 0, -1, Some(Stream([], 0, true)), inp.now, false, None), fs1)
    case Rejected(fs1) => Rejected(fs1)
    case ParseThrew(fs1) => ParseThrew(fs1)
  }

  /** A field that survives the round trip through `^^`: it contains no
      `^^` and does not end with `^`. */
  predicate PlainField(s: string) {
    !Separate.Occurs(s, FieldSeparator) && (|s| == 0 || s[|s| - 1] != '^')
  }

  /** A field without `^` is plain. */
  lemma CaretFreePlain(s: string)
    requires forall k :: 0 <= k < |s| ==> s[k] != '^'
    ensures PlainField(s)
  {
    forall q | 0 <= q <= |s|
      ensures !Separate.MatchAt(s, FieldSeparator, q)
    {
      if q + 2 <= |s| {
        assert s[q..q + 2][0] == s[q];
      }
    }
  }

  lemma PlainFieldClean(s: string)
    requires PlainField(s)
    ensures Separate.Clean(s, FieldSeparator)
  {
    var t := s + FieldSeparator;
    forall p | 0 <= p < |s|
      ensures !Separate.MatchAt(t, FieldSeparator, p)
    {
      if p + 1 < |s| {
        assert t[p..p + 2] == s[p..p + 2];
        assert !Separate.MatchAt(s, FieldSeparator, p);
      } else {
        assert t[p..p + 2][0] == s[|s| - 1];
      }
    }
  }

  /** The header a transmit job sends. */
  function HeaderToken(path: string, id: string, length: int): string {
    "SWHD^^" + path + "^^" + id + "^^" + Text.FormatInt(length)
  }

  /** Joining four fields with `^^` gives the interpolated header text. */
  lemma HeaderTokenJoin(path: string, id: string, n: string)
    ensures Separate.Join(["SWHD", path, id, n], FieldSeparator) == "SWHD^^" + path + "^^" + id + "^^" + n
  {
    Separate.JoinCons(id, [n], FieldSeparator);
    assert [id] + [n] == [id, n];
    Separate.JoinCons(path, [id, n], FieldSeparator);
    assert [path] + [id, n] == [path, id, n];
    Separate.JoinCons("SWHD", [path, id, n], FieldSeparator);
    assert ["SWHD"] + [path, id, n] == ["SWHD", path, id, n];
  }

  /** A header built from plain fields splits into exactly those fields. */
  lemma HeaderTokenFields(path: string, id: string, length: int)
    requires PlainField(path) && PlainField(id)
    ensures Fields(HeaderToken(path, id, length)) == ["SWHD", path, id, Text.FormatInt(length)]
  {
    var n := Text.FormatInt(length);
    var parts := ["SWHD", path, id, n];
    HeaderTokenJoin(path, id, n);
    CaretFreePlain("SWHD");
    PlainFieldClean("SWHD");
    PlainFieldClean(path);
    PlainFieldClean(id);
    Text.FormatIntHasNoWhiteSpace(length);
    CaretFreePlain(n);
    Separate.SplitJoin(parts, FieldSeparator);
  }

  /** A header built from plain fields is read back as its trimmed path, its
      trimmed id and its length. */
  lemma HeaderRoundTrip(path: string, id: string, length: int)
    requires PlainField(path) && PlainField(id)
    requires Text.MinLong <= length <= Text.MaxLong
    ensures var f := ReadHeaderFields(HeaderToken(path, id, length));
      f.Some? && f.value.filePath == Text.Trim(path) && f.value.id == Text.Trim(id)
      && Text.ParseInt64(f.value.lengthText) == Some(length)
  {
    HeaderTokenFields(path, id, length);
    Text.TrimWithKeeps("SWHD", Text.IsWhiteSpace);
    Text.ParseFormatInt(length);
  }

  // ---------------------------------------------------------------- RawProcessTransmit

  /** `RawProcessTransmit`. A disabled job announces the file (with a fresh
      random ID that it never stores) and opens it; a running job handles a
      queue request, then the acknowledgement, then sends the next chunk or,
      at the end of the file, `SWDD` with its part counter; a queued job
      waits for `SWQE` or its deadline. */
  function RawProcessTransmit(env: Env, inp: Inputs, job: Job, token: string, fs: FileSystem): (r: Step)
    ensures r.Done? ==> r.fs == fs && r.job.jobType == job.jobType && r.job.id == job.id
    ensures job.jobType == Receive ==> r == Done(job, false, None, fs)
    ensures IsCompleted(job) && job.jobType == Transmit ==> r == Done(job, true, None, fs)
    ensures r.Threw? ==>
      && job.jobType.Transmit?
      && ((job.status == Disabled && job.filePath !in fs.files)
          || (job.status == Running && job.stream.Some? && !job.stream.value.open))
    ensures r.Threw? ==> r.job == job || r.job == job.(ackRequired := false, expire := inp.now + StepTimeout)
  {
    if job.jobType == Receive then Done(job, false, None, fs)
    else if job.status == Disabled then
      var id := SocketUtil.GenerateRandomString(4, inp.rng);
      if job.filePath !in fs.files then Threw(job) // FileInfo.Length of a missing file
      else
        var content := fs.files[job.filePath];
        var header := HeaderToken(env.relativize(job.filePath), id, |content|);
        var packet := Codec.GeneratePacketText(env.prims, header, env.passHash, inp.iv);
        if packet.None? then Done(job.(expectedLength := 0), false, None, fs)
        else
          Done(job.(expectedLength := |content|, stream := Some(Stream(content, 0, true)),
                    status := Running, expire := inp.now + StepTimeout),
               true, packet, fs)
    else if job.status == Running then
      if token == "SWQS^^" + job.id then
        Done(job.(status := Queued, expire := inp.now + QueueTimeout), true, None, fs)
      else
        var j1 := if job.ackRequired && token == AckLiteral
          then job.(ackRequired := false, expire := inp.now + StepTimeout) else job;
        if j1.ackRequired || j1.stream.None? then Done(j1, true, None, fs)
        else if !j1.stream.value.open then Threw(j1) // Read on a closed stream
        else
          var s := j1.stream.value;
          var n := if s.position >= |s.content| then 0 else Min(ChunkSize, |s.content| - s.position);
          if n == 0 then
            var packet := Codec.GeneratePacketText(env.prims,
              "SWDD^^" + j1.id + "^^" + Text.FormatInt(j1.currentParts), env.passHash, inp.iv);
            if packet.None? then Done(j1, false, None, fs)
            else Done(j1.(status := Status.Success, expire := inp.now + StepTimeout), true, packet, fs)
          else
            var chunk := s.content[s.position..s.position + n];
            var j2 := j1.(stream := Some(s.(position := s.position + n)),
                          currentParts := j1.currentParts + 1,
                          currentLength := j1.currentLength + n);
            // the chunk is framed without the password hash
            var packet := Codec.GeneratePacketText(env.prims,
              "SWFD^^" + j1.id + "^^" + env.prims.toBase64(chunk), None, inp.iv);
            if packet.None? then Done(j2, false, None, fs)
            else Done(j2.(ackRequired := true, expire := inp.now + StepTimeout), true, packet, fs)
    else if job.status == Queued then
      if token == "SWQE^^" + job.id then
        Done(job.(expire := inp.now + StepTimeout, status := Running), true, None, fs)
      else if inp.now > job.expire then Done(job, false, None, fs)
      else Done(job, true, None, fs)
    else Done(job, true, None, fs)
  }

  // ---------------------------------------------------------------- RawProcessReceive

  /** The condition shared by `SWFD` and `SWDD`: a running job with an ID,
      a three-field token addressed to it, and a stream. */
  predicate AcceptsData(job: Job, spl: seq<string>) {
    job.status == Running && job.id != "" && |spl| == 3 && spl[1] == job.id && job.stream.Some?
  }

  /** The cases of the `switch` on the trimmed first field of a token. */
  datatype Command = QueueEnd | QueueStart | FileHeader | Data | DataEnd | Unknown

  function CommandOf(cmd: string): Command {
    if cmd == "SWQE" then QueueEnd
    else if cmd == "SWQS" then QueueStart
    else if cmd == "SWHD" then FileHeader
    else if cmd == "SWFD" then Data
    else if cmd == "SWDD" then DataEnd
    else Unknown
  }

  /** Each command name selects its own case. */
  lemma CommandNames()
    ensures CommandOf("SWQE") == QueueEnd && CommandOf("SWQS") == QueueStart && CommandOf("SWHD") == FileHeader
    ensures CommandOf("SWFD") == Data && CommandOf("SWDD") == DataEnd
  {
  }

  /** The `SWFD` case of `ProcessReceive`: a chunk for this job is decoded
      and appended to its stream, and an acknowledgement is packed. */
  function ReceiveChunkStep(env: Env, inp: Inputs, job: Job, spl: seq<string>, fs: FileSystem): (r: Step)
    ensures r.Done? && r.fs == fs && r.job.jobType == job.jobType && r.job.status == job.status
    ensures !AcceptsData(job, spl) ==> r == Done(job, true, None, fs)
  {
    if !AcceptsData(job, spl) then Done(job, true, None, fs)
    else
      match env.prims.fromBase64(Text.Trim(spl[2]))
      case None => Done(job, false, None, fs)
      case Some(res) =>
        var s := job.stream.value;
        if !s.open then Done(job, false, None, fs)
        else
          var j1 := job.(stream := Some(s.(content := s.content + res, position := s.position + |res|)),
                         currentLength := job.currentLength + |res|,
                         currentParts := job.currentParts + 1,
                         expire := inp.now + StepTimeout);
          Done(j1, true, Codec.GeneratePacketText(env.prims, "SWAK^^" + job.id, env.passHash, inp.iv), fs)
  }

  /** The `SWDD` case of `ProcessReceive`: the job's stream is closed and it
      succeeds exactly when the announced part count is its own. */
  function ReceiveEndStep(job: Job, spl: seq<string>, fs: FileSystem): (r: Step)
    ensures r.Done? && r.fs == fs && r.job.jobType == job.jobType
    ensures !AcceptsData(job, spl) ==> r == Done(job, true, None, fs)
  {
    if !AcceptsData(job, spl) then Done(job, true, None, fs)
    else
      match Text.ParseInt64(spl[2])
      case None => Done(job, false, None, fs)
      case Some(expectedParts) =>
        Done(job.(stream := CloseStream(job.stream),
                  status := if expectedParts == job.currentParts then Status.Success else Failed),
             true, None, fs)
  }

  /** `RawProcessReceive`: dispatch on the trimmed first field. Exceptions
      inside (bad base64, a write to a closed stream, a bad number, a failing
      header) make the step fail. */
  function RawProcessReceive(env: Env, inp: Inputs, job: Job, token: string, fs: FileSystem): (r: Step)
    ensures r.Done?
    ensures job.jobType == Transmit ==> r == Done(job, false, None, fs)
    ensures job.jobType == Receive && |Fields(token)| <= 1 ==> r == Done(job, true, None, fs)
    ensures r.job.jobType == job.jobType
    ensures r.fs.files != fs.files ==> job.status == Disabled && r.job.status == Running
  {
    if job.jobType == Transmit then Done(job, false, None, fs)
    else
      var spl := Fields(token);
      if |spl| <= 1 then Done(job, true, None, fs)
      else
        match CommandOf(Text.Trim(spl[0]))
        case QueueEnd =>
          if job.status != Queued || |spl| != 2 || spl[1] != job.id then Done(job, true, None, fs)
          else Done(job.(status := Running, expire := inp.now + StepTimeout), true, None, fs)
        case QueueStart =>
          if job.status == Queued || |spl| != 2 || spl[1] != job.id then Done(job, true, None, fs)
          else Done(job.(status := Queued, expire := inp.now + QueueTimeout), true, None, fs)
        case FileHeader =>
          if job.status != Disabled || job.id != "" || |spl| != 4 then Done(job, true, None, fs)
          else
            (match TryParseReceiveHeader(token, fs, inp.guid)
             case ParseThrew(fs1) => Done(job, false, None, fs1)
             case Rejected(fs1) => Done(job, true, None, fs1)
             case Parsed(h, fs1) =>
               // the stream the parser opened is not kept
               Done(job.(expectedLength := h.expectedLength, id := h.id, filePath := h.filePath,
                         status := Running, expire := inp.now + StepTimeout),
                    true, None, fs1))
        case Data => ReceiveChunkStep(env, inp, job, spl, fs)
        case DataEnd => ReceiveEndStep(job, spl, fs)
        case Unknown => Done(job, true, None, fs)
  }

  // ---------------------------------------------------------------- Process

  /** The bookkeeping at the end of a failed or successful step: the status
      (failed unless the step succeeded), the end time, the closed stream. */
  function Finish(j: Job, ok: bool, now: int): (f: Job)
    ensures f.status == (if ok then j.status else Failed)
    ensures f.endTime == Some(now) && StreamClosed(f)
    ensures f.jobType == j.jobType && f.id == j.id && f.currentParts == j.currentParts
    ensures f.currentLength == j.currentLength
  {
    j.(status := if ok then j.status else Failed, endTime := Some(now), stream := CloseStream(j.stream))
  }

  /** The job as `Process` leaves it after a raw step returned `ok`. */
  function Settle(j: Job, ok: bool, now: int): (s: Job)
    ensures !ok || j.status == Status.Success ==> s == Finish(j, ok, now)
    ensures ok && j.status != Status.Success ==> s == j
  {
    if !ok || j.status == Status.Success then Finish(j, ok, now) else j
  }

  predicate Expired(j: Job, now: int) {
    (j.status == Running || j.status == Queued) && now >= j.expire
  }

  /** `Process(string)`: a running or queued job at or past its deadline
      fails without looking at the token; otherwise the transmit or receive
      step runs. A step that returned false, or a job that succeeded, is
      finished: marked failed if the step returned false, given its end time
      and its stream closed. */
  function Process(env: Env, inp: Inputs, job: Job, token: string, fs: FileSystem): (r: Step)
    ensures Expired(job, inp.now) ==> r == Done(Finish(job, false, inp.now), false, None, fs)
    ensures r.Done? && !r.ok ==> r.job.status == Failed && StreamClosed(r.job) && r.job.endTime == Some(inp.now)
    ensures r.Done? && r.job.status == Status.Success ==> StreamClosed(r.job)
    ensures r.Done? ==> r.job.jobType == job.jobType
    ensures r.Threw? ==> job.jobType == Transmit
    ensures r.Threw? ==> r.job == job || r.job == job.(ackRequired := false, expire := inp.now + StepTimeout)
  {
    var raw :=
      if Expired(job, inp.now) then Done(job, false, None, fs)
      else if job.jobType == Transmit then RawProcessTransmit(env, inp, job, token, fs)
      else RawProcessReceive(env, inp, job, token, fs);
    match raw
    case Threw(j) => Threw(j)
    case Done(j, ok, packet, fs1) => Done(Settle(j, ok, inp.now), ok, packet, fs1)
  }

  /** The result of `Process(string[])`: the job, the file system, the
      number of successful steps and the packets they produced, or the job
      as an escaping exception leaves it. */
  datatype Run = Ran(job: Job, fs: FileSystem, count: nat, packets: seq<string>) | RunThrew(job: Job)

  /** A job's step on one token, with the shape of `Process(string)`. */
  type StepFn = (Env, Inputs, Job, string, FileSystem) -> Step

  /** The loop of `Process(string[])` over any step: each token in turn;
      the steps that return true are counted and their packets collected. */
  function RunAll(step: StepFn, env: Env, inputs: seq<Inputs>, job: Job, tokens: seq<string>, fs: FileSystem): (r: Run)
    requires |inputs| == |tokens|
    ensures r.Ran? ==> r.count <= |tokens| && |r.packets| <= r.count
    ensures r.Ran? && |tokens| > 0 ==> step(env, inputs[0], job, tokens[0], fs).Done?
    decreases |tokens|
  {
    if |tokens| == 0 then Ran(job, fs, 0, [])
    else
      match step(env, inputs[0], job, tokens[0], fs)
      case Threw(j1) => RunThrew(j1)
      case Done(j, ok, packet, fs1) =>
        match RunAll(step, env, inputs[1..], j, tokens[1..], fs1)
        case RunThrew(j2) => RunThrew(j2)
        case Ran(j2, fs2, count, packets) =>
          var mine := if ok && packet.Some? then [packet.value] else [];
          Ran(j2, fs2, count + (if ok then 1 else 0), mine + packets)
  }

  /** `Process(string[])`: the loop over the tokens with the job's own step. */
  function ProcessAll(env: Env, inputs: seq<Inputs>, job: Job, tokens: seq<string>, fs: FileSystem): (r: Run)
    requires |inputs| == |tokens|
    ensures r.Ran? ==> r.count <= |tokens| && |r.packets| <= r.count
    ensures r.Ran? && |tokens| > 0 ==> Process(env, inputs[0], job, tokens[0], fs).Done?
  {
    RunAll(Process, env, inputs, job, tokens, fs)
  }

  /** A run continued by the tokens that follow: an exception stops it,
      otherwise the counts add up and the packets follow in order. */
  function RunThen(step: StepFn, env: Env, r: Run, inputs: seq<Inputs>, tokens: seq<string>): Run
    requires |inputs| == |tokens|
  {
    match r
    case RunThrew(j) => RunThrew(j)
    case Ran(j, fs1, count1, packets1) =>
      match RunAll(step, env, inputs, j, tokens, fs1)
      case RunThrew(j2) => RunThrew(j2)
      case Ran(j2, fs2, count2, packets2) => Ran(j2, fs2, count1 + count2, packets1 + packets2)
  }

  /** Running two token lists one after the other is running their
      concatenation: the loop keeps no state but the job and the file
      system. */
  lemma {:induction false} RunAllAppend(step: StepFn, env: Env, inputs1: seq<Inputs>, inputs2: seq<Inputs>, job: Job,
                                        tokens1: seq<string>, tokens2: seq<string>, fs: FileSystem)
    requires |inputs1| == |tokens1| && |inputs2| == |tokens2|
    ensures RunAll(step, env, inputs1 + inputs2, job, tokens1 + tokens2, fs)
         == RunThen(step, env, RunAll(step, env, inputs1, job, tokens1, fs), inputs2, tokens2)
    decreases |tokens1|
  {
    if |tokens1| == 0 {
      assert inputs1 + inputs2 == inputs2 && tokens1 + tokens2 == tokens2;
      var r := RunAll(step, env, inputs2, job, tokens2, fs);
      if r.Ran? {
        assert [] + r.packets == r.packets;
      }
    } else {
      var inputs, tokens := inputs1 + inputs2, tokens1 + tokens2;
      assert inputs[0] == inputs1[0] && tokens[0] == tokens1[0];
      assert inputs[1..] == inputs1[1..] + inputs2 && tokens[1..] == tokens1[1..] + tokens2;
      match step(env, inputs1[0], job, tokens1[0], fs)
      case Threw(j) =>
      case Done(j, ok, packet, fs1) =>
        RunAllAppend(step, env, inputs1[1..], inputs2, j, tokens1[1..], tokens2, fs1);
        var mine: seq<string> := if ok && packet.Some? then [packet.value] else [];
        var rest := RunAll(step, env, inputs1[1..], j, tokens1[1..], fs1);
        if rest.Ran? {
          var more := RunAll(step, env, inputs2, rest.job, tokens2, rest.fs);
          if more.Ran? {
            assert mine + (rest.packets + more.packets) == (mine + rest.packets) + more.packets;
          }
        }
    }
  }

  /** `Process(string[])` over two token lists is the run over the first
      continued by the second. */
  lemma ProcessAllAppend(env: Env, inputs1: seq<Inputs>, inputs2: seq<Inputs>, job: Job,
                         tokens1: seq<string>, tokens2: seq<string>, fs: FileSystem)
    requires |inputs1| == |tokens1| && |inputs2| == |tokens2|
    ensures ProcessAll(env, inputs1 + inputs2, job, tokens1 + tokens2, fs)
         == RunThen(Process, env, ProcessAll(env, inputs1, job, tokens1, fs), inputs2, tokens2)
  {
    RunAllAppend(Process, env, inputs1, inputs2, job, tokens1, tokens2, fs);
  }

  /** One token: the run is that token's step, counted when it returned
      true, with its packet kept when there is one. */
  lemma ProcessAllSingle(env: Env, inp: Inputs, job: Job, token: string, fs: FileSystem)
    ensures match Process(env, inp, job, token, fs)
      case Threw(j) => ProcessAll(env, [inp], job, [token], fs) == RunThrew(j)
      case Done(j, ok, packet, fs1) =>
        ProcessAll(env, [inp], job, [token], fs)
          == Ran(j, fs1, if ok then 1 else 0, if ok && packet.Some? then [packet.value] else [])
  {
    RunAllSingle(Process, env, inp, job, token, fs);
  }

  /** One token through the loop over any step. */
  lemma RunAllSingle(step: StepFn, env: Env, inp: Inputs, job: Job, token: string, fs: FileSystem)
    ensures match step(env, inp, job, token, fs)
      case Threw(j) => RunAll(step, env, [inp], job, [token], fs) == RunThrew(j)
      case Done(j, ok, packet, fs1) =>
        RunAll(step, env, [inp], job, [token], fs)
          == Ran(j, fs1, if ok then 1 else 0, if ok && packet.Some? then [packet.value] else [])
  {
    assert [inp][1..] == [] && [token][1..] == [];
    match step(env, inp, job, token, fs)
    case Threw(j) =>
    case Done(j, ok, packet, fs1) =>
      var mine: seq<string> := if ok && packet.Some? then [packet.value] else [];
      assert mine + [] == mine;
  }

  // ---------------------------------------------------------------- invariant

  /** What every job reachable from `NewJob` or `TryParse` satisfies: the
      part counter starts at -1 and only grows, a disabled job has no
      stream, a completed job's stream is closed, the byte counter is the
      stream position, a receive stream is positioned at its end, and a
      transmit stream has read one full chunk per part before the end of the
      file. A transmit stream is open exactly while the job is not
      completed. */
  predicate Valid(j: Job) {
    && j.currentParts >= -1
    && (j.status == Disabled ==> j.stream.None?)
    && (IsCompleted(j) ==> StreamClosed(j))
    && match j.stream
       case None => j.currentParts == -1 && j.currentLength == 0
       case Some(s) =>
         && j.currentLength == s.position <= |s.content|
         && (j.jobType == Receive ==> s.position == |s.content|)
         && (j.jobType == Transmit ==>
               s.position == Min((j.currentParts + 1) * ChunkSize, |s.content|)
               && (s.open <==> !IsCompleted(j)))
  }

  lemma NewJobValid(jobType: JobType, filePath: string, now: int)
    ensures Valid(NewJob(jobType, filePath, now))
  {
  }

  lemma TryParseValid(token: string, baseFolderPath: string, fs: FileSystem, inp: Inputs)
    ensures TryParse(token, baseFolderPath, fs, inp).Parsed? ==> Valid(TryParse(token, baseFolderPath, fs, inp).value)
  {
  }

  /** One chunk step keeps the transmit stream at one full chunk per part. */
  lemma ChunkKeepsPosition(parts: int, position: nat, size: nat)
    requires parts >= -1 && position == Min((parts + 1) * ChunkSize, size) && position < size
    ensures position + Min(ChunkSize, size - position) == Min((parts + 2) * ChunkSize, size)
  {
  }

  lemma RawProcessTransmitValid(env: Env, inp: Inputs, job: Job, token: string, fs: FileSystem)
    requires Valid(job) && job.jobType == Transmit
    ensures var r := RawProcessTransmit(env, inp, job, token, fs);
      r.Done? ==> Valid(Settle(r.job, r.ok, inp.now))
  {
    if job.status == Disabled {
      TransmitStartValid(env, inp, job, token, fs);
    } else if job.status == Running {
      TransmitRunningValid(env, inp, job, token, fs);
    }
  }

  /** Announcing the file opens the stream at its start. */
  lemma TransmitStartValid(env: Env, inp: Inputs, job: Job, token: string, fs: FileSystem)
    requires Valid(job) && job.jobType == Transmit && job.status == Disabled
    ensures var r := RawProcessTransmit(env, inp, job, token, fs);
      r.Done? ==> Valid(Settle(r.job, r.ok, inp.now))
  {
  }

  /** Sending a chunk reads one more full chunk, or the rest of the file. */
  lemma {:induction false} TransmitRunningValid(env: Env, inp: Inputs, job: Job, token: string, fs: FileSystem)
    requires Valid(job) && job.jobType == Transmit && job.status == Running
    ensures var r := RawProcessTransmit(env, inp, job, token, fs);
      r.Done? ==> Valid(Settle(r.job, r.ok, inp.now))
  {
    var r := RawProcessTransmit(env, inp, job, token, fs);
    if r.Done? && token != "SWQS^^" + job.id {
      var j1 := if job.ackRequired && token == AckLiteral
        then job.(ackRequired := false, expire := inp.now + StepTimeout) else job;
      if !j1.ackRequired && j1.stream.Some? && j1.stream.value.open {
        var s := j1.stream.value;
        if s.position < |s.content| {
          var n := Min(ChunkSize, |s.content| - s.position);
          ChunkKeepsPosition(j1.currentParts, s.position, |s.content|);
          var j2 := j1.(stream := Some(s.(position := s.position + n)),
                        currentParts := j1.currentParts + 1,
                        currentLength := j1.currentLength + n);
          assert Valid(j2);
          assert Valid(j2.(ackRequired := true, expire := inp.now + StepTimeout));
        }
      }
    }
  }

  /** The chunk command keeps the invariant: the stream grows by what was
      written and the byte count follows its position. */
  lemma ReceiveDataValid(env: Env, inp: Inputs, job: Job, token: string, fs: FileSystem)
    requires Valid(job) && job.jobType == Receive
    requires |Fields(token)| > 1 && CommandOf(Text.Trim(Fields(token)[0])) == Data
    ensures Valid(RawProcessReceive(env, inp, job, token, fs).job)
  {
  }

  /** The end command keeps the invariant: the stream is closed when the
      job completes. */
  lemma ReceiveEndValid(env: Env, inp: Inputs, job: Job, token: string, fs: FileSystem)
    requires Valid(job) && job.jobType == Receive
    requires |Fields(token)| > 1 && CommandOf(Text.Trim(Fields(token)[0])) == DataEnd
    ensures Valid(RawProcessReceive(env, inp, job, token, fs).job)
  {
  }

  /** A header makes a disabled job running without a stream. */
  lemma ReceiveHeaderValid(env: Env, inp: Inputs, job: Job, token: string, fs: FileSystem)
    requires Valid(job) && job.jobType == Receive
    requires |Fields(token)| > 1 && CommandOf(Text.Trim(Fields(token)[0])) == FileHeader
    ensures Valid(RawProcessReceive(env, inp, job, token, fs).job)
  {
    var r := RawProcessReceive(env, inp, job, token, fs);
    assert r.job == job || (job.status == Disabled && r.job == job.(expectedLength := r.job.expectedLength, id := r.job.id,
                              filePath := r.job.filePath, status := Running, expire := r.job.expire));
  }

  /** The queue commands, and anything unknown, change the status and the
      deadline only. */
  lemma ReceiveControlValid(env: Env, inp: Inputs, job: Job, token: string, fs: FileSystem)
    requires Valid(job) && job.jobType == Receive
    requires |Fields(token)| <= 1 || CommandOf(Text.Trim(Fields(token)[0])) !in {Data, DataEnd, FileHeader}
    ensures Valid(RawProcessReceive(env, inp, job, token, fs).job)
  {
    var r := RawProcessReceive(env, inp, job, token, fs);
    assert r.job == job || r.job == job.(status := r.job.status, expire := r.job.expire);
  }

  lemma RawProcessReceiveValid(env: Env, inp: Inputs, job: Job, token: string, fs: FileSystem)
    requires Valid(job) && job.jobType == Receive
    ensures Valid(RawProcessReceive(env, inp, job, token, fs).job)
  {
    var spl := Fields(token);
    if |spl| > 1 && CommandOf(Text.Trim(spl[0])) == Data {
      ReceiveDataValid(env, inp, job, token, fs);
    } else if |spl| > 1 && CommandOf(Text.Trim(spl[0])) == DataEnd {
      ReceiveEndValid(env, inp, job, token, fs);
    } else if |spl| > 1 && CommandOf(Text.Trim(spl[0])) == FileHeader {
      ReceiveHeaderValid(env, inp, job, token, fs);
    } else {
      ReceiveControlValid(env, inp, job, token, fs);
    }
  }

  /** The bookkeeping after a step keeps the invariant: a finished job has
      a completed status and a closed stream. */
  lemma SettleValid(j: Job, ok: bool, now: int)
    requires Valid(j)
    ensures Valid(Settle(j, ok, now))
  {
  }

  /** A job that keeps the invariant keeps it over any list of tokens. */
  lemma {:induction false} ProcessAllValid(env: Env, inputs: seq<Inputs>, job: Job, tokens: seq<string>, fs: FileSystem)
    requires |inputs| == |tokens| && Valid(job)
    ensures ProcessAll(env, inputs, job, tokens, fs).Ran? ==> Valid(ProcessAll(env, inputs, job, tokens, fs).job)
    decreases |tokens|
  {
    if |tokens| > 0 {
      ProcessValid(env, inputs[0], job, tokens[0], fs);
      match Process(env, inputs[0], job, tokens[0], fs)
      case Threw(_) =>
      case Done(j, _, _, fs1) =>
        ProcessAllValid(env, inputs[1..], j, tokens[1..], fs1);
    }
  }

  /** Every step keeps the invariant. */
  lemma {:induction false} ProcessValid(env: Env, inp: Inputs, job: Job, token: string, fs: FileSystem)
    requires Valid(job)
    ensures Process(env, inp, job, token, fs).Done? ==> Valid(Process(env, inp, job, token, fs).job)
  {
    var raw :=
      if Expired(job, inp.now) then Done(job, false, None, fs)
      else if job.jobType == Transmit then RawProcessTransmit(env, inp, job, token, fs)
      else RawProcessReceive(env, inp, job, token, fs);
    if Expired(job, inp.now) {
      SettleValid(job, false, inp.now);
    } else if job.jobType == Transmit {
      RawProcessTransmitValid(env, inp, job, token, fs);
    } else {
      RawProcessReceiveValid(env, inp, job, token, fs);
      SettleValid(raw.job, raw.ok, inp.now);
    }
  }

  /** A valid job throws only when a transmit job starts on a file that does
      not exist. */
  lemma ProcessThrowsOnlyOnMissingFile(env: Env, inp: Inputs, job: Job, token: string, fs: FileSystem)
    requires Valid(job)
    requires Process(env, inp, job, token, fs).Threw?
    ensures job.jobType == Transmit && job.status == Disabled && job.filePath !in fs.files
  {
  }

  // ---------------------------------------------------------------- behaviour

  /** A step that returned false, or a job that succeeded, leaves a
      completed job with its end time set and its stream closed. */
  lemma ProcessEndsCompleted(env: Env, inp: Inputs, job: Job, token: string, fs: FileSystem)
    ensures var r := Process(env, inp, job, token, fs);
      r.Done? && (!r.ok || r.job.status == Status.Success) ==>
        IsCompleted(r.job) && StreamClosed(r.job) && r.job.endTime == Some(inp.now)
  {
  }

  /** The ID a transmit job announces is drawn from the random source, but
      the job keeps its empty ID: every later token it sends or expects
      carries an empty ID. */
  lemma TransmitIdNeverStored(env: Env, inp: Inputs, filePath: string, created: int, token: string, fs: FileSystem)
    requires filePath in fs.files
    ensures var r := Process(env, inp, CreateTransmitJob(filePath, created), token, fs);
      && r.Done? && r.job.id == ""
      && r.packet == Codec.GeneratePacketText(env.prims,
           HeaderToken(env.relativize(filePath), SocketUtil.GenerateRandomString(4, inp.rng), |fs.files[filePath]|),
           env.passHash, inp.iv)
  {
  }

  /** A running transmit job waiting for its acknowledgement ignores the
      `SWAK^^ID` a receiver sends, since it compares with the literal
      `$SWAK^^{ID}`: nothing changes and nothing is sent. */
  lemma RealAckIgnored(env: Env, inp: Inputs, job: Job, fs: FileSystem)
    requires job.jobType == Transmit && job.status == Running && job.ackRequired
    requires !Expired(job, inp.now)
    ensures Process(env, inp, job, "SWAK^^" + job.id, fs) == Done(job, true, None, fs)
  {
    assert ("SWAK^^" + job.id)[2] != ("SWQS^^" + job.id)[2];
    assert ("SWAK^^" + job.id)[0] != AckLiteral[0];
  }

  /** A queue request moves a running transmit job to `Queued` for five
      minutes, with nothing to send. */
  lemma TransmitQueueRequest(env: Env, inp: Inputs, job: Job, fs: FileSystem)
    requires job.jobType == Transmit && job.status == Running && !Expired(job, inp.now)
    ensures Process(env, inp, job, "SWQS^^" + job.id, fs)
         == Done(job.(status := Queued, expire := inp.now + QueueTimeout), true, None, fs)
  {
  }

  /** While an acknowledgement is pending, or before the stream exists, a
      step reads nothing and sends nothing. */
  lemma TransmitWaits(env: Env, inp: Inputs, job: Job, token: string, fs: FileSystem)
    requires job.jobType == Transmit && job.status == Running && !Expired(job, inp.now)
    requires token != "SWQS^^" + job.id
    requires (job.ackRequired && token != AckLiteral) || (!job.ackRequired && job.stream.None?)
    ensures Process(env, inp, job, token, fs) == Done(job, true, None, fs)
  {
  }

  /** The chunk step of a running transmit job: up to 65535 bytes are read
      from the current position; one more part and that many more bytes
      are counted, the chunk goes out base64-encoded in an `SWFD` token framed
      without the password hash, and an acknowledgement becomes due. */
  lemma TransmitChunk(env: Env, inp: Inputs, job: Job, token: string, fs: FileSystem)
    requires job.jobType == Transmit && job.status == Running && !Expired(job, inp.now)
    requires token != "SWQS^^" + job.id && !job.ackRequired
    requires job.stream.Some? && job.stream.value.open
    requires job.stream.value.position < |job.stream.value.content|
    ensures var s := job.stream.value;
      var n := Min(ChunkSize, |s.content| - s.position);
      var chunk := s.content[s.position..s.position + n];
      var packet := Codec.GeneratePacketText(env.prims, "SWFD^^" + job.id + "^^" + env.prims.toBase64(chunk), None, inp.iv);
      var r := Process(env, inp, job, token, fs);
      && 0 < n <= ChunkSize
      && r.Done? && r.ok == packet.Some? && r.packet == packet
      && r.job.currentParts == job.currentParts + 1
      && r.job.currentLength == job.currentLength + n
      && r.job.stream.Some? && r.job.stream.value.position == s.position + n
      && (r.ok ==> r.job.ackRequired && r.job.status == Running)
  {
    var s := job.stream.value;
    var n := Min(ChunkSize, |s.content| - s.position);
    var j2 := job.(stream := Some(s.(position := s.position + n)),
                   currentParts := job.currentParts + 1,
                   currentLength := job.currentLength + n);
    var raw := RawProcessTransmit(env, inp, job, token, fs);
    assert raw.Done? && raw.job.(ackRequired := false, expire := job.expire) == j2;
  }

  /** At the end of the file a running transmit job sends `SWDD^^ID^^parts`
      and succeeds; its stream is closed. */
  lemma TransmitEnd(env: Env, inp: Inputs, job: Job, token: string, fs: FileSystem)
    requires job.jobType == Transmit && job.status == Running && !Expired(job, inp.now)
    requires token != "SWQS^^" + job.id && !job.ackRequired
    requires job.stream.Some? && job.stream.value.open
    requires job.stream.value.position >= |job.stream.value.content|
    ensures var packet := Codec.GeneratePacketText(env.prims,
        "SWDD^^" + job.id + "^^" + Text.FormatInt(job.currentParts), env.passHash, inp.iv);
      var r := Process(env, inp, job, token, fs);
      && r.Done? && r.packet == packet && r.ok == packet.Some?
      && r.job.status == (if packet.Some? then Status.Success else Failed)
      && StreamClosed(r.job) && r.job.currentParts == job.currentParts
  {
  }

  /** A completed transmit job stays as it is, apart from the end time. */
  lemma CompletedTransmitStays(env: Env, inp: Inputs, job: Job, token: string, fs: FileSystem)
    requires job.jobType == Transmit && IsCompleted(job)
    ensures var r := Process(env, inp, job, token, fs);
      r.Done? && r.ok && r.packet.None? && r.fs == fs && r.job.status == job.status
      && r.job.currentParts == job.currentParts && r.job.currentLength == job.currentLength
  {
  }

  /** A running or queued job at or past its deadline fails, whatever the
      token. */
  lemma DeadlineFails(env: Env, inp: Inputs, job: Job, token: string, fs: FileSystem)
    requires job.status == Running || job.status == Queued
    requires inp.now >= job.expire
    ensures var r := Process(env, inp, job, token, fs);
      r.Done? && !r.ok && r.job.status == Failed && StreamClosed(r.job) && r.fs == fs && r.packet.None?
  {
  }

  /** A job created by `TryParse` has its deadline at its creation time, so
      its first step at the same time or later fails it. */
  lemma ParsedJobExpiresAtOnce(token: string, baseFolderPath: string, fs: FileSystem, inp: Inputs,
                               env: Env, later: Inputs, token2: string, fs2: FileSystem)
    requires TryParse(token, baseFolderPath, fs, inp).Parsed?
    requires later.now >= inp.now
    ensures var r := Process(env, later, TryParse(token, baseFolderPath, fs, inp).value, token2, fs2);
      r.Done? && !r.ok && r.job.status == Failed
  {
  }

  /** A command token with one argument splits into the command and the
      argument. */
  lemma CommandFields(cmd: string, arg: string)
    requires forall k :: 0 <= k < |cmd| ==> cmd[k] != '^'
    requires !Separate.Occurs(arg, FieldSeparator)
    ensures Fields(cmd + FieldSeparator + arg) == [cmd, arg]
  {
    CaretFreePlain(cmd);
    PlainFieldClean(cmd);
    Separate.SplitClean(cmd, FieldSeparator, arg);
    Separate.NoOccurrenceSplit(arg, FieldSeparator);
  }

  /** A receive job re-queues on `SWQS^^ID` even after it has completed. */
  lemma CompletedReceiveRequeues(env: Env, inp: Inputs, job: Job, fs: FileSystem)
    requires Valid(job) && job.jobType == Receive && IsCompleted(job)
    requires !Separate.Occurs(job.id, FieldSeparator)
    ensures var r := Process(env, inp, job, "SWQS^^" + job.id, fs);
      r.Done? && r.ok && r.job.status == Queued && StreamClosed(r.job)
  {
    CommandFields("SWQS", job.id);
    assert "SWQS" + FieldSeparator + job.id == "SWQS^^" + job.id;
    Text.TrimWithKeeps("SWQS", Text.IsWhiteSpace);
    CommandNames();
  }

  /** A data chunk addressed to a running receive job with an open stream is
      appended to the stream, counted as one more part and its length, and
      acknowledged with `SWAK^^ID`. */
  lemma ReceiveChunk(env: Env, inp: Inputs, job: Job, token: string, data: string, res: Bytes, fs: FileSystem)
    requires job.jobType == Receive && job.status == Running && !Expired(job, inp.now)
    requires job.id != "" && job.stream.Some? && job.stream.value.open
    requires Fields(token) == ["SWFD", job.id, data]
    requires env.prims.fromBase64(Text.Trim(data)) == Some(res)
    ensures var r := Process(env, inp, job, token, fs);
      && r.Done? && r.ok && r.fs == fs
      && r.job.stream.Some? && r.job.stream.value.content == job.stream.value.content + res
      && r.job.currentParts == job.currentParts + 1
      && r.job.currentLength == job.currentLength + |res|
      && r.packet == Codec.GeneratePacketText(env.prims, "SWAK^^" + job.id, env.passHash, inp.iv)
  {
    RawReceiveChunk(env, inp, job, token, data, res, fs);
  }

  /** The chunk step of `ProcessReceive` itself, before `Process` looks at
      the deadline: the whole resulting job, packet and file system. */
  lemma RawReceiveChunk(env: Env, inp: Inputs, job: Job, token: string, data: string, res: Bytes, fs: FileSystem)
    requires job.jobType == Receive && job.status == Running
    requires job.id != "" && job.stream.Some? && job.stream.value.open
    requires Fields(token) == ["SWFD", job.id, data]
    requires env.prims.fromBase64(Text.Trim(data)) == Some(res)
    ensures var s := job.stream.value;
      RawProcessReceive(env, inp, job, token, fs)
        == Done(job.(stream := Some(s.(content := s.content + res, position := s.position + |res|)),
                     currentLength := job.currentLength + |res|,
                     currentParts := job.currentParts + 1,
                     expire := inp.now + StepTimeout),
                true, Codec.GeneratePacketText(env.prims, "SWAK^^" + job.id, env.passHash, inp.iv), fs)
  {
    Text.TrimWithKeeps("SWFD", Text.IsWhiteSpace);
    CommandNames();
    DispatchesTo(env, inp, job, token, fs, Data);
    var spl := ["SWFD", job.id, data];
    assert AcceptsData(job, spl) && env.prims.fromBase64(Text.Trim(spl[2])) == Some(res);
  }

  /** A token of at least two fields whose command is `c` is handled by that
      command's case. */
  lemma DispatchesTo(env: Env, inp: Inputs, job: Job, token: string, fs: FileSystem, c: Command)
    requires job.jobType == Receive
    requires |Fields(token)| > 1 && CommandOf(Text.Trim(Fields(token)[0])) == c
    ensures c == Data ==> RawProcessReceive(env, inp, job, token, fs) == ReceiveChunkStep(env, inp, job, Fields(token), fs)
    ensures c == DataEnd ==> RawProcessReceive(env, inp, job, token, fs) == ReceiveEndStep(job, Fields(token), fs)
  {
  }

  /** The end token: the job succeeds exactly when the announced part count
      equals its own, fails otherwise; either way its stream is closed. */
  lemma ReceiveEnd(env: Env, inp: Inputs, job: Job, token: string, count: string, n: int, fs: FileSystem)
    requires job.jobType == Receive && job.status == Running && !Expired(job, inp.now)
    requires job.id != "" && job.stream.Some?
    requires Fields(token) == ["SWDD", job.id, count]
    requires Text.ParseInt64(count) == Some(n)
    ensures var r := Process(env, inp, job, token, fs);
      && r.Done? && r.ok && r.packet.None? && StreamClosed(r.job)
      && (r.job.status == Status.Success <==> n == job.currentParts)
      && (r.job.status == Failed <==> n != job.currentParts)
  {
    RawReceiveEnd(env, inp, job, token, count, n, fs);
  }

  /** A count mismatch marks the job failed, but its step returns true, so
      the job is not finished: its end time stays as it was. */
  lemma MismatchedEndNotFinished(env: Env, inp: Inputs, job: Job, token: string, count: string, n: int, fs: FileSystem)
    requires job.jobType == Receive && job.status == Running && !Expired(job, inp.now)
    requires job.id != "" && job.stream.Some?
    requires Fields(token) == ["SWDD", job.id, count]
    requires Text.ParseInt64(count) == Some(n) && n != job.currentParts
    ensures var r := Process(env, inp, job, token, fs);
      && r.Done? && r.ok && r.job.status == Failed && StreamClosed(r.job)
      && r.job.endTime == job.endTime
  {
    RawReceiveEnd(env, inp, job, token, count, n, fs);
  }

  /** The end step of `ProcessReceive` itself, before `Process` looks at
      the deadline. */
  lemma RawReceiveEnd(env: Env, inp: Inputs, job: Job, token: string, count: string, n: int, fs: FileSystem)
    requires job.jobType == Receive && job.status == Running
    requires job.id != "" && job.stream.Some?
    requires Fields(token) == ["SWDD", job.id, count]
    requires Text.ParseInt64(count) == Some(n)
    ensures RawProcessReceive(env, inp, job, token, fs)
        == Done(job.(stream := CloseStream(job.stream),
                     status := if n == job.currentParts then Status.Success else Failed), true, None, fs)
  {
    Text.TrimWithKeeps("SWDD", Text.IsWhiteSpace);
    CommandNames();
    DispatchesTo(env, inp, job, token, fs, DataEnd);
    var spl := ["SWDD", job.id, count];
    assert AcceptsData(job, spl) && Text.ParseInt64(spl[2]) == Some(n);
  }
}

=== FILE: file_job_pool.dfy ===
/**
 `FileJobPool`: the list of jobs and the tokens fanned out to them. With
 auto-receive on, every token is first offered to `FileJob.TryParse`; a
 header it accepts becomes a new job. Then every job, in order, processes
 the token.
 */
module JobPool {
  import opened Wrappers
  import FileJobs

  type Job = FileJobs.Job

  datatype Pool = Pool(
    jobs: seq<Job>,
    queue: seq<string>, // IDs waiting for a free slot; nothing ever adds one
    maximumJobs: nat,
    autoReceive: bool,
    baseFolderPath: string)

  /** `new FileJobPool()`. */
  function NewPool(): (p: Pool)
    ensures p.jobs == [] && p.queue == [] && p.autoReceive
    ensures p.maximumJobs == 16 && p.baseFolderPath == "Received"
  {
    Pool([], [], 16, true, "Received")
  }

  /** The settings of two pools agree. */
  predicate SameSettings(p: Pool, q: Pool) {
    p.maximumJobs == q.maximumJobs && p.autoReceive == q.autoReceive && p.baseFolderPath == q.baseFolderPath
  }

  // ---------------------------------------------------------------- AddJob, FindJobByID

  /** The outcome of `AddJob`, or the pool and file system an escaping
      exception leaves behind. */
  datatype Added =
    | Added(pool: Pool, packet: Option<string>, fs: FileJobs.FileSystem)
    | AddThrew(pool: Pool, fs: FileJobs.FileSystem)

  /** `AddJob`: the job is appended first and then processed once with the
      empty token, so when that step throws, the job stays in the list as
      the exception left it. Its packet is handed back whether or not the
      step succeeded. The result is always `true`, so it is not modelled. */
  function AddJob(env: FileJobs.Env, inp: FileJobs.Inputs, pool: Pool, job: Job, fs: FileJobs.FileSystem): (r: Added)
    ensures r.Added? <==> FileJobs.Process(env, inp, job, "", fs).Done?
    ensures r.pool.jobs == pool.jobs + [FileJobs.Process(env, inp, job, "", fs).job]
    ensures r.pool.queue == pool.queue && SameSettings(r.pool, pool)
    ensures r.Added? ==>
      && r.packet == FileJobs.Process(env, inp, job, "", fs).packet
      && r.fs == FileJobs.Process(env, inp, job, "", fs).fs
    ensures r.AddThrew? ==> r.fs == fs
  {
    var step := FileJobs.Process(env, inp, job, "", fs);
    var pool1 := pool.(jobs := pool.jobs + [step.job]);
    if step.Threw? then AddThrew(pool1, fs) else Added(pool1, step.packet, step.fs)
  }

  /** A transmit job whose file is missing throws on its first step and
      stays in the pool unchanged; while the file is missing, its step
      throws again on every token. */
  lemma MissingFileJobStays(env: FileJobs.Env, inp: FileJobs.Inputs, pool: Pool, job: Job, fs: FileJobs.FileSystem,
                            later: FileJobs.Inputs, token: string)
    requires job.jobType == FileJobs.Transmit && job.status == FileJobs.Disabled
    requires job.filePath !in fs.files
    ensures AddJob(env, inp, pool, job, fs) == AddThrew(pool.(jobs := pool.jobs + [job]), fs)
    ensures FileJobs.Process(env, later, job, token, fs) == FileJobs.Threw(job)
  {
  }

  /** The index of the first job with the given ID at or after `from`. */
  function FindFrom(jobs: seq<Job>, id: string, from: nat): (r: Option<nat>)
    requires from <= |jobs|
    ensures r.Some? ==>
      && from <= r.value < |jobs| && jobs[r.value].id == id
      && forall k :: from <= k < r.value ==> jobs[k].id != id
    ensures r.None? ==> forall k :: from <= k < |jobs| ==> jobs[k].id != id
    decreases |jobs| - from
  {
    if from == |jobs| then None
    else if jobs[from].id == id then Some(from)
    else FindFrom(jobs, id, from + 1)
  }

  /** `FindJobByID`: the first job whose ID matches. */
  function FindJobByID(pool: Pool, id: string): (r: Option<Job>)
    ensures r.Some? <==> exists k :: 0 <= k < |pool.jobs| && pool.jobs[k].id == id
    ensures r.Some? ==> exists k ::
      && 0 <= k < |pool.jobs| && pool.jobs[k] == r.value && r.value.id == id
      && forall m :: 0 <= m < k ==> pool.jobs[m].id != id
  {
    match FindFrom(pool.jobs, id, 0)
    case None => None
    case Some(k) => Some(pool.jobs[k])
  }

  // ---------------------------------------------------------------- Process

  /** The outcome of the pool's `Process`: the pool, the file system, the
      number of jobs added and the packets to send, or the pool and file
      system an escaping exception leaves behind. */
  datatype PoolRun =
    | PoolRan(pool: Pool, fs: FileJobs.FileSystem, added: nat, packets: seq<string>)
    | PoolThrew(pool: Pool, fs: FileJobs.FileSystem)

  /** The promotion at job `i`: when that job is completed and an ID is
      queued, the ID is dequeued and its job, if any, asked to resume. */
  function Promote(env: FileJobs.Env, inp: FileJobs.Inputs, pool: Pool, i: nat): (r: (Pool, Option<string>))
    requires i < |pool.jobs|
    ensures |r.0.jobs| == |pool.jobs| && SameSettings(r.0, pool)
    ensures |pool.queue| == 0 ==> r == (pool, None)
    ensures r.0.queue == pool.queue || (|pool.queue| > 0 && r.0.queue == pool.queue[1..])
  {
    if FileJobs.IsCompleted(pool.jobs[i]) && |pool.queue| > 0 then
      var rest := pool.queue[1..];
      match FindFrom(pool.jobs, pool.queue[0], 0)
      case None => (pool.(queue := rest), None)
      case Some(k) =>
        var rq := FileJobs.RequestQueueEnd(env, inp, pool.jobs[k]);
        (pool.(queue := rest, jobs := pool.jobs[k := rq.job]), rq.packet)
    else (pool, None)
  }

  /** The rest of a sweep behind one completed step: an exception passes
      through, otherwise the step's packets come first. */
  function Continue(rest: PoolRun, mine: seq<string>): PoolRun {
    if rest.PoolThrew? then rest else PoolRan(rest.pool, rest.fs, 0, mine + rest.packets)
  }

  /** The inner loop over the jobs, from job `i` on: promotion, then the
      job's step, whose packet is kept when the step succeeds. The sweep is
      written over any step; the pool's `Process` hands it `FileJobs.Process`. */
  function SweepJobs(step: FileJobs.StepFn, env: FileJobs.Env, inp: FileJobs.Inputs, pool: Pool, token: string,
                     fs: FileJobs.FileSystem, i: nat): (r: PoolRun)
    requires i <= |pool.jobs|
    ensures |r.pool.jobs| == |pool.jobs| && SameSettings(r.pool, pool)
    ensures r.PoolRan? ==> r.added == 0
    ensures |pool.queue| == 0 ==> |r.pool.queue| == 0
    decreases |pool.jobs| - i
  {
    if i == |pool.jobs| then PoolRan(pool, fs, 0, [])
    else
      var (pool1, promoted) := Promote(env, inp, pool, i);
      match step(env, inp, pool1.jobs[i], token, fs)
      case Threw(j) => PoolThrew(pool1.(jobs := pool1.jobs[i := j]), fs)
      case Done(j, ok, packet, fs1) =>
        Continue(SweepJobs(step, env, inp, pool1.(jobs := pool1.jobs[i := j]), token, fs1, i + 1),
                 promoted.ToSeq() + (if ok then packet.ToSeq() else []))
  }

  /** The auto-receive part of one token: a header `TryParse` accepts is
      added as a job. An exception of the parser escapes. */
  function AutoAdd(env: FileJobs.Env, inp: FileJobs.Inputs, pool: Pool, token: string, fs: FileJobs.FileSystem): (r: PoolRun)
    ensures r.PoolRan? ==> r.added <= 1 && |r.pool.jobs| == |pool.jobs| + r.added
    ensures |pool.jobs| <= |r.pool.jobs| <= |pool.jobs| + 1
    ensures r.pool.jobs[..|pool.jobs|] == pool.jobs && r.pool.queue == pool.queue && SameSettings(r.pool, pool)
    ensures !pool.autoReceive ==> r == PoolRan(pool, fs, 0, [])
    ensures r.PoolRan? && r.added == 1 ==>
      FileJobs.TryParse(token, pool.baseFolderPath, fs, inp).Parsed?
  {
    if !pool.autoReceive then PoolRan(pool, fs, 0, [])
    else
      match FileJobs.TryParse(token, pool.baseFolderPath, fs, inp)
      case ParseThrew(fs1) => PoolThrew(pool, fs1)
      case Rejected(fs1) => PoolRan(pool, fs1, 0, [])
      case Parsed(job, fs1) =>
        match AddJob(env, inp, pool, job, fs1)
        case AddThrew(pool2, fs2) => PoolThrew(pool2, fs2)
        case Added(pool2, packet, fs2) =>
          assert pool2.jobs[..|pool.jobs|] == pool.jobs;
          PoolRan(pool2, fs2, 1, packet.ToSeq())
  }

  /** `FileJobPool.Process`: for each token, the auto-receive step and then
      the sweep over all jobs. `inputs[k]` is what the environment supplies
      while token `k` is handled. */
  function Process(env: FileJobs.Env, inputs: seq<FileJobs.Inputs>, pool: Pool, tokens: seq<string>,
                   fs: FileJobs.FileSystem): (r: PoolRun)
    requires |inputs| == |tokens|
    ensures r.PoolRan? ==> r.added <= |tokens| && |r.pool.jobs| == |pool.jobs| + r.added
    ensures SameSettings(r.pool, pool)
    ensures |pool.queue| == 0 ==> |r.pool.queue| == 0
    ensures r.PoolRan? && !pool.autoReceive ==> r.added == 0
    decreases |tokens|
  {
    if |tokens| == 0 then PoolRan(pool, fs, 0, [])
    else
      match AutoAdd(env, inputs[0], pool, tokens[0], fs)
      case PoolThrew(pool1, fs1) => PoolThrew(pool1, fs1)
      case PoolRan(pool1, fs1, added1, packets1) =>
        match SweepJobs(FileJobs.Process, env, inputs[0], pool1, tokens[0], fs1, 0)
        case PoolThrew(pool2, fs2) => PoolThrew(pool2, fs2)
        case PoolRan(pool2, fs2, _, packets2) =>
          match Process(env, inputs[1..], pool2, tokens[1..], fs2)
          case PoolThrew(pool3, fs3) => PoolThrew(pool3, fs3)
          case PoolRan(pool3, fs3, added3, packets3) =>
            PoolRan(pool3, fs3, added1 + added3, packets1 + packets2 + packets3)
  }

  // ---------------------------------------------------------------- fan-out

  /** The outcome of handing one token to a list of jobs. */
  datatype Fan =
    | Fanned(jobs: seq<Job>, fs: FileJobs.FileSystem, packets: seq<string>)
    | FanThrew(jobs: seq<Job>, fs: FileJobs.FileSystem)

  /** One more completed step in front of a fan-out. */
  function FanCons(j: Job, rest: Fan, mine: seq<string>): Fan {
    if rest.FanThrew? then FanThrew([j] + rest.jobs, rest.fs) else Fanned([j] + rest.jobs, rest.fs, mine + rest.packets)
  }

  /** The fan-out of one token, written over the list itself: each job
      takes its step in turn on the file system the previous step left, and
      the packets of the successful steps are collected in order. An
      exception stops the fan-out. */
  function StepEach(step: FileJobs.StepFn, env: FileJobs.Env, inp: FileJobs.Inputs, jobs: seq<Job>, token: string,
                    fs: FileJobs.FileSystem): (r: Fan)
    ensures |r.jobs| == |jobs|
    ensures r.Fanned? ==> |r.packets| <= |jobs|
    decreases |jobs|
  {
    if |jobs| == 0 then Fanned([], fs, [])
    else
      match step(env, inp, jobs[0], token, fs)
      case Threw(j) => FanThrew([j] + jobs[1..], fs)
      case Done(j, ok, packet, fs1) =>
        FanCons(j, StepEach(step, env, inp, jobs[1..], token, fs1), if ok then packet.ToSeq() else [])
  }

  /** With one job, the fan-out is that job's step. */
  lemma StepEachSingle(step: FileJobs.StepFn, env: FileJobs.Env, inp: FileJobs.Inputs, job: Job, token: string,
                       fs: FileJobs.FileSystem)
    ensures var st := step(env, inp, job, token, fs);
      var r := StepEach(step, env, inp, [job], token, fs);
      && (r.Fanned? <==> st.Done?)
      && r.jobs == [st.job]
      && (st.Done? ==> r.fs == st.fs && r.packets == (if st.ok then st.packet.ToSeq() else []))
  {
    assert [job][1..] == [];
  }

  /** A step that keeps the job invariant. */
  ghost predicate KeepsValid(step: FileJobs.StepFn) {
    forall env, inp, j, token, fs :: FileJobs.Valid(j) && step(env, inp, j, token, fs).Done? ==>
      FileJobs.Valid(step(env, inp, j, token, fs).job)
  }

  /** `FileJobs.Process` keeps the job invariant. */
  lemma ProcessKeepsValid()
    ensures KeepsValid(FileJobs.Process)
  {
    forall env, inp, j, token, fs | FileJobs.Valid(j) && FileJobs.Process(env, inp, j, token, fs).Done?
      ensures FileJobs.Valid(FileJobs.Process(env, inp, j, token, fs).job)
    {
      FileJobs.ProcessValid(env, inp, j, token, fs);
    }
  }

  /** Every job a completed fan-out leaves satisfies the job invariant when
      every job did before and the step keeps it. */
  lemma {:induction false} StepEachValid(step: FileJobs.StepFn, env: FileJobs.Env, inp: FileJobs.Inputs, jobs: seq<Job>,
                                         token: string, fs: FileJobs.FileSystem)
    requires KeepsValid(step)
    requires forall k :: 0 <= k < |jobs| ==> FileJobs.Valid(jobs[k])
    ensures var r := StepEach(step, env, inp, jobs, token, fs);
      r.Fanned? ==> forall k :: 0 <= k < |r.jobs| ==> FileJobs.Valid(r.jobs[k])
    decreases |jobs|
  {
    if |jobs| > 0 {
      var st := step(env, inp, jobs[0], token, fs);
      if st.Done? {
        assert FileJobs.Valid(st.job);
        StepEachValid(step, env, inp, jobs[1..], token, st.fs);
      }
    }
  }

  /** A step of the sweep with an empty queue whose job throws. */
  lemma SweepAtThrew(step: FileJobs.StepFn, env: FileJobs.Env, inp: FileJobs.Inputs, pool: Pool, token: string,
                     fs: FileJobs.FileSystem, i: nat, j: Job)
    requires i < |pool.jobs| && |pool.queue| == 0
    requires step(env, inp, pool.jobs[i], token, fs) == FileJobs.Threw(j)
    ensures SweepJobs(step, env, inp, pool, token, fs, i) == PoolThrew(pool.(jobs := pool.jobs[i := j]), fs)
  {
    assert Promote(env, inp, pool, i) == (pool, None);
  }

  /** A step of the sweep with an empty queue whose job completes its step:
      the rest of the sweep follows, behind the step's packet. */
  lemma SweepAtDone(step: FileJobs.StepFn, env: FileJobs.Env, inp: FileJobs.Inputs, pool: Pool, token: string,
                    fs: FileJobs.FileSystem, i: nat, j: Job, ok: bool, packet: Option<string>, fs1: FileJobs.FileSystem)
    requires i < |pool.jobs| && |pool.queue| == 0
    requires step(env, inp, pool.jobs[i], token, fs) == FileJobs.Done(j, ok, packet, fs1)
    ensures SweepJobs(step, env, inp, pool, token, fs, i)
         == Continue(SweepJobs(step, env, inp, pool.(jobs := pool.jobs[i := j]), token, fs1, i + 1),
                     if ok then packet.ToSeq() else [])
  {
    assert Promote(env, inp, pool, i) == (pool, None);
    var none: Option<string> := None;
    assert none.ToSeq() + (if ok then packet.ToSeq() else []) == if ok then packet.ToSeq() else [];
  }

  /** A sweep outcome agrees with a fan-out outcome behind the jobs
      `prefix` the sweep has already passed. */
  predicate Agrees(r: PoolRun, prefix: seq<Job>, f: Fan) {
    && (r.PoolRan? <==> f.Fanned?)
    && r.pool.jobs == prefix + f.jobs
    && r.fs == f.fs
    && (r.PoolRan? ==> r.packets == f.packets)
  }

  /** Agreement survives putting one more completed step in front of both
      outcomes. */
  lemma AgreesCons(rest: PoolRun, f: Fan, prefix: seq<Job>, j: Job, mine: seq<string>)
    requires Agrees(rest, prefix + [j], f)
    ensures Agrees(Continue(rest, mine), prefix, FanCons(j, f, mine))
  {
    assert prefix + [j] + f.jobs == prefix + ([j] + f.jobs);
  }

  /** The sweep's step at `i` when the job throws agrees with the fan-out. */
  lemma SweepThrewAgrees(step: FileJobs.StepFn, env: FileJobs.Env, inp: FileJobs.Inputs, pool: Pool, token: string,
                         fs: FileJobs.FileSystem, i: nat, j: Job)
    requires i < |pool.jobs| && |pool.queue| == 0
    requires step(env, inp, pool.jobs[i], token, fs) == FileJobs.Threw(j)
    ensures Agrees(SweepJobs(step, env, inp, pool, token, fs, i), pool.jobs[..i], StepEach(step, env, inp, pool.jobs[i..], token, fs))
  {
    SweepAtThrew(step, env, inp, pool, token, fs, i, j);
    var tail := pool.jobs[i..];
    assert tail[0] == pool.jobs[i] && tail[1..] == pool.jobs[i + 1..];
    assert pool.jobs[i := j] == pool.jobs[..i] + ([j] + tail[1..]);
  }

  /** The sweep's step at `i` when the job completes agrees with the
      fan-out, given that the rest of the sweep does. */
  lemma SweepDoneAgrees(step: FileJobs.StepFn, env: FileJobs.Env, inp: FileJobs.Inputs, pool: Pool, token: string,
                        fs: FileJobs.FileSystem, i: nat, j: Job, ok: bool, packet: Option<string>, fs1: FileJobs.FileSystem)
    requires i < |pool.jobs| && |pool.queue| == 0
    requires step(env, inp, pool.jobs[i], token, fs) == FileJobs.Done(j, ok, packet, fs1)
    requires var pool1 := pool.(jobs := pool.jobs[i := j]);
      Agrees(SweepJobs(step, env, inp, pool1, token, fs1, i + 1), pool1.jobs[..i + 1],
             StepEach(step, env, inp, pool1.jobs[i + 1..], token, fs1))
    ensures Agrees(SweepJobs(step, env, inp, pool, token, fs, i), pool.jobs[..i], StepEach(step, env, inp, pool.jobs[i..], token, fs))
  {
    var pool1 := pool.(jobs := pool.jobs[i := j]);
    var mine := if ok then packet.ToSeq() else [];
    SweepAtDone(step, env, inp, pool, token, fs, i, j, ok, packet, fs1);
    var tail := pool.jobs[i..];
    assert tail[0] == pool.jobs[i] && tail[1..] == pool.jobs[i + 1..] == pool1.jobs[i + 1..];
    assert StepEach(step, env, inp, tail, token, fs) == FanCons(j, StepEach(step, env, inp, tail[1..], token, fs1), mine);
    assert pool1.jobs[..i + 1] == pool.jobs[..i] + [j];
    AgreesCons(SweepJobs(step, env, inp, pool1, token, fs1, i + 1), StepEach(step, env, inp, tail[1..], token, fs1),
               pool.jobs[..i], j, mine);
  }

  /** With an empty queue the sweep from job `i` is exactly the fan-out of
      the token over the jobs from `i` on; the jobs before `i` are kept. */
  lemma {:induction false} SweepIsStepEach(step: FileJobs.StepFn, env: FileJobs.Env, inp: FileJobs.Inputs, pool: Pool,
                                           token: string, fs: FileJobs.FileSystem, i: nat)
    requires i <= |pool.jobs| && |pool.queue| == 0
    ensures Agrees(SweepJobs(step, env, inp, pool, token, fs, i), pool.jobs[..i], StepEach(step, env, inp, pool.jobs[i..], token, fs))
    decreases |pool.jobs| - i
  {
    if i == |pool.jobs| {
      assert pool.jobs[..i] == pool.jobs && pool.jobs[i..] == [];
    } else {
      match step(env, inp, pool.jobs[i], token, fs)
      case Threw(j) =>
        SweepThrewAgrees(step, env, inp, pool, token, fs, i, j);
      case Done(j, ok, packet, fs1) =>
        SweepIsStepEach(step, env, inp, pool.(jobs := pool.jobs[i := j]), token, fs1, i + 1);
        SweepDoneAgrees(step, env, inp, pool, token, fs, i, j, ok, packet, fs1);
    }
  }

  /** One token through the pool with an empty queue: the auto-receive step,
      then the fan-out of the token over every job, the added one included;
      the packets come in that order. */
  lemma ProcessOneToken(env: FileJobs.Env, inp: FileJobs.Inputs, pool: Pool, token: string, fs: FileJobs.FileSystem)
    requires |pool.queue| == 0
    ensures var a := AutoAdd(env, inp, pool, token, fs);
      var r := Process(env, [inp], pool, [token], fs);
      && (a.PoolThrew? ==> r == a)
      && (a.PoolRan? ==>
            var f := StepEach(FileJobs.Process, env, inp, a.pool.jobs, token, a.fs);
            && (r.PoolRan? <==> f.Fanned?)
            && r.pool.jobs == f.jobs && r.fs == f.fs
            && (r.PoolRan? ==> r.added == a.added && r.packets == a.packets + f.packets))
  {
    var a := AutoAdd(env, inp, pool, token, fs);
    if a.PoolRan? {
      SweepIsStepEach(FileJobs.Process, env, inp, a.pool, token, a.fs, 0);
      assert a.pool.jobs[0..] == a.pool.jobs && a.pool.jobs[..0] == [];
      assert [] + StepEach(FileJobs.Process, env, inp, a.pool.jobs, token, a.fs).jobs
          == StepEach(FileJobs.Process, env, inp, a.pool.jobs, token, a.fs).jobs;
      var s := SweepJobs(FileJobs.Process, env, inp, a.pool, token, a.fs, 0);
      if s.PoolRan? {
        assert [token][1..] == [] && [inp][1..] == [];
        assert s.packets + [] == s.packets;
      }
    }
  }

  /** One token through a pool with an empty queue keeps the job invariant
      of every job, the auto-received one included. */
  lemma ProcessOneTokenValid(env: FileJobs.Env, inp: FileJobs.Inputs, pool: Pool, token: string, fs: FileJobs.FileSystem)
    requires |pool.queue| == 0
    requires forall k :: 0 <= k < |pool.jobs| ==> FileJobs.Valid(pool.jobs[k])
    ensures var r := Process(env, [inp], pool, [token], fs);
      r.PoolRan? ==> forall k :: 0 <= k < |r.pool.jobs| ==> FileJobs.Valid(r.pool.jobs[k])
  {
    var a := AutoAdd(env, inp, pool, token, fs);
    ProcessOneToken(env, inp, pool, token, fs);
    if a.PoolRan? {
      AutoAddValid(env, inp, pool, token, fs);
      ProcessKeepsValid();
      StepEachValid(FileJobs.Process, env, inp, a.pool.jobs, token, a.fs);
    }
  }

  /** Adding a valid job keeps the job invariant of every job when the
      job's first step completes. */
  lemma AddJobValid(env: FileJobs.Env, inp: FileJobs.Inputs, pool: Pool, job: Job, fs: FileJobs.FileSystem)
    requires FileJobs.Valid(job)
    requires forall k :: 0 <= k < |pool.jobs| ==> FileJobs.Valid(pool.jobs[k])
    ensures var r := AddJob(env, inp, pool, job, fs);
      r.Added? ==> forall k :: 0 <= k < |r.pool.jobs| ==> FileJobs.Valid(r.pool.jobs[k])
  {
    FileJobs.ProcessValid(env, inp, job, "", fs);
  }

  /** The auto-receive step keeps the job invariant: a parsed job is valid
      and its first step keeps it so. */
  lemma AutoAddValid(env: FileJobs.Env, inp: FileJobs.Inputs, pool: Pool, token: string, fs: FileJobs.FileSystem)
    requires forall k :: 0 <= k < |pool.jobs| ==> FileJobs.Valid(pool.jobs[k])
    ensures var a := AutoAdd(env, inp, pool, token, fs);
      a.PoolRan? ==> forall k :: 0 <= k < |a.pool.jobs| ==> FileJobs.Valid(a.pool.jobs[k])
  {
    if pool.autoReceive {
      match FileJobs.TryParse(token, pool.baseFolderPath, fs, inp)
      case Parsed(job, fs1) =>
        FileJobs.TryParseValid(token, pool.baseFolderPath, fs, inp);
        AddJobValid(env, inp, pool, job, fs1);
      case Rejected(_) =>
      case ParseThrew(_) =>
    }
  }

  // ---------------------------------------------------------------- behaviour

  /** Nothing ever enqueues an ID, so a pool that starts with an empty
      queue keeps it empty and the promotion branch never runs. */
  lemma PromotionIsDead(env: FileJobs.Env, inputs: seq<FileJobs.Inputs>, tokens: seq<string>,
                        fs: FileJobs.FileSystem, inp: FileJobs.Inputs)
    requires |inputs| == |tokens|
    ensures var r := Process(env, inputs, NewPool(), tokens, fs);
      r.PoolRan? ==> r.pool.queue == [] && forall i :: 0 <= i < |r.pool.jobs| ==> Promote(env, inp, r.pool, i) == (r.pool, None)
  {
  }

  /** A job added by auto-receive has already failed when `AddJob` returns:
      its deadline is its creation time. */
  lemma AutoReceivedJobFailsOnAdd(env: FileJobs.Env, inp: FileJobs.Inputs, pool: Pool, token: string, fs: FileJobs.FileSystem)
    ensures var r := AutoAdd(env, inp, pool, token, fs);
      r.PoolRan? && r.added == 1 ==> r.pool.jobs[|pool.jobs|].status == FileJobs.Failed
  {
    var r := AutoAdd(env, inp, pool, token, fs);
    if r.PoolRan? && r.added == 1 {
      FileJobs.ParsedJobExpiresAtOnce(token, pool.baseFolderPath, fs, inp, env, inp, "", FileJobs.TryParse(token, pool.baseFolderPath, fs, inp).fs);
    }
  }
}

=== FILE: separate.dfy ===
/**
 Splitting a sequence on a delimiter sequence, left to right and without
 overlap. `SocketUtil.SeperateBytes` does this on byte arrays and .NET's
 `String.Split(string)` does the same on the `^^`-separated protocol tokens,
 so both are modelled by the one definition here.
 */
module Separate {

  /** `sep` occurs in `s` starting at position `i`. */
  predicate MatchAt<T(==)>(s: seq<T>, sep: seq<T>, i: int) {
    0 <= i && i + |sep| <= |s| && s[i..i + |sep|] == sep
  }

  /** `sep` occurs somewhere in `s`. */
  predicate Occurs<T(==)>(s: seq<T>, sep: seq<T>) {
    exists i :: 0 <= i <= |s| && MatchAt(s, sep, i)
  }

  /** In `a ++ sep` the first occurrence of `sep` is the appended one: a scan
      over `a ++ sep ++ rest` cuts exactly after `a`. */
  ghost predicate Clean<T>(a: seq<T>, sep: seq<T>) {
    forall p :: 0 <= p < |a| ==> !MatchAt(a + sep, sep, p)
  }

  /** No proper suffix of `sep` is also a prefix of it, so two occurrences of
      `sep` can never overlap. */
  ghost predicate BorderFree<T>(sep: seq<T>) {
    forall d :: 0 < d < |sep| ==> sep[d..] != sep[..|sep| - d]
  }

  /** The scan of `SeperateBytes`: the current part began at `start`, and
      position `i` is the next one to test for the delimiter. */
  function SplitFrom<T(==)>(s: seq<T>, sep: seq<T>, start: nat, i: nat): (parts: seq<seq<T>>)
    requires |sep| > 0 && start <= i <= |s|
    ensures |parts| >= 1
    decreases |s| - i
  {
    if i + |sep| > |s| then [s[start..]]
    else if s[i..i + |sep|] == sep then [s[start..i]] + SplitFrom(s, sep, i + |sep|, i + |sep|)
    else SplitFrom(s, sep, start, i + 1)
  }

  /** All parts of `s` between the occurrences of `sep` taken left to right. */
  function Split<T(==)>(s: seq<T>, sep: seq<T>): seq<seq<T>>
    requires |sep| > 0
  {
    SplitFrom(s, sep, 0, 0)
  }

  /** The parts re-joined with `sep` between neighbours. */
  function Join<T>(parts: seq<seq<T>>, sep: seq<T>): seq<T> {
    if |parts| == 0 then []
    else if |parts| == 1 then parts[0]
    else parts[0] + sep + Join(parts[1..], sep)
  }

  lemma JoinCons<T>(a: seq<T>, rest: seq<seq<T>>, sep: seq<T>)
    requires |rest| >= 1
    ensures Join([a] + rest, sep) == a + sep + Join(rest, sep)
  {
    assert ([a] + rest)[1..] == rest;
  }

  /** A match inside a slice is a match in the whole sequence. */
  lemma MatchInSlice<T>(s: seq<T>, sep: seq<T>, a: nat, b: nat, q: int)
    requires a <= b <= |s|
    requires MatchAt(s[a..b], sep, q)
    ensures MatchAt(s, sep, a + q) && a + q + |sep| <= b
  {
    forall k | 0 <= k < |sep|
      ensures s[a + q + k] == sep[k]
    {
      assert s[a..b][q..q + |sep|][k] == sep[k];
    }
    assert s[a + q..a + q + |sep|] == sep;
  }

  lemma SliceConcat<T>(s: seq<T>, a: nat, b: nat, c: nat)
    requires a <= b <= c <= |s|
    ensures s[a..] == s[a..b] + s[b..c] + s[c..]
  {
  }

  /** Re-joining the parts with the delimiter gives back the scanned input. */
  lemma {:induction false} JoinSplitFrom<T>(s: seq<T>, sep: seq<T>, start: nat, i: nat)
    requires |sep| > 0 && start <= i <= |s|
    ensures Join(SplitFrom(s, sep, start, i), sep) == s[start..]
    decreases |s| - i
  {
    if i + |sep| > |s| {
    } else if s[i..i + |sep|] == sep {
      var j := i + |sep|;
      var rest := SplitFrom(s, sep, j, j);
      assert SplitFrom(s, sep, start, i) == [s[start..i]] + rest;
      JoinSplitFrom(s, sep, j, j);
      JoinCons(s[start..i], rest, sep);
      SliceConcat(s, start, i, j);
    } else {
      JoinSplitFrom(s, sep, start, i + 1);
    }
  }

  /** Split and Join are inverse: the input is the parts with the delimiter between them. */
  lemma JoinSplit<T>(s: seq<T>, sep: seq<T>)
    requires |sep| > 0
    ensures Join(Split(s, sep), sep) == s
  {
    JoinSplitFrom(s, sep, 0, 0);
  }

  /** No part produced by the scan contains the delimiter. */
  lemma {:induction false} SplitFromPartsClear<T>(s: seq<T>, sep: seq<T>, start: nat, i: nat)
    requires |sep| > 0 && start <= i <= |s|
    requires forall p :: start <= p < i ==> !MatchAt(s, sep, p)
    ensures forall k :: 0 <= k < |SplitFrom(s, sep, start, i)| ==> !Occurs(SplitFrom(s, sep, start, i)[k], sep)
    decreases |s| - i
  {
    var parts := SplitFrom(s, sep, start, i);
    if i + |sep| > |s| {
      if Occurs(s[start..], sep) {
        var q :| 0 <= q <= |s[start..]| && MatchAt(s[start..], sep, q);
        assert s[start..] == s[start..|s|];
        MatchInSlice(s, sep, start, |s|, q);
      }
    } else if s[i..i + |sep|] == sep {
      var rest := SplitFrom(s, sep, i + |sep|, i + |sep|);
      SplitFromPartsClear(s, sep, i + |sep|, i + |sep|);
      if Occurs(s[start..i], sep) {
        var q :| 0 <= q <= |s[start..i]| && MatchAt(s[start..i], sep, q);
        MatchInSlice(s, sep, start, i, q);
      }
      forall k | 0 <= k < |parts|
        ensures !Occurs(parts[k], sep)
      {
        if k > 0 {
          assert parts[k] == rest[k - 1];
        }
      }
    } else {
      SplitFromPartsClear(s, sep, start, i + 1);
    }
  }

  /** The candidate properties of the split: at least one part, none of them
      holding the delimiter, and re-joining them gives back the input. */
  lemma SplitProperties<T>(s: seq<T>, sep: seq<T>)
    requires |sep| > 0
    ensures |Split(s, sep)| >= 1
    ensures forall k :: 0 <= k < |Split(s, sep)| ==> !Occurs(Split(s, sep)[k], sep)
    ensures Join(Split(s, sep), sep) == s
  {
    SplitFromPartsClear(s, sep, 0, 0);
    JoinSplit(s, sep);
  }

  /** Positions known not to match can be skipped. */
  lemma {:induction false} SkipNoMatch<T>(s: seq<T>, sep: seq<T>, start: nat, i: nat, q: nat)
    requires |sep| > 0 && start <= i <= q <= |s|
    requires forall p :: i <= p < q ==> !MatchAt(s, sep, p)
    ensures SplitFrom(s, sep, start, i) == SplitFrom(s, sep, start, q)
    decreases q - i
  {
    if i < q {
      assert !MatchAt(s, sep, i);
      if i + |sep| > |s| {
      } else {
        SkipNoMatch(s, sep, start, i + 1, q);
      }
    }
  }

  /** The scan only looks at the input from `start` on. */
  lemma {:induction false} SplitFromShift<T>(s: seq<T>, sep: seq<T>, d: nat, start: nat, i: nat)
    requires |sep| > 0 && d <= start <= i <= |s|
    ensures SplitFrom(s, sep, start, i) == SplitFrom(s[d..], sep, start - d, i - d)
    decreases |s| - i
  {
    if i + |sep| > |s| {
      ShiftAtEnd(s, sep, d, start, i);
    } else if s[i..i + |sep|] == sep {
      var n := i + |sep|;
      SplitFromShift(s, sep, d, n, n);
      ShiftAtMatch(s, sep, d, start, i, n);
    } else {
      SplitFromShift(s, sep, d, start, i + 1);
      ShiftAtMiss(s, sep, d, start, i);
    }
  }

  lemma ShiftAtEnd<T>(s: seq<T>, sep: seq<T>, d: nat, start: nat, i: nat)
    requires |sep| > 0 && d <= start <= i <= |s| && i + |sep| > |s|
    ensures SplitFrom(s, sep, start, i) == SplitFrom(s[d..], sep, start - d, i - d)
  {
    var t := s[d..];
    assert t[start - d..] == s[start..];
    SplitFromAtEnd(s, sep, start, i);
    SplitFromAtEnd(t, sep, start - d, i - d);
  }

  lemma ShiftAtMatch<T>(s: seq<T>, sep: seq<T>, d: nat, start: nat, i: nat, n: nat)
    requires |sep| > 0 && d <= start <= i && n == i + |sep| <= |s| && s[i..n] == sep
    requires SplitFrom(s, sep, n, n) == SplitFrom(s[d..], sep, n - d, n - d)
    ensures SplitFrom(s, sep, start, i) == SplitFrom(s[d..], sep, start - d, i - d)
  {
    var t := s[d..];
    var a, b := start - d, i - d;
    assert t[b..n - d] == s[i..n];
    assert t[a..b] == s[start..i];
    SplitFromAtMatch(s, sep, start, i, n);
    SplitFromAtMatch(t, sep, a, b, n - d);
    ConsEqual(SplitFrom(s, sep, start, i), SplitFrom(t, sep, a, b),
              s[start..i], t[a..b], SplitFrom(s, sep, n, n), SplitFrom(t, sep, n - d, n - d));
  }

  /** Two sequences built from equal heads and equal tails are equal. */
  lemma ConsEqual<U>(x: seq<U>, y: seq<U>, p: U, q: U, xs: seq<U>, ys: seq<U>)
    requires x == [p] + xs && y == [q] + ys && p == q && xs == ys
    ensures x == y
  {
  }

  /** The scan's last part, once the delimiter no longer fits. */
  lemma SplitFromAtEnd<T>(s: seq<T>, sep: seq<T>, start: nat, i: nat)
    requires |sep| > 0 && start <= i <= |s| && i + |sep| > |s|
    ensures SplitFrom(s, sep, start, i) == [s[start..]]
  {
  }

  /** One step of the scan past a position that does not match. */
  lemma SplitFromAtMiss<T>(s: seq<T>, sep: seq<T>, start: nat, i: nat)
    requires |sep| > 0 && start <= i && i + |sep| <= |s| && s[i..i + |sep|] != sep
    ensures SplitFrom(s, sep, start, i) == SplitFrom(s, sep, start, i + 1)
  {
  }

  /** One step of the scan at an occurrence of the delimiter. */
  lemma SplitFromAtMatch<T>(s: seq<T>, sep: seq<T>, start: nat, i: nat, n: nat)
    requires |sep| > 0 && start <= i && n == i + |sep| <= |s| && s[i..n] == sep
    ensures SplitFrom(s, sep, start, i) == [s[start..i]] + SplitFrom(s, sep, n, n)
  {
  }

  lemma ShiftAtMiss<T>(s: seq<T>, sep: seq<T>, d: nat, start: nat, i: nat)
    requires |sep| > 0 && d <= start <= i && i + |sep| <= |s| && s[i..i + |sep|] != sep
    requires SplitFrom(s, sep, start, i + 1) == SplitFrom(s[d..], sep, start - d, i + 1 - d)
    ensures SplitFrom(s, sep, start, i) == SplitFrom(s[d..], sep, start - d, i - d)
  {
    var t := s[d..];
    var a, b := start - d, i - d;
    assert t[b..b + |sep|] == s[i..i + |sep|];
    SplitFromAtMiss(s, sep, start, i);
    SplitFromAtMiss(t, sep, a, b);
  }

  /** Splitting at the first occurrence `q` of the delimiter. */
  lemma SplitAtFirstMatch<T>(s: seq<T>, sep: seq<T>, q: nat)
    requires |sep| > 0
    requires MatchAt(s, sep, q)
    requires forall p :: 0 <= p < q ==> !MatchAt(s, sep, p)
    ensures Split(s, sep) == [s[..q]] + Split(s[q + |sep|..], sep)
  {
    SkipNoMatch(s, sep, 0, 0, q);
    SplitFromShift(s, sep, q + |sep|, q + |sep|, q + |sep|);
  }

  /** Without any occurrence of the delimiter the input is its own only part. */
  lemma NoOccurrenceSplit<T>(s: seq<T>, sep: seq<T>)
    requires |sep| > 0
    requires !Occurs(s, sep)
    ensures Split(s, sep) == [s]
  {
    SkipNoMatch(s, sep, 0, 0, |s|);
  }

  /** A clean first part is cut off exactly. */
  lemma SplitClean<T>(a: seq<T>, sep: seq<T>, rest: seq<T>)
    requires |sep| > 0
    requires Clean(a, sep)
    ensures Split(a + sep + rest, sep) == [a] + Split(rest, sep)
  {
    var s := a + sep + rest;
    forall p | 0 <= p < |a|
      ensures !MatchAt(s, sep, p)
    {
      assert s[p..p + |sep|] == (a + sep)[p..p + |sep|];
      assert !MatchAt(a + sep, sep, p);
    }
    assert s[|a|..|a| + |sep|] == sep;
    SplitAtFirstMatch(s, sep, |a|);
    assert s[..|a|] == a;
    assert s[|a| + |sep|..] == rest;
  }

  /** Joining parts that are clean (the last one merely free of the
      delimiter) and splitting again gives the same parts back. */
  lemma {:induction false} SplitJoin<T>(parts: seq<seq<T>>, sep: seq<T>)
    requires |sep| > 0 && |parts| >= 1
    requires forall k :: 0 <= k < |parts| - 1 ==> Clean(parts[k], sep)
    requires !Occurs(parts[|parts| - 1], sep)
    ensures Split(Join(parts, sep), sep) == parts
  {
    if |parts| == 1 {
      NoOccurrenceSplit(parts[0], sep);
    } else {
      SplitJoin(parts[1..], sep);
      SplitClean(parts[0], sep, Join(parts[1..], sep));
    }
  }

  /** An occurrence that starts inside `a` and ends inside the appended
      delimiter would make the delimiter overlap itself. */
  lemma NoStraddle<T>(a: seq<T>, sep: seq<T>, rest: seq<T>, p: int)
    requires BorderFree(sep)
    requires 0 <= p < |a| < p + |sep|
    ensures !MatchAt(a + sep + rest, sep, p)
  {
    StraddleIsBorder(a, sep, rest, p);
  }

  /** An occurrence straddling the end of `a` exhibits a border of `sep`. */
  lemma StraddleIsBorder<T>(a: seq<T>, sep: seq<T>, rest: seq<T>, p: int)
    requires 0 <= p < |a| < p + |sep|
    ensures MatchAt(a + sep + rest, sep, p) ==> sep[|a| - p..] == sep[..|sep| - (|a| - p)]
  {
    var s := a + sep + rest;
    var n := |sep|;
    var d := |a| - p;
    if MatchAt(s, sep, p) {
      forall k | 0 <= k < n - d
        ensures sep[d..][k] == sep[..n - d][k]
      {
        assert s[p..p + n][d + k] == s[|a| + k];
        assert s[|a| + k] == sep[k];
      }
    }
  }

  /** For a delimiter that cannot overlap itself, a delimiter-free part is clean. */
  lemma BorderFreeClean<T>(a: seq<T>, sep: seq<T>)
    requires |sep| > 0 && BorderFree(sep)
    requires !Occurs(a, sep)
    ensures Clean(a, sep)
  {
    forall p | 0 <= p < |a|
      ensures !MatchAt(a + sep, sep, p)
    {
      if p + |sep| <= |a| {
        assert (a + sep)[p..p + |sep|] == a[p..p + |sep|];
        assert !MatchAt(a, sep, p);
      } else {
        NoStraddle(a, sep, [], p);
        assert a + sep + [] == a + sep;
      }
    }
  }

  /** Any occurrence at or after the scan position yields a cut. */
  lemma {:induction false} MatchGivesTwoParts<T>(s: seq<T>, sep: seq<T>, start: nat, i: nat, q: int)
    requires |sep| > 0 && start <= i <= |s|
    requires i <= q && MatchAt(s, sep, q)
    ensures |SplitFrom(s, sep, start, i)| >= 2
    decreases |s| - i
  {
    if i + |sep| > |s| {
    } else if s[i..i + |sep|] == sep {
    } else {
      MatchGivesTwoParts(s, sep, start, i + 1, q);
    }
  }

  /** The leftmost occurrence of `sep` in `s`, at or before a known one. */
  lemma FirstMatch<T>(s: seq<T>, sep: seq<T>, q0: nat) returns (q: nat)
    requires MatchAt(s, sep, q0)
    ensures q <= q0 && MatchAt(s, sep, q)
    ensures forall p :: 0 <= p < q ==> !MatchAt(s, sep, p)
  {
    q := 0;
    while !MatchAt(s, sep, q)
      invariant q <= q0
      invariant forall p :: 0 <= p < q ==> !MatchAt(s, sep, p)
      decreases q0 - q
    {
      q := q + 1;
    }
  }

  /** If `a` itself holds the (non-overlapping) delimiter, `a ++ sep ++ rest`
      splits into at least three parts. */
  lemma OccurrenceBeforeDelimiter<T>(a: seq<T>, sep: seq<T>, rest: seq<T>)
    requires |sep| > 0 && BorderFree(sep)
    requires Occurs(a, sep)
    ensures |Split(a + sep + rest, sep)| >= 3
  {
    var s := a + sep + rest;
    var n := |sep|;
    var q0 :| 0 <= q0 <= |a| && MatchAt(a, sep, q0);
    assert s[q0..q0 + n] == a[q0..q0 + n];
    var f := FirstMatch(s, sep, q0);
    if f + n > |a| {
      NoStraddle(a, sep, rest, f);
    }
    SplitAtFirstMatch(s, sep, f);
    var t := s[f + n..];
    assert t[|a| - f - n..|a| - f] == sep;
    MatchGivesTwoParts(t, sep, 0, 0, |a| - f - n);
  }
}

=== FILE: socket_util.dfy ===
/**
 The byte utilities of `SocketUtil`: delimiter splitting, array equality,
 trimming of trailing zero bytes and random alphanumeric identifiers.
 */
module SocketUtil {
  import Separate

  /** A .NET `byte`. */
  type byte = b: int | 0 <= b < 256

  // ---------------------------------------------------------------- SeperateBytes

  /** The inner loop of `SeperateBytes`: does `separator` occur at `i`? */
  method MatchesAt(source: seq<byte>, separator: seq<byte>, i: nat) returns (equal: bool)
    requires i + |separator| <= |source|
    ensures equal <==> source[i..i + |separator|] == separator
  {
    equal := true;
    var j := 0;
    while j < |separator|
      invariant 0 <= j <= |separator|
      invariant forall k :: 0 <= k < j ==> source[i + k] == separator[k]
    {
      if source[i + j] != separator[j] {
        equal := false;
        break;
      }
      j := j + 1;
    }
    assert equal ==> source[i..i + |separator|] == separator;
  }

  /** `SeperateBytes` as written: an outer scan over the start positions and an
      inner byte-by-byte comparison; on a match the part before it is emitted
      and the scan resumes after the delimiter (the source's step back by one
      followed by the loop's increment is written as a single jump). With an empty separator the
      scan never ends (see `EmptySeparatorNeverTerminates`), hence the
      precondition. */
  method SeperateBytes(source: seq<byte>, separator: seq<byte>) returns (parts: seq<seq<byte>>)
    requires |separator| > 0
    ensures parts == Separate.Split(source, separator)
    ensures |parts| >= 1
    ensures Separate.Join(parts, separator) == source
    ensures forall k :: 0 <= k < |parts| ==> !Separate.Occurs(parts[k], separator)
  {
    parts := [];
    var index := 0;
    var i := 0;
    ghost var whole := Separate.Split(source, separator);
    while i < |source| - |separator| + 1
      invariant 0 <= index <= i <= |source|
      invariant parts + Separate.SplitFrom(source, separator, index, i) == whole
    {
      var equal := MatchesAt(source, separator, i);
      if equal {
        var n := i + |separator|;
        Separate.SplitFromAtMatch(source, separator, index, i, n);
        ghost var rest := Separate.SplitFrom(source, separator, n, n);
        assert parts + [source[index..i]] + rest == whole by {
          assert parts + [source[index..i]] + rest == parts + ([source[index..i]] + rest);
        }
        parts := parts + [source[index..i]];
        index := n;
        i := n;
      } else {
        Separate.SplitFromAtMiss(source, separator, index, i);
        i := i + 1;
      }
    }
    Separate.SplitFromAtEnd(source, separator, index, i);
    parts := parts + [source[index..]];
    Separate.SplitProperties(source, separator);
  }

  /** The unit test's example: [1,2,3,9,9,4,5,6] split on [9,9]. */
  lemma SeperateBytesExample()
    ensures Separate.Split([1, 2, 3, 9, 9, 4, 5, 6], [9, 9]) == [[1, 2, 3], [4, 5, 6]]
  {
    ExampleHead();
    ExampleTail();
  }

  /** The scan of the example up to and across the delimiter at 3. */
  lemma ExampleHead()
    ensures var s: seq<int> := [1, 2, 3, 9, 9, 4, 5, 6];
      Separate.SplitFrom(s, [9, 9], 0, 0) == [[1, 2, 3]] + Separate.SplitFrom(s, [9, 9], 5, 5)
  {
    var s: seq<int> := [1, 2, 3, 9, 9, 4, 5, 6];
    var sep: seq<int> := [9, 9];
    assert s[0..2][0] == 1 && s[1..3][0] == 2 && s[2..4][0] == 3;
    Separate.SplitFromAtMiss(s, sep, 0, 0);
    Separate.SplitFromAtMiss(s, sep, 0, 1);
    Separate.SplitFromAtMiss(s, sep, 0, 2);
    assert s[3..5] == sep;
    Separate.SplitFromAtMatch(s, sep, 0, 3, 5);
    assert s[0..3] == [1, 2, 3];
  }

  /** The scan of the example from 5 to its end. */
  lemma ExampleTail()
    ensures Separate.SplitFrom([1, 2, 3, 9, 9, 4, 5, 6], [9, 9], 5, 5) == [[4, 5, 6]]
  {
    var s: seq<int> := [1, 2, 3, 9, 9, 4, 5, 6];
    var sep: seq<int> := [9, 9];
    assert s[5..7][0] == 4 && s[6..8][0] == 5;
    Separate.SplitFromAtMiss(s, sep, 5, 5);
    Separate.SplitFromAtMiss(s, sep, 5, 6);
    Separate.SplitFromAtEnd(s, sep, 5, 7);
    assert s[5..] == [4, 5, 6];
  }

  /** One iteration of the outer loop of `SeperateBytes`, for any separator:
      `i` is the loop variable, `index` the start of the current part. */
  datatype ScanState = ScanState(i: int, index: int, parts: seq<seq<byte>>)

  predicate ScanGuard(source: seq<byte>, separator: seq<byte>, st: ScanState) {
    st.i < |source| - |separator| + 1
  }

  function ScanStep(source: seq<byte>, separator: seq<byte>, st: ScanState): (next: ScanState)
    requires 0 <= st.index <= st.i && ScanGuard(source, separator, st)
    ensures 0 <= next.index <= next.i
  {
    if source[st.i..st.i + |separator|] == separator then
      // part = source[index..i]; index = i + |separator|; i += |separator| - 1; ++i
      ScanState(st.i + |separator| - 1 + 1, st.i + |separator|, st.parts + [source[st.index..st.i]])
    else
      ScanState(st.i + 1, st.index, st.parts)
  }

  /** The outer loop run for at most `n` iterations. */
  function ScanRun(source: seq<byte>, separator: seq<byte>, st: ScanState, n: nat): ScanState
    requires 0 <= st.index <= st.i
    decreases n
  {
    if n == 0 || !ScanGuard(source, separator, st) then st
    else ScanRun(source, separator, ScanStep(source, separator, st), n - 1)
  }

  /** With an empty separator every iteration "matches", emits an empty part
      and steps `i` back by one before `++i`: the loop stays at `i == 0` with
      its guard true, so no number of iterations ends it. */
  lemma {:induction false} EmptySeparatorNeverTerminates(source: seq<byte>, n: nat)
    ensures var st := ScanRun(source, [], ScanState(0, 0, []), n);
      st.i == 0 && st.index == 0 && |st.parts| == n && ScanGuard(source, [], st)
  {
    EmptySeparatorStays(source, n, []);
  }

  lemma {:induction false} EmptySeparatorStays(source: seq<byte>, n: nat, parts: seq<seq<byte>>)
    ensures var st := ScanRun(source, [], ScanState(0, 0, parts), n);
      st.i == 0 && st.index == 0 && |st.parts| == |parts| + n && ScanGuard(source, [], st)
  {
    if n > 0 {
      var st := ScanState(0, 0, parts);
      assert source[0..0] == [];
      assert ScanStep(source, [], st) == ScanState(0, 0, parts + [[]]);
      EmptySeparatorStays(source, n - 1, parts + [[]]);
    }
  }

  // ---------------------------------------------------------------- ByteArraysEqual

  /** `ByteArraysEqual` (`SequenceEqual` on two spans). */
  function ByteArraysEqual(a1: seq<byte>, a2: seq<byte>): (equal: bool)
    ensures equal <==> |a1| == |a2| && forall k :: 0 <= k < |a1| ==> a1[k] == a2[k]
    ensures equal <==> a1 == a2
  {
    if |a1| != |a2| then false
    else if |a1| == 0 then true
    else a1[0] == a2[0] && ByteArraysEqual(a1[1..], a2[1..])
  }

  /** The unit test's two cases. */
  lemma ByteArraysEqualExamples()
    ensures !ByteArraysEqual([1, 2, 3, 4], [5, 6, 7, 8])
    ensures ByteArraysEqual([1, 2, 3], [1, 2, 3])
  {
  }

  // ---------------------------------------------------------------- TrimEnd

  /** `Array.FindLastIndex(array, b => b != 0)`: -1 when every byte is zero. */
  function FindLastNonZero(a: seq<byte>): (k: int)
    ensures -1 <= k < |a|
    ensures k >= 0 ==> a[k] != 0
    ensures forall j :: k < j < |a| ==> a[j] == 0
  {
    if |a| == 0 then -1
    else if a[|a| - 1] != 0 then |a| - 1
    else FindLastNonZero(a[..|a| - 1])
  }

  /** `TrimEnd`: the array resized to end at its last non-zero byte. */
  function TrimEnd(a: seq<byte>): (r: seq<byte>)
    ensures |r| <= |a| && r == a[..|r|]
    ensures |r| == 0 || r[|r| - 1] != 0
    ensures forall k :: |r| <= k < |a| ==> a[k] == 0
  {
    a[..FindLastNonZero(a) + 1]
  }

  /** Only one prefix satisfies the contract of `TrimEnd`: the result is the
      longest prefix not ending in 0. */
  lemma TrimEndUnique(a: seq<byte>, p: seq<byte>)
    requires |p| <= |a| && p == a[..|p|]
    requires |p| == 0 || p[|p| - 1] != 0
    requires forall k :: |p| <= k < |a| ==> a[k] == 0
    ensures p == TrimEnd(a)
  {
  }

  /** Trimming twice is trimming once. */
  lemma TrimEndIdempotent(a: seq<byte>)
    ensures TrimEnd(TrimEnd(a)) == TrimEnd(a)
  {
    var r := TrimEnd(a);
    TrimEndUnique(r, r);
  }

  /** Appending zero bytes does not change the trimmed result. */
  lemma TrimEndIgnoresZeroPadding(a: seq<byte>, n: nat)
    ensures TrimEnd(a + seq(n, _ => 0)) == TrimEnd(a)
  {
    var b := a + seq(n, _ => 0);
    var r := TrimEnd(a);
    assert b[..|r|] == r;
    TrimEndUnique(b, r);
  }

  // ---------------------------------------------------------------- GenerateRandomString

  /** The character set of `GenerateRandomString`, in its order
      ("QWERTYUIOPASDFGHJKLZXCVBNMqwertyuiopasdfghjklzxcvbnm1234567890"),
      written as its three keyboard rows. */
  const UpperRow: string := "QWERTYUIOPASDFGHJKLZXCVBNM"
  const LowerRow: string := "qwertyuiopasdfghjklzxcvbnm"
  const DigitRow: string := "1234567890"
  const Charset: string := UpperRow + LowerRow + DigitRow

  /** A value of `Random.Next(charset.Length)`. */
  type Draw = d: int | 0 <= d < 62

  /** The random source: the `k`-th call of `Random.Next` returns `rng(k)`. */
  type Rng = nat -> Draw

  predicate IsAlphanumeric(c: char) {
    ('A' <= c <= 'Z') || ('a' <= c <= 'z') || ('0' <= c <= '9')
  }

  /** The random source after `n` draws have been consumed. */
  function Advance(rng: Rng, n: nat): Rng {
    k => rng(n + k)
  }

  /** `GenerateRandomString(length)`: one charset character per draw. */
  function GenerateRandomString(length: int, rng: Rng): (s: string)
    ensures |s| == if length > 0 then length else 0
    ensures forall k :: 0 <= k < |s| ==> IsAlphanumeric(s[k])
    ensures forall k :: 0 <= k < |s| ==> s[k] == Charset[rng(k)]
  {
    CharsetIsAlphanumeric();
    seq(if length > 0 then length else 0, k requires 0 <= k => Charset[rng(k)])
  }

  lemma CharsetIsAlphanumeric()
    ensures |Charset| == 62
    ensures forall d :: 0 <= d < 62 ==> IsAlphanumeric(Charset[d])
  {
    forall d | 0 <= d < 62
      ensures IsAlphanumeric(Charset[d])
    {
      if d < 26 {
        UpperRowIsUpper(d);
      } else if d < 52 {
        LowerRowIsLower(d - 26);
      } else {
        DigitRowIsDigits(d - 52);
      }
    }
  }

  lemma UpperRowIsUpper(d: int)
    requires 0 <= d < 26
    ensures 'A' <= UpperRow[d] <= 'Z'
  {
  }

  lemma LowerRowIsLower(d: int)
    requires 0 <= d < 26
    ensures 'a' <= LowerRow[d] <= 'z'
  {
  }

  lemma DigitRowIsDigits(d: int)
    requires 0 <= d < 10
    ensures '0' <= DigitRow[d] <= '9'
  {
  }

  function IndexIn(s: string, c: char, from: nat): (d: nat)
    requires from <= |s| && c in s[from..]
    ensures from <= d < |s| && s[d] == c
    ensures forall e :: from <= e < d ==> s[e] != c
    decreases |s| - from
  {
    if s[from] == c then from
    else
      assert c in s[from + 1..] by {
        var e :| 0 <= e < |s[from..]| && s[from..][e] == c;
        assert e != 0 && s[from + 1..][e - 1] == c;
      }
      IndexIn(s, c, from + 1)
  }

  /** Every string over the charset is a possible result: the generator
      reaches the whole alphabet. */
  lemma GenerateRandomStringReachesEveryId(t: string)
    requires forall k :: 0 <= k < |t| ==> t[k] in Charset
    ensures exists rng: Rng :: GenerateRandomString(|t|, rng) == t
  {
    assert Charset[0..] == Charset;
    var rng: Rng := (k: nat) => if k < |t| then IndexIn(Charset, t[k], 0) else 0;
    assert GenerateRandomString(|t|, rng) == t;
  }
}

=== FILE: swift_server.dfy ===
/**
 The client registry of `SwiftServer`: the list of connected clients and
 their IDs, the password key, `Kick`, and the bookkeeping `HandleClients`
 does on its parallel `ids`/`tasks` arrays in every round of its loop.

 What the loop waits for (a task completing, the socket a listener
 accepts, the text a client sends, the clock, the random source) is an
 input of each step; sockets are represented by a number standing for the
 object's identity.
 */
module Server {
  import opened Wrappers
  import SocketUtil
  import Codec
  import Separate

  type Bytes = Codec.Bytes

  /** The name of the listener's slot in `ids`. */
  const ListenerId: string := "Listener"
  /** The message that only refreshes a client's deadline. */
  const KeepAliveMessage: string := "SERVKEEPALIVE"
  /** Length of a client ID. */
  const IdLength: nat := 4
  /** How many IDs the constructor draws before giving up. */
  const IdAttempts: nat := 100
  /** A new client's deadline, in ms after it connected (one minute). */
  const InitialKeepAlive: int := 60_000
  /** The deadline after every message, in ms after it arrived (ten seconds). */
  const KeepAliveExtension: int := 10_000

  /** A `ServerClient`; `socket` is the identity of its socket object,
      `keepAlive` the time (ms) from which on it is kicked. */
  datatype Client = Client(socket: nat, id: string, connectTime: int, keepAlive: int, isHandshake: bool)

  /** The server's registry: `_Clients`, `_RemoveQueue` and `_PasswordHash`. */
  datatype Server = Server(clients: seq<Client>, removeQueue: seq<string>, passwordHash: Option<Bytes>)

  /** `new SwiftServer()`: no clients and no password. */
  function NewServer(): (s: Server)
    ensures s.clients == [] && s.removeQueue == [] && !Codec.HasKey(s.passwordHash)
  {
    Server([], [], None)
  }

  // ---------------------------------------------------------------- Password

  /** The `Password` setter: an empty password clears the key; any other is
      replaced by the SHA-256 digest of its UTF-8 bytes. */
  function SetPassword(p: Codec.Primitives, s: Server, value: string): (r: Server)
    ensures r.clients == s.clients && r.removeQueue == s.removeQueue
    ensures r.passwordHash.None? <==> |value| == 0
    ensures r.passwordHash.Some? ==> r.passwordHash.value == p.sha256(p.utf8Encode(value))
  {
    s.(passwordHash := if |value| == 0 then None else Some(p.sha256(p.utf8Encode(value))))
  }

  /** With lawful primitives, the codec encrypts exactly when the password
      set last was non-empty, and the key is the 32-byte digest. */
  lemma PasswordKeys(p: Codec.Primitives, s: Server, value: string)
    requires Codec.Lawful(p)
    ensures Codec.HasKey(SetPassword(p, s, value).passwordHash) <==> |value| > 0
    ensures |value| > 0 ==> |SetPassword(p, s, value).passwordHash.value| == 32
  {
  }

  /** Two parties that set the same password understand each other: a
      packet one frames with its key the other decodes with its own. */
  lemma SamePasswordRoundTrip(p: Codec.Primitives, s: Server, t: Server, value: string, obj: Bytes, iv: Codec.Iv)
    requires Codec.Lawful(p)
    requires var body := Codec.PacketBody(p, obj, SetPassword(p, s, value).passwordHash, iv);
      body.Some? ==>
        !Separate.Occurs(body.value, Codec.ChecksumPrefix)
        && !Separate.Occurs(p.sha256(body.value), Codec.ChecksumPrefix)
    ensures var packet := Codec.GeneratePacket(p, obj, SetPassword(p, s, value).passwordHash, iv);
      packet.Some?
      && Codec.DecodePacket(p, packet.value, SetPassword(p, t, value).passwordHash) == Success(obj)
  {
    assert SetPassword(p, s, value).passwordHash == SetPassword(p, t, value).passwordHash;
    Codec.RoundTrip(p, obj, SetPassword(p, s, value).passwordHash, iv);
  }

  // ---------------------------------------------------------------- RemoveAt

  /** `RemoveAt<T>`: a copy of `source` without the element at `index`.
      Any other index makes `new T[...]` or `Array.Copy` throw: `None`. */
  function RemoveAt<T>(source: seq<T>, index: int): (r: Option<seq<T>>)
    ensures r.Some? <==> 0 <= index < |source|
    ensures r.Some? ==>
      && |r.value| == |source| - 1
      && (forall k :: 0 <= k < index ==> r.value[k] == source[k])
      && (forall k :: index <= k < |r.value| ==> r.value[k] == source[k + 1])
  {
    if 0 <= index < |source| then Some(source[..index] + source[index + 1..]) else None
  }

  /** Removing an element takes exactly that one occurrence out of the
      multiset of elements. */
  lemma RemoveAtMultiset<T>(source: seq<T>, index: int)
    requires 0 <= index < |source|
    ensures multiset(RemoveAt(source, index).value) + multiset{source[index]} == multiset(source)
  {
    assert source == source[..index] + [source[index]] + source[index + 1..];
  }

  /** `RemoveAt` undoes an insertion at the same index. */
  lemma RemoveAtInsert<T>(a: seq<T>, index: nat, x: T)
    requires index <= |a|
    ensures RemoveAt(a[..index] + [x] + a[index..], index) == Some(a)
  {
    var b := a[..index] + [x] + a[index..];
    assert b[..index] + b[index + 1..] == a;
  }

  // ---------------------------------------------------------------- FindClientByIDInternal

  /** The first index at or after `from` whose element satisfies `p`. */
  function IndexWhere<T>(s: seq<T>, p: T -> bool, from: nat): (r: Option<nat>)
    requires from <= |s|
    ensures r.Some? ==> from <= r.value < |s| && p(s[r.value]) && forall k :: from <= k < r.value ==> !p(s[k])
    ensures r.None? ==> forall k :: from <= k < |s| ==> !p(s[k])
    decreases |s| - from
  {
    if from == |s| then None
    else if p(s[from]) then Some(from)
    else IndexWhere(s, p, from + 1)
  }

  /** Some client has this ID. */
  predicate IdTaken(clients: seq<Client>, id: string) {
    exists k :: 0 <= k < |clients| && clients[k].id == id
  }

  /** `FindClientByIDInternal`: the position of the first client with the
      ID, `None` for null. */
  function FindClient(clients: seq<Client>, id: string): (r: Option<nat>)
    ensures r.Some? ==>
      && r.value < |clients| && clients[r.value].id == id
      && forall k :: 0 <= k < r.value ==> clients[k].id != id
    ensures r.None? <==> !IdTaken(clients, id)
  {
    IndexWhere(clients, (c: Client) => c.id == id, 0)
  }

  // ---------------------------------------------------------------- ServerClient

  /** The ID drawn at attempt `a`: four charset characters, using draws
      `4a` to `4a + 3` of the random source. */
  function Candidate(rng: SocketUtil.Rng, a: nat): (id: string)
    ensures |id| == IdLength
  {
    SocketUtil.GenerateRandomString(IdLength, SocketUtil.Advance(rng, IdLength * a))
  }

  /** The IDs of the 100 attempts, in order. */
  function Candidates(rng: SocketUtil.Rng): (ids: seq<string>)
    ensures |ids| == IdAttempts
    ensures forall a :: 0 <= a < IdAttempts ==> ids[a] == Candidate(rng, a)
  {
    seq(IdAttempts, a requires 0 <= a => Candidate(rng, a))
  }

  /** The first candidate, from `a` on, that no client has. */
  function FirstFree(clients: seq<Client>, candidates: seq<string>, a: nat): (r: Option<nat>)
    requires a <= |candidates|
    ensures r.Some? ==>
      && a <= r.value < |candidates| && !IdTaken(clients, candidates[r.value])
      && forall b :: a <= b < r.value ==> IdTaken(clients, candidates[b])
    ensures r.None? ==> forall b :: a <= b < |candidates| ==> IdTaken(clients, candidates[b])
    decreases |candidates| - a
  {
    if a == |candidates| then None
    else if !IdTaken(clients, candidates[a]) then Some(a)
    else FirstFree(clients, candidates, a + 1)
  }

  /** The ID loop of the `ServerClient` constructor: the first of at most
      100 random IDs that no client has; `None` when all were taken, where
      the constructor throws. */
  function NewClientId(clients: seq<Client>, rng: SocketUtil.Rng): (r: Option<string>)
    ensures r.Some? ==>
      && |r.value| == IdLength && !IdTaken(clients, r.value)
      && forall k :: 0 <= k < |r.value| ==> SocketUtil.IsAlphanumeric(r.value[k])
    ensures r.Some? ==> exists a :: 0 <= a < IdAttempts && r.value == Candidate(rng, a)
    ensures r.None? <==> forall a :: 0 <= a < IdAttempts ==> IdTaken(clients, Candidate(rng, a))
  {
    var candidates := Candidates(rng);
    match FirstFree(clients, candidates, 0)
    case None => None
    case Some(a) => Some(candidates[a])
  }

  /** Without clients the first draw is taken. */
  lemma FirstClientTakesFirstDraw(rng: SocketUtil.Rng)
    ensures NewClientId([], rng) == Some(Candidate(rng, 0))
  {
  }

  /** The accepted socket becomes a client with a fresh ID, connected now,
      due to send within a minute, not yet handshaken, at the end of the
      list. `None` is the constructor's exception. */
  function AcceptClient(s: Server, socket: nat, now: int, rng: SocketUtil.Rng): (r: Option<(Server, string)>)
    ensures r.None? <==> NewClientId(s.clients, rng).None?
    ensures r.Some? ==>
      var (s1, id) := r.value;
      && !IdTaken(s.clients, id) && |id| == IdLength
      && s1.clients == s.clients + [Client(socket, id, now, now + InitialKeepAlive, false)]
      && s1.removeQueue == s.removeQueue && s1.passwordHash == s.passwordHash
  {
    match NewClientId(s.clients, rng)
    case None => None
    case Some(id) => Some((s.(clients := s.clients + [Client(socket, id, now, now + InitialKeepAlive, false)]), id))
  }

  /** No two clients share an ID. */
  predicate IdsUnique(clients: seq<Client>) {
    forall j, k :: 0 <= j < k < |clients| ==> clients[j].id != clients[k].id
  }

  /** Accepting keeps the IDs unique. */
  lemma AcceptKeepsIdsUnique(s: Server, socket: nat, now: int, rng: SocketUtil.Rng)
    requires IdsUnique(s.clients)
    ensures var r := AcceptClient(s, socket, now, rng);
      r.Some? ==> IdsUnique(r.value.0.clients)
  {
    var r := AcceptClient(s, socket, now, rng);
    if r.Some? {
      var c := r.value.0.clients;
      forall j, k | 0 <= j < k < |c|
        ensures c[j].id != c[k].id
      {
        if k == |s.clients| {
          assert !IdTaken(s.clients, c[k].id);
          assert c[j] == s.clients[j];
        }
      }
    }
  }

  // ---------------------------------------------------------------- Kick

  /** `List.Remove(client)`: the first client with that socket object is
      removed; `false` if there is none. */
  function RemoveClient(clients: seq<Client>, socket: nat): (r: (seq<Client>, bool))
    ensures r.1 <==> exists k :: 0 <= k < |clients| && clients[k].socket == socket
    ensures !r.1 ==> r.0 == clients
    ensures |r.0| <= |clients| && forall j :: 0 <= j < |r.0| ==> r.0[j] in clients
  {
    match IndexWhere(clients, (c: Client) => c.socket == socket, 0)
    case None => (clients, false)
    case Some(k) => (RemoveAt(clients, k).value, true)
  }

  /** `Kick(id)`. The client is told `SERVKICK`; when that send fails at the
      socket, `SendMessage` itself calls `Kick(id)` before the outer call
      goes on. `failedSends` is how many sends in a row fail that way
      before one goes through. Each call closes the socket, enqueues the ID
      for removal and removes the client object, and answers whether that
      removal found it. */
  function Kick(s: Server, id: string, failedSends: nat): (r: (Server, bool))
    ensures FindClient(s.clients, id).None? ==> r == (s, false)
    ensures r.0.passwordHash == s.passwordHash
    ensures |r.0.removeQueue| >= |s.removeQueue| && r.0.removeQueue[..|s.removeQueue|] == s.removeQueue
    ensures forall j :: |s.removeQueue| <= j < |r.0.removeQueue| ==> r.0.removeQueue[j] == id
    ensures |r.0.clients| <= |s.clients| && forall j :: 0 <= j < |r.0.clients| ==> r.0.clients[j] in s.clients
    decreases failedSends
  {
    match FindClient(s.clients, id)
    case None => (s, false)
    case Some(k) =>
      var s1 := if failedSends > 0 then Kick(s, id, failedSends - 1).0 else s;
      var (rest, removed) := RemoveClient(s1.clients, s.clients[k].socket);
      (s1.(clients := rest, removeQueue := s1.removeQueue + [id]), removed)
  }

  /** No two clients share a socket object. */
  predicate SocketsUnique(clients: seq<Client>) {
    forall j, k :: 0 <= j < k < |clients| ==> clients[j].socket != clients[k].socket
  }

  /** Kicking a known client removes it (the first with the ID) and
      enqueues its ID once per call of `Kick`; only a kick whose message
      went through answers `true`. */
  lemma {:induction false} KickEffect(s: Server, id: string, failedSends: nat)
    requires SocketsUnique(s.clients)
    requires FindClient(s.clients, id).Some?
    ensures var k := FindClient(s.clients, id).value;
      Kick(s, id, failedSends) == (s.(clients := RemoveAt(s.clients, k).value,
                                      removeQueue := s.removeQueue + seq(failedSends + 1, _ => id)),
                                   failedSends == 0)
    decreases failedSends
  {
    var k := FindClient(s.clients, id).value;
    var rest := RemoveAt(s.clients, k).value;
    var h := s.clients[k].socket;
    if failedSends == 0 {
      var m := IndexWhere(s.clients, (c: Client) => c.socket == h, 0);
      assert m == Some(k);
      assert RemoveClient(s.clients, h) == (rest, true);
      assert seq(1, _ => id) == [id];
    } else {
      KickEffect(s, id, failedSends - 1);
      forall j | 0 <= j < |rest|
        ensures rest[j].socket != h
      {
        if j < k {
          assert rest[j] == s.clients[j];
        } else {
          assert rest[j] == s.clients[j + 1];
        }
      }
      assert s.removeQueue + seq(failedSends, _ => id) + [id] == s.removeQueue + seq(failedSends + 1, _ => id);
    }
  }

  /** With unique IDs, a kicked client's ID is gone from the list. */
  lemma KickRemovesId(s: Server, id: string, failedSends: nat)
    requires SocketsUnique(s.clients) && IdsUnique(s.clients)
    ensures !IdTaken(Kick(s, id, failedSends).0.clients, id)
  {
    if FindClient(s.clients, id).Some? {
      KickEffect(s, id, failedSends);
      var k := FindClient(s.clients, id).value;
      var rest := RemoveAt(s.clients, k).value;
      forall j | 0 <= j < |rest|
        ensures rest[j].id != id
      {
        if j < k {
          assert rest[j] == s.clients[j];
        } else {
          assert rest[j] == s.clients[j + 1];
        }
      }
    }
  }

  // ---------------------------------------------------------------- HandleClients: the slots

  /** What the task in a slot waits for: nothing (a null entry), a
      connection on the listener, or a packet on a client's socket. */
  datatype Task = Idle | Accepting | Receiving(socket: nat)

  /** The parallel arrays `ids` and `tasks`; a `None` ID is a null entry. */
  datatype Slots = Slots(ids: seq<Option<string>>, tasks: seq<Task>)

  predicate WellFormed(sl: Slots) {
    |sl.ids| == |sl.tasks|
  }

  /** Before the loop: only the listener's slot. */
  function InitialSlots(): (sl: Slots)
    ensures WellFormed(sl) && |sl.ids| == 1 && sl.ids[0] == Some(ListenerId) && sl.tasks[0] == Accepting
  {
    Slots([Some(ListenerId)], [Accepting])
  }

  /** One dequeued ID: the first slot with that ID is removed from both
      arrays; nothing happens when no slot has it. */
  function RemoveSlot(sl: Slots, id: string): (r: Slots)
    requires WellFormed(sl)
    ensures WellFormed(r)
    ensures Some(id) !in sl.ids ==> r == sl
    ensures Some(id) in sl.ids ==>
      var i := IndexWhere(sl.ids, (x: Option<string>) => x == Some(id), 0).value;
      && sl.ids[i] == Some(id) && Some(id) !in sl.ids[..i]
      && r.ids == RemoveAt(sl.ids, i).value && r.tasks == RemoveAt(sl.tasks, i).value
    ensures forall j :: 0 <= j < |r.ids| ==> r.ids[j] in sl.ids
    ensures |sl.ids| > 0 && sl.ids[0] != Some(id) ==>
      |r.ids| > 0 && r.ids[0] == sl.ids[0] && r.tasks[0] == sl.tasks[0]
  {
    match IndexWhere(sl.ids, (x: Option<string>) => x == Some(id), 0)
    case None => sl
    case Some(i) => Slots(RemoveAt(sl.ids, i).value, RemoveAt(sl.tasks, i).value)
  }

  /** Draining `_RemoveQueue`: `RemoveSlot` for each queued ID in order. */
  function DrainRemoveQueue(sl: Slots, queue: seq<string>): (r: Slots)
    requires WellFormed(sl)
    ensures WellFormed(r) && |r.ids| <= |sl.ids|
    ensures forall j :: 0 <= j < |r.ids| ==> r.ids[j] in sl.ids
    decreases |queue|
  {
    if |queue| == 0 then sl else DrainRemoveQueue(RemoveSlot(sl, queue[0]), queue[1..])
  }

  /** No ID occupies two slots. */
  predicate Distinct(ids: seq<Option<string>>) {
    forall j, k :: 0 <= j < k < |ids| ==> ids[j] != ids[k]
  }

  lemma RemoveSlotDistinct(sl: Slots, id: string)
    requires WellFormed(sl) && Distinct(sl.ids)
    ensures Distinct(RemoveSlot(sl, id).ids) && Some(id) !in RemoveSlot(sl, id).ids
  {
    var r := RemoveSlot(sl, id);
    if Some(id) in sl.ids {
      var i := IndexWhere(sl.ids, (x: Option<string>) => x == Some(id), 0).value;
      forall j | 0 <= j < |r.ids|
        ensures r.ids[j] == sl.ids[if j < i then j else j + 1]
      {
      }
    }
  }

  /** When the slot IDs are distinct, draining removes the slot of every
      queued ID and keeps the IDs distinct. */
  lemma {:induction false} DrainRemovesQueued(sl: Slots, queue: seq<string>)
    requires WellFormed(sl) && Distinct(sl.ids)
    ensures Distinct(DrainRemoveQueue(sl, queue).ids)
    ensures forall q :: q in queue ==> Some(q) !in DrainRemoveQueue(sl, queue).ids
    decreases |queue|
  {
    if |queue| > 0 {
      var sl1 := RemoveSlot(sl, queue[0]);
      RemoveSlotDistinct(sl, queue[0]);
      DrainRemovesQueued(sl1, queue[1..]);
      assert forall q :: q in queue ==> q == queue[0] || q in queue[1..];
    }
  }

  /** The listener's name appears in no slot but the first. */
  predicate ListenerOnlyFirst(ids: seq<Option<string>>) {
    forall k :: 1 <= k < |ids| ==> ids[k] != Some(ListenerId)
  }

  /** Removing any other ID keeps the listener first and alone. */
  lemma RemoveSlotKeepsListener(sl: Slots, id: string)
    requires WellFormed(sl) && |sl.ids| > 0 && sl.ids[0] == Some(ListenerId) && ListenerOnlyFirst(sl.ids)
    requires id != ListenerId
    ensures var r := RemoveSlot(sl, id);
      |r.ids| > 0 && r.ids[0] == Some(ListenerId) && r.tasks[0] == sl.tasks[0] && ListenerOnlyFirst(r.ids)
  {
    var r := RemoveSlot(sl, id);
    if Some(id) in sl.ids {
      var i := IndexWhere(sl.ids, (x: Option<string>) => x == Some(id), 0).value;
      forall k | 1 <= k < |r.ids|
        ensures r.ids[k] == sl.ids[if k < i then k else k + 1]
      {
      }
    }
  }

  /** A queue without the listener's name leaves the listener's slot first,
      and the only one with its name. */
  lemma {:induction false} DrainKeepsListener(sl: Slots, queue: seq<string>)
    requires WellFormed(sl) && |sl.ids| > 0 && sl.ids[0] == Some(ListenerId) && ListenerOnlyFirst(sl.ids)
    requires forall k :: 0 <= k < |queue| ==> queue[k] != ListenerId
    ensures var r := DrainRemoveQueue(sl, queue);
      |r.ids| > 0 && r.ids[0] == Some(ListenerId) && r.tasks[0] == sl.tasks[0] && ListenerOnlyFirst(r.ids)
    decreases |queue|
  {
    if |queue| > 0 {
      RemoveSlotKeepsListener(sl, queue[0]);
      DrainKeepsListener(RemoveSlot(sl, queue[0]), queue[1..]);
    }
  }

  /** The inner loop of the add step: every dequeued ID is written to slot
      `idx` (which never moves on), and the receive task of its client, if
      the client is still there, to the same slot. */
  function FillSlot(clients: seq<Client>, sl: Slots, idx: nat, queue: seq<string>): (r: Slots)
    requires WellFormed(sl) && idx < |sl.ids|
    ensures WellFormed(r) && |r.ids| == |sl.ids|
    ensures forall k :: 0 <= k < |sl.ids| && k != idx ==> r.ids[k] == sl.ids[k] && r.tasks[k] == sl.tasks[k]
    ensures |queue| > 0 ==> r.ids[idx] == Some(queue[|queue| - 1])
    ensures |queue| == 0 ==> r == sl
    decreases |queue|
  {
    if |queue| == 0 then sl
    else
      var id := queue[0];
      var tasks := match FindClient(clients, id)
        case None => sl.tasks
        case Some(k) => sl.tasks[idx := Receiving(clients[k].socket)];
      FillSlot(clients, Slots(sl.ids[idx := Some(id)], tasks), idx, queue[1..])
  }

  /** The add step as written: both arrays grow by the size of the add
      queue (with null entries), then `FillSlot` at the first new index. */
  function AddStep(clients: seq<Client>, sl: Slots, addQueue: seq<string>): (r: Slots)
    requires WellFormed(sl)
    ensures WellFormed(r) && |r.ids| == |sl.ids| + |addQueue|
    ensures r.ids[..|sl.ids|] == sl.ids && r.tasks[..|sl.tasks|] == sl.tasks
    ensures |addQueue| > 0 ==> r.ids[|sl.ids|] == Some(addQueue[|addQueue| - 1])
    ensures forall k :: |sl.ids| < k < |r.ids| ==> r.ids[k] == None && r.tasks[k] == Idle
  {
    if |addQueue| == 0 then sl
    else
      var n := |addQueue|;
      var grown := Slots(sl.ids + seq(n, _ => None), sl.tasks + seq(n, _ => Idle));
      var r := FillSlot(clients, grown, |sl.tasks|, addQueue);
      assert r.ids[..|sl.ids|] == sl.ids && r.tasks[..|sl.tasks|] == sl.tasks;
      r
  }

  /** The task a new slot gets: the receive task of the ID's client, or
      none when the client is gone. */
  function ReceiveTask(clients: seq<Client>, id: string): (t: Task)
    ensures t.Idle? <==> !IdTaken(clients, id)
    ensures t.Receiving? ==> clients[FindClient(clients, id).value].socket == t.socket
  {
    match FindClient(clients, id)
    case None => Idle
    case Some(k) => Receiving(clients[k].socket)
  }

  /** The add step as evidently intended: the `j`-th queued ID goes to the
      `j`-th new slot, together with its client's receive task. */
  function AddStepIntended(clients: seq<Client>, sl: Slots, addQueue: seq<string>): (r: Slots)
    requires WellFormed(sl)
    ensures WellFormed(r) && |r.ids| == |sl.ids| + |addQueue|
    ensures r.ids[..|sl.ids|] == sl.ids && r.tasks[..|sl.tasks|] == sl.tasks
    ensures forall j :: 0 <= j < |addQueue| ==>
      r.ids[|sl.ids| + j] == Some(addQueue[j]) && r.tasks[|sl.ids| + j] == ReceiveTask(clients, addQueue[j])
  {
    var n := |addQueue|;
    var ids := seq(n, j requires 0 <= j < n => Some(addQueue[j]));
    var tasks := seq(n, j requires 0 <= j < n => ReceiveTask(clients, addQueue[j]));
    assert (sl.ids + ids)[..|sl.ids|] == sl.ids && (sl.tasks + tasks)[..|sl.tasks|] == sl.tasks;
    Slots(sl.ids + ids, sl.tasks + tasks)
  }

  /** With one accepted client per round, as the loop produces, the add
      step does what was intended. */
  lemma AddStepSingle(clients: seq<Client>, sl: Slots, addQueue: seq<string>)
    requires WellFormed(sl) && |addQueue| <= 1
    ensures AddStep(clients, sl, addQueue) == AddStepIntended(clients, sl, addQueue)
  {
    var r := AddStep(clients, sl, addQueue);
    var e := AddStepIntended(clients, sl, addQueue);
    if |addQueue| == 1 {
      assert r.ids == e.ids;
      assert r.tasks[|sl.tasks|] == e.tasks[|sl.tasks|];
      assert r.tasks == e.tasks;
    }
  }

  /** Two queued IDs: the second overwrites the first in the first new slot
      and the second new slot stays null, so its task is never polled
      (`tasks[i].IsCompleted` then throws on the null entry). */
  lemma AddStepLosesIds(clients: seq<Client>)
    ensures var r := AddStep(clients, InitialSlots(), ["AAAA", "BBBB"]);
      r.ids == [Some(ListenerId), Some("BBBB"), None] && r.tasks[2] == Idle
    ensures AddStepIntended(clients, InitialSlots(), ["AAAA", "BBBB"]).ids
         == [Some(ListenerId), Some("AAAA"), Some("BBBB")]
  {
    var r := AddStep(clients, InitialSlots(), ["AAAA", "BBBB"]);
    assert r.ids[1] == Some("BBBB");
    assert r.ids[2] == None;
    var e := AddStepIntended(clients, InitialSlots(), ["AAAA", "BBBB"]);
    assert e.ids[1] == Some("AAAA") && e.ids[2] == Some("BBBB");
  }

  // ---------------------------------------------------------------- HandleClients: one slot

  /** The keep-alive rule for a slot's ID: a client whose deadline has come
      (now >= keepAlive) is kicked. The listener's slot and null IDs are
      skipped (a null lookup compares as false). */
  function CheckKeepAlive(s: Server, id: Option<string>, now: int, failedSends: nat): (r: Server)
    ensures r != s ==> id.Some? && id.value != ListenerId && FindClient(s.clients, id.value).Some?
    ensures id.Some? && id.value != ListenerId && FindClient(s.clients, id.value).Some? ==>
      var c := s.clients[FindClient(s.clients, id.value).value];
      r == if now >= c.keepAlive then Kick(s, id.value, failedSends).0 else s
  {
    if id.None? || id.value == ListenerId then s
    else match FindClient(s.clients, id.value)
      case None => s
      case Some(k) => if now >= s.clients[k].keepAlive then Kick(s, id.value, failedSends).0 else s
  }

  /** A client whose deadline has come is gone after the check. */
  lemma ExpiredClientKicked(s: Server, id: string, now: int, failedSends: nat)
    requires SocketsUnique(s.clients) && IdsUnique(s.clients) && id != ListenerId
    requires FindClient(s.clients, id).Some? && now >= s.clients[FindClient(s.clients, id).value].keepAlive
    ensures !IdTaken(CheckKeepAlive(s, Some(id), now, failedSends).clients, id)
  {
    KickRemovesId(s, id, failedSends);
  }

  /** What a completed receive task leads to: the server, the slot's
      restarted task (`None` when the client is gone), the message handed to
      `MessageReceived`, and whether the polling loop breaks. */
  datatype Received = Received(server: Server, task: Option<Task>, message: Option<Bytes>, stop: bool)

  /** A receive task of the client with this ID completed with `received`.
      The packet is decoded without the password hash. A missing client or
      an undecodable packet breaks the loop; otherwise the client's deadline
      moves to ten seconds from now, and anything but `SERVKEEPALIVE` is
      handed on. */
  function ReceiveStep(p: Codec.Primitives, s: Server, id: string, received: string, now: int): (r: Received)
    ensures r.server.removeQueue == s.removeQueue && r.server.passwordHash == s.passwordHash
    ensures r.stop <==> !IdTaken(s.clients, id) || Codec.DecodePacket(p, received, None).Failure?
    ensures r.task.Some? <==> IdTaken(s.clients, id)
    ensures r.stop ==> r.server == s && r.message.None?
    ensures !r.stop ==>
      var k := FindClient(s.clients, id).value;
      var bytes := Codec.DecodePacket(p, received, None).value;
      && r.server.clients == s.clients[k := s.clients[k].(keepAlive := now + KeepAliveExtension)]
      && (r.message.Some? <==> p.utf8Decode(bytes) != KeepAliveMessage)
      && (r.message.Some? ==> r.message.value == bytes)
  {
    match FindClient(s.clients, id)
    case None => Received(s, None, None, true)
    case Some(k) =>
      var task := Receiving(s.clients[k].socket);
      match Codec.ReceivePacketBytes(p, received, None)
      case None => Received(s, Some(task), None, true)
      case Some(res) =>
        var s1 := s.(clients := s.clients[k := s.clients[k].(keepAlive := now + KeepAliveExtension)]);
        if p.utf8Decode(res) == KeepAliveMessage then Received(s1, Some(task), None, false)
        else Received(s1, Some(task), Some(res), false)
  }

  /** A keep-alive packet a client frames without a password refreshes its
      deadline and is not handed on. */
  lemma KeepAliveNotForwarded(p: Codec.Primitives, s: Server, id: string, iv: Codec.Iv, now: int)
    requires Codec.Lawful(p) && IdTaken(s.clients, id)
    requires var body := p.gzip(p.utf8Encode(KeepAliveMessage));
      !Separate.Occurs(body, Codec.ChecksumPrefix) && !Separate.Occurs(p.sha256(body), Codec.ChecksumPrefix)
    ensures var r := ReceiveStep(p, s, id, Codec.GeneratePacketText(p, KeepAliveMessage, None, iv).value, now);
      !r.stop && r.message.None?
      && r.server.clients[FindClient(s.clients, id).value].keepAlive == now + KeepAliveExtension
  {
    Codec.RoundTripText(p, KeepAliveMessage, None, iv);
  }

  /** Any other message framed without a password reaches
      `MessageReceived` unchanged. */
  lemma MessageForwarded(p: Codec.Primitives, s: Server, id: string, obj: Bytes, iv: Codec.Iv, now: int)
    requires Codec.Lawful(p) && IdTaken(s.clients, id) && p.utf8Decode(obj) != KeepAliveMessage
    requires var body := p.gzip(obj);
      !Separate.Occurs(body, Codec.ChecksumPrefix) && !Separate.Occurs(p.sha256(body), Codec.ChecksumPrefix)
    ensures ReceiveStep(p, s, id, Codec.GeneratePacket(p, obj, None, iv).value, now).message == Some(obj)
  {
    Codec.RoundTrip(p, obj, None, iv);
  }

  /** The inputs of one slot in one round: whether its task has completed,
      the socket a completed accept returned, the text a completed receive
      read, the clock, the random source, and how many `SERVKICK` sends fail
      if the slot's client is kicked. */
  datatype PollInputs = PollInputs(completed: bool, socket: nat, received: string, now: int,
                                   rng: SocketUtil.Rng, failedSends: nat)

  /** The outcome of polling slots: the server, the slots, the add queue,
      the messages handed on, and whether the loop broke; or an exception
      that ends `HandleClients`. */
  datatype Poll = Polled(server: Server, slots: Slots, addQueue: seq<string>, messages: seq<Bytes>, stop: bool)
                | PollThrew

  /** One iteration of the polling loop at slot `i`: the keep-alive check,
      then, if the task completed, the accept or receive it delivered. */
  function PollSlot(p: Codec.Primitives, s: Server, sl: Slots, addQueue: seq<string>, i: nat, inp: PollInputs): (r: Poll)
    requires WellFormed(sl) && i < |sl.ids|
    ensures r.Polled? ==> WellFormed(r.slots) && r.slots.ids == sl.ids
    ensures r.Polled? ==> forall k :: 0 <= k < |sl.tasks| && k != i ==> r.slots.tasks[k] == sl.tasks[k]
    ensures r.Polled? && sl.tasks[i].Accepting? ==> r.slots.tasks[i] == Accepting
    ensures r.Polled? ==> |addQueue| <= |r.addQueue| <= |addQueue| + 1 && r.addQueue[..|addQueue|] == addQueue
    ensures r.Polled? && sl.ids[i] != Some(ListenerId) ==> r.addQueue == addQueue
    ensures sl.tasks[i].Idle? ==> r == PollThrew
  {
    var id := sl.ids[i];
    var s1 := CheckKeepAlive(s, id, inp.now, inp.failedSends);
    if sl.tasks[i].Idle? then PollThrew
    else if !inp.completed then Polled(s1, sl, addQueue, [], false)
    else if id == Some(ListenerId) && sl.tasks[i].Accepting? then
      match AcceptClient(s1, inp.socket, inp.now, inp.rng)
      case None => PollThrew
      case Some((s2, newId)) => Polled(s2, sl, addQueue + [newId], [], false)
    else if sl.tasks[i].Receiving? then
      if id.None? then Polled(s1, sl, addQueue, [], true)
      else
        var rec := ReceiveStep(p, s1, id.value, inp.received, inp.now);
        var tasks := if rec.task.Some? then sl.tasks[i := rec.task.value] else sl.tasks;
        Polled(rec.server, Slots(sl.ids, tasks), addQueue, rec.message.ToSeq(), rec.stop)
    else Polled(s1, sl, addQueue, [], false)
  }

  /** The polling loop from slot `i` on, until the end or a `break`. */
  function PollFrom(p: Codec.Primitives, s: Server, sl: Slots, addQueue: seq<string>, i: nat,
                    inputs: nat -> PollInputs): (r: Poll)
    requires WellFormed(sl) && i <= |sl.ids|
    ensures r.Polled? ==> WellFormed(r.slots) && r.slots.ids == sl.ids
    ensures r.Polled? ==> forall k :: 0 <= k < i ==> r.slots.tasks[k] == sl.tasks[k]
    ensures r.Polled? && i == 0 && |sl.tasks| > 0 && sl.tasks[0].Accepting? ==> r.slots.tasks[0] == Accepting
    ensures r.Polled? ==> |r.addQueue| >= |addQueue| && r.addQueue[..|addQueue|] == addQueue
    ensures r.Polled? && ListenerOnlyFirst(sl.ids) ==> |r.addQueue| <= |addQueue| + (if i == 0 then 1 else 0)
    decreases |sl.ids| - i
  {
    if i == |sl.ids| then Polled(s, sl, addQueue, [], false)
    else
      match PollSlot(p, s, sl, addQueue, i, inputs(i))
      case PollThrew => PollThrew
      case Polled(s1, sl1, q1, m1, stop) =>
        if stop then Polled(s1, sl1, q1, m1, true)
        else
          match PollFrom(p, s1, sl1, q1, i + 1, inputs)
          case PollThrew => PollThrew
          case Polled(s2, sl2, q2, m2, stop2) =>
            assert q2[..|addQueue|] == q1[..|q1|][..|addQueue|];
            Polled(s2, sl2, q2, m1 + m2, stop2)
  }

  /** One round of the `HandleClients` loop: drain the remove queue, run
      the add step as written, then poll the slots. `inputs(i)` is what
      slot `i` brings this round. */
  function Round(p: Codec.Primitives, s: Server, sl: Slots, addQueue: seq<string>, inputs: nat -> PollInputs): (r: Poll)
    requires WellFormed(sl)
    ensures r.Polled? ==> WellFormed(r.slots)
  {
    var sl1 := DrainRemoveQueue(sl, s.removeQueue);
    var sl2 := AddStep(s.clients, sl1, addQueue);
    PollFrom(p, s.(removeQueue := []), sl2, [], 0, inputs)
  }

  /** The round with the corrected add step: every queued client gets its
      own slot. */
  function RoundIntended(p: Codec.Primitives, s: Server, sl: Slots, addQueue: seq<string>, inputs: nat -> PollInputs): (r: Poll)
    requires WellFormed(sl)
    ensures r.Polled? ==> WellFormed(r.slots)
  {
    var sl1 := DrainRemoveQueue(sl, s.removeQueue);
    PollFrom(p, s.(removeQueue := []), AddStepIntended(s.clients, sl1, addQueue), [], 0, inputs)
  }

  // ---------------------------------------------------------------- the loop's invariant

  /** Between rounds: the listener's accept task sits in slot 0, and every
      client ID, every ID queued for removal and every ID waiting to be
      added has four characters, so none of them is `"Listener"`. */
  predicate LoopInvariant(s: Server, sl: Slots, addQueue: seq<string>) {
    && WellFormed(sl) && |sl.ids| > 0 && sl.ids[0] == Some(ListenerId) && sl.tasks[0] == Accepting
    && ListenerOnlyFirst(sl.ids) && |addQueue| <= 1
    && (forall k :: 0 <= k < |s.clients| ==> |s.clients[k].id| == IdLength)
    && (forall k :: 0 <= k < |s.removeQueue| ==> |s.removeQueue[k]| == IdLength)
    && (forall k :: 0 <= k < |addQueue| ==> |addQueue[k]| == IdLength)
  }

  /** The invariant on the server and the add queue alone. */
  predicate IdsShort(s: Server, addQueue: seq<string>) {
    && (forall k :: 0 <= k < |s.clients| ==> |s.clients[k].id| == IdLength)
    && (forall k :: 0 <= k < |s.removeQueue| ==> |s.removeQueue[k]| == IdLength)
    && (forall k :: 0 <= k < |addQueue| ==> |addQueue[k]| == IdLength)
  }

  lemma KickKeepsIdsShort(s: Server, id: string, failedSends: nat, addQueue: seq<string>)
    requires IdsShort(s, addQueue)
    ensures IdsShort(Kick(s, id, failedSends).0, addQueue)
  {
    var r := Kick(s, id, failedSends).0;
    if FindClient(s.clients, id).Some? {
      var k := FindClient(s.clients, id).value;
      assert |id| == IdLength;
    }
    forall j | 0 <= j < |r.clients|
      ensures |r.clients[j].id| == IdLength
    {
      var m :| 0 <= m < |s.clients| && s.clients[m] == r.clients[j];
    }
  }

  lemma CheckKeepAliveKeepsIdsShort(s: Server, id: Option<string>, now: int, failedSends: nat, addQueue: seq<string>)
    requires IdsShort(s, addQueue)
    ensures IdsShort(CheckKeepAlive(s, id, now, failedSends), addQueue)
  {
    if id.Some? {
      KickKeepsIdsShort(s, id.value, failedSends, addQueue);
    }
  }

  lemma AcceptKeepsIdsShort(s: Server, socket: nat, now: int, rng: SocketUtil.Rng, addQueue: seq<string>)
    requires IdsShort(s, addQueue)
    ensures var a := AcceptClient(s, socket, now, rng);
      a.Some? ==> IdsShort(a.value.0, addQueue + [a.value.1])
  {
  }

  lemma ReceiveKeepsIdsShort(p: Codec.Primitives, s: Server, id: string, received: string, now: int, addQueue: seq<string>)
    requires IdsShort(s, addQueue)
    ensures IdsShort(ReceiveStep(p, s, id, received, now).server, addQueue)
  {
  }

  lemma PollSlotKeepsIdsShort(p: Codec.Primitives, s: Server, sl: Slots, addQueue: seq<string>, i: nat, inp: PollInputs)
    requires WellFormed(sl) && i < |sl.ids| && IdsShort(s, addQueue)
    ensures var r := PollSlot(p, s, sl, addQueue, i, inp);
      r.Polled? ==> IdsShort(r.server, r.addQueue)
  {
    var id := sl.ids[i];
    var s1 := CheckKeepAlive(s, id, inp.now, inp.failedSends);
    CheckKeepAliveKeepsIdsShort(s, id, inp.now, inp.failedSends, addQueue);
    if !sl.tasks[i].Idle? && inp.completed {
      if id == Some(ListenerId) && sl.tasks[i].Accepting? {
        AcceptKeepsIdsShort(s1, inp.socket, inp.now, inp.rng, addQueue);
      } else if sl.tasks[i].Receiving? && id.Some? {
        ReceiveKeepsIdsShort(p, s1, id.value, inp.received, inp.now, addQueue);
      }
    }
  }

  lemma {:induction false} PollFromKeepsIdsShort(p: Codec.Primitives, s: Server, sl: Slots, addQueue: seq<string>, i: nat,
                                                 inputs: nat -> PollInputs)
    requires WellFormed(sl) && i <= |sl.ids| && IdsShort(s, addQueue)
    ensures var r := PollFrom(p, s, sl, addQueue, i, inputs);
      r.Polled? ==> IdsShort(r.server, r.addQueue)
    decreases |sl.ids| - i
  {
    if i == |sl.ids| {
      assert PollFrom(p, s, sl, addQueue, i, inputs) == Polled(s, sl, addQueue, [], false);
    } else {
      PollSlotKeepsIdsShort(p, s, sl, addQueue, i, inputs(i));
      PollFromStep(p, s, sl, addQueue, i, inputs);
      var r1 := PollSlot(p, s, sl, addQueue, i, inputs(i));
      if r1.Polled? && !r1.stop {
        PollFromKeepsIdsShort(p, r1.server, r1.slots, r1.addQueue, i + 1, inputs);
      }
    }
  }

  /** One unfolding of the polling loop: its result is that of the slot,
      when the slot throws or breaks, and otherwise continues from the next
      slot with the slot's server, slots and add queue. */
  lemma PollFromStep(p: Codec.Primitives, s: Server, sl: Slots, addQueue: seq<string>, i: nat,
                     inputs: nat -> PollInputs)
    requires WellFormed(sl) && i < |sl.ids|
    ensures var r1 := PollSlot(p, s, sl, addQueue, i, inputs(i));
      var r := PollFrom(p, s, sl, addQueue, i, inputs);
      && (r1.PollThrew? ==> r.PollThrew?)
      && (r1.Polled? && r1.stop ==> r == r1)
      && (r1.Polled? && !r1.stop ==>
            var r2 := PollFrom(p, r1.server, r1.slots, r1.addQueue, i + 1, inputs);
            && (r2.PollThrew? ==> r.PollThrew?)
            && (r2.Polled? ==> r.Polled? && r.server == r2.server && r.addQueue == r2.addQueue))
  {
  }

  /** Every round keeps the invariant: the listener's slot is never
      removed, overwritten or replaced, whatever the clients do. */
  lemma RoundKeepsInvariant(p: Codec.Primitives, s: Server, sl: Slots, addQueue: seq<string>, inputs: nat -> PollInputs)
    requires LoopInvariant(s, sl, addQueue)
    ensures var r := Round(p, s, sl, addQueue, inputs);
      r.Polled? ==> LoopInvariant(r.server, r.slots, r.addQueue)
  {
    RoundSlots(s, sl, addQueue);
    var sl2 := AddStep(s.clients, DrainRemoveQueue(sl, s.removeQueue), addQueue);
    PollFromKeepsIdsShort(p, s.(removeQueue := []), sl2, [], 0, inputs);
  }

  /** The slots a round polls: the listener still first, accepting, and
      alone, whatever was drained and added. */
  lemma RoundSlots(s: Server, sl: Slots, addQueue: seq<string>)
    requires LoopInvariant(s, sl, addQueue)
    ensures var sl2 := AddStep(s.clients, DrainRemoveQueue(sl, s.removeQueue), addQueue);
      && WellFormed(sl2) && |sl2.ids| > 0 && sl2.ids[0] == Some(ListenerId) && sl2.tasks[0] == Accepting
      && ListenerOnlyFirst(sl2.ids)
  {
    DrainKeepsListener(sl, s.removeQueue);
    var sl1 := DrainRemoveQueue(sl, s.removeQueue);
    AddStepLatent(s, sl, addQueue);
    var sl2 := AddStepIntended(s.clients, sl1, addQueue);
    assert sl2.ids[0] == sl1.ids[0] && sl2.tasks[0] == sl1.tasks[0];
    forall k | |sl1.ids| <= k < |sl2.ids|
      ensures sl2.ids[k] != Some(ListenerId)
    {
      assert sl2.ids[k] == Some(addQueue[k - |sl1.ids|]);
    }
  }

  /** In a reachable round the add queue holds at most one ID, so the add
      step as written does what the corrected one does: the defect of
      `AddStep` never shows. */
  lemma AddStepLatent(s: Server, sl: Slots, addQueue: seq<string>)
    requires LoopInvariant(s, sl, addQueue)
    ensures var sl1 := DrainRemoveQueue(sl, s.removeQueue);
      AddStep(s.clients, sl1, addQueue) == AddStepIntended(s.clients, sl1, addQueue)
  {
    AddStepSingle(s.clients, DrainRemoveQueue(sl, s.removeQueue), addQueue);
  }

  /** Between rounds the round as written and the corrected round agree. */
  lemma RoundsAgree(p: Codec.Primitives, s: Server, sl: Slots, addQueue: seq<string>, inputs: nat -> PollInputs)
    requires LoopInvariant(s, sl, addQueue)
    ensures Round(p, s, sl, addQueue, inputs) == RoundIntended(p, s, sl, addQueue, inputs)
  {
    AddStepLatent(s, sl, addQueue);
  }

  /** The loop starts in a state satisfying the invariant. */
  lemma InitialInvariant(p: Codec.Primitives, password: string)
    ensures LoopInvariant(SetPassword(p, NewServer(), password), InitialSlots(), [])
    ensures ClientsDistinct(SetPassword(p, NewServer(), password).clients)
  {
  }

  // ---------------------------------------------------------------- distinct clients

  /** No two clients share a socket object or an ID: what the kick lemmas
      need of the client list. */
  predicate ClientsDistinct(clients: seq<Client>) {
    SocketsUnique(clients) && IdsUnique(clients)
  }

  /** A socket no client holds, as every socket `Accept` returns is a new
      object. */
  predicate FreshSocket(clients: seq<Client>, socket: nat) {
    forall k :: 0 <= k < |clients| ==> clients[k].socket != socket
  }

  /** Kicking keeps the clients distinct: it only removes clients. */
  lemma KickKeepsDistinct(s: Server, id: string, failedSends: nat)
    requires ClientsDistinct(s.clients)
    ensures ClientsDistinct(Kick(s, id, failedSends).0.clients)
  {
    if FindClient(s.clients, id).Some? {
      KickEffect(s, id, failedSends);
      var k := FindClient(s.clients, id).value;
      var rest := RemoveAt(s.clients, k).value;
      forall a, b | 0 <= a < b < |rest|
        ensures rest[a].socket != rest[b].socket && rest[a].id != rest[b].id
      {
        var a' := if a < k then a else a + 1;
        var b' := if b < k then b else b + 1;
        assert rest[a] == s.clients[a'] && rest[b] == s.clients[b'] && a' < b';
      }
    }
  }

  /** Accepting a fresh socket keeps the clients distinct. */
  lemma AcceptKeepsDistinct(s: Server, socket: nat, now: int, rng: SocketUtil.Rng)
    requires ClientsDistinct(s.clients) && FreshSocket(s.clients, socket)
    ensures var r := AcceptClient(s, socket, now, rng);
      r.Some? ==> ClientsDistinct(r.value.0.clients)
  {
    AcceptKeepsIdsUnique(s, socket, now, rng);
  }

  /** A completed receive only moves a client's deadline. */
  lemma ReceiveKeepsDistinct(p: Codec.Primitives, s: Server, id: string, received: string, now: int)
    requires ClientsDistinct(s.clients)
    ensures ClientsDistinct(ReceiveStep(p, s, id, received, now).server.clients)
  {
    var c := ReceiveStep(p, s, id, received, now).server.clients;
    assert |c| == |s.clients|;
    assert forall k :: 0 <= k < |c| ==> c[k].socket == s.clients[k].socket && c[k].id == s.clients[k].id;
  }

  /** The keep-alive check at most kicks a client. */
  lemma CheckKeepAliveKeepsDistinct(s: Server, id: Option<string>, now: int, failedSends: nat)
    requires ClientsDistinct(s.clients)
    ensures ClientsDistinct(CheckKeepAlive(s, id, now, failedSends).clients)
    ensures id == Some(ListenerId) ==> CheckKeepAlive(s, id, now, failedSends) == s
  {
    if id.Some? {
      KickKeepsDistinct(s, id.value, failedSends);
    }
  }

  /** A slot's poll keeps the clients distinct when a listener slot's
      accepted socket is fresh. */
  lemma PollSlotKeepsDistinct(p: Codec.Primitives, s: Server, sl: Slots, addQueue: seq<string>, i: nat, inp: PollInputs)
    requires WellFormed(sl) && i < |sl.ids| && ClientsDistinct(s.clients)
    requires sl.ids[i] == Some(ListenerId) ==> FreshSocket(s.clients, inp.socket)
    ensures var r := PollSlot(p, s, sl, addQueue, i, inp);
      r.Polled? ==> ClientsDistinct(r.server.clients)
  {
    var id := sl.ids[i];
    var s1 := CheckKeepAlive(s, id, inp.now, inp.failedSends);
    CheckKeepAliveKeepsDistinct(s, id, inp.now, inp.failedSends);
    if !sl.tasks[i].Idle? && inp.completed {
      if id == Some(ListenerId) && sl.tasks[i].Accepting? {
        AcceptKeepsDistinct(s1, inp.socket, inp.now, inp.rng);
      } else if sl.tasks[i].Receiving? && id.Some? {
        ReceiveKeepsDistinct(p, s1, id.value, inp.received, inp.now);
      }
    }
  }

  /** The polling loop keeps the clients distinct when only the first slot
      is the listener and its accepted socket is fresh. */
  lemma {:induction false} PollFromKeepsDistinct(p: Codec.Primitives, s: Server, sl: Slots, addQueue: seq<string>, i: nat,
                                                 inputs: nat -> PollInputs)
    requires WellFormed(sl) && i <= |sl.ids| && ClientsDistinct(s.clients) && ListenerOnlyFirst(sl.ids)
    requires i == 0 ==> FreshSocket(s.clients, inputs(0).socket)
    ensures var r := PollFrom(p, s, sl, addQueue, i, inputs);
      r.Polled? ==> ClientsDistinct(r.server.clients)
    decreases |sl.ids| - i
  {
    if i == |sl.ids| {
      assert PollFrom(p, s, sl, addQueue, i, inputs) == Polled(s, sl, addQueue, [], false);
    } else {
      assert i > 0 ==> sl.ids[i] != Some(ListenerId);
      PollSlotKeepsDistinct(p, s, sl, addQueue, i, inputs(i));
      PollFromStep(p, s, sl, addQueue, i, inputs);
      var r1 := PollSlot(p, s, sl, addQueue, i, inputs(i));
      var r := PollFrom(p, s, sl, addQueue, i, inputs);
      if r1.Polled? && !r1.stop {
        PollFromKeepsDistinct(p, r1.server, r1.slots, r1.addQueue, i + 1, inputs);
        var r2 := PollFrom(p, r1.server, r1.slots, r1.addQueue, i + 1, inputs);
        assert r.Polled? ==> r.server == r2.server;
      } else {
        assert r.Polled? ==> r == r1;
      }
    }
  }

  /** Every round keeps the clients distinct when the socket the listener
      accepts is fresh, so the kick lemmas hold in every round reached from
      the start. */
  lemma RoundKeepsDistinct(p: Codec.Primitives, s: Server, sl: Slots, addQueue: seq<string>, inputs: nat -> PollInputs)
    requires LoopInvariant(s, sl, addQueue) && ClientsDistinct(s.clients) && FreshSocket(s.clients, inputs(0).socket)
    ensures var r := Round(p, s, sl, addQueue, inputs);
      r.Polled? ==> ClientsDistinct(r.server.clients)
  {
    RoundSlots(s, sl, addQueue);
    var sl2 := AddStep(s.clients, DrainRemoveQueue(sl, s.removeQueue), addQueue);
    PollFromKeepsDistinct(p, s.(removeQueue := []), sl2, [], 0, inputs);
  }
}

=== FILE: text.dfy ===
/**
 The .NET string operations the protocol tokens go through: `String.Trim`,
 `Convert.ToInt64(string)` and the decimal formatting of a `long` inside an
 interpolated string.
 */
module Text {
  import opened Wrappers

  // ---------------------------------------------------------------- Trim

  /** `char.IsWhiteSpace`: U+0009..U+000D, U+0085 and the Unicode space,
      line and paragraph separators. */
  predicate IsWhiteSpace(c: char) {
    var n := c as int;
    || (0x09 <= n <= 0x0D) || n == 0x20 || n == 0x85 || n == 0xA0 || n == 0x1680
    || (0x2000 <= n <= 0x200A) || n == 0x2028 || n == 0x2029 || n == 0x202F
    || n == 0x205F || n == 0x3000
  }

  /** The white space `Int64.Parse` skips around a number
      (`NumberStyles.AllowLeadingWhite | AllowTrailingWhite`). */
  predicate IsNumberWhite(c: char) {
    c == ' ' || ('\t' <= c <= '\r')
  }

  /** The index of the first character at or after `i` that does not
      satisfy `ws` (`|s|` if there is none). */
  function SkipForward(s: string, ws: char -> bool, i: nat): (n: nat)
    requires i <= |s|
    ensures i <= n <= |s|
    ensures forall k :: i <= k < n ==> ws(s[k])
    ensures n == |s| || !ws(s[n])
    decreases |s| - i
  {
    if i < |s| && ws(s[i]) then SkipForward(s, ws, i + 1) else i
  }

  /** The index just after the last character before `j`, and not before
      `lo`, that does not satisfy `ws` (`lo` if there is none). */
  function SkipBackward(s: string, ws: char -> bool, lo: nat, j: nat): (n: nat)
    requires lo <= j <= |s|
    ensures lo <= n <= j
    ensures forall k :: n <= k < j ==> ws(s[k])
    ensures n == lo || !ws(s[n - 1])
  {
    if j > lo && ws(s[j - 1]) then SkipBackward(s, ws, lo, j - 1) else j
  }

  /** `s` with the characters satisfying `ws` stripped from both ends: the
      slice that starts at the first and ends after the last other character. */
  function TrimWith(s: string, ws: char -> bool): (r: string)
    ensures var a := SkipForward(s, ws, 0);
      a + |r| <= |s| && r == s[a..a + |r|]
      && (forall k :: 0 <= k < a ==> ws(s[k]))
      && (forall k :: a + |r| <= k < |s| ==> ws(s[k]))
    ensures |r| == 0 || (!ws(r[0]) && !ws(r[|r| - 1]))
  {
    var a := SkipForward(s, ws, 0);
    var b := SkipBackward(s, ws, a, |s|);
    assert forall k :: b <= k < |s| ==> ws(s[k]);
    s[a..b]
  }

  /** `String.Trim()`. */
  function Trim(s: string): string {
    TrimWith(s, IsWhiteSpace)
  }

  /** A string without white space at either end is its own trim. */
  lemma TrimWithKeeps(s: string, ws: char -> bool)
    requires |s| == 0 || (!ws(s[0]) && !ws(s[|s| - 1]))
    ensures TrimWith(s, ws) == s
  {
    if |s| > 0 {
      assert SkipForward(s, ws, 0) == 0;
    }
  }

  /** Trimming is idempotent. */
  lemma TrimWithIdempotent(s: string, ws: char -> bool)
    ensures TrimWith(TrimWith(s, ws), ws) == TrimWith(s, ws)
  {
    TrimWithKeeps(TrimWith(s, ws), ws);
  }

  // ---------------------------------------------------------------- Convert.ToInt64

  const MinLong: int := -0x8000_0000_0000_0000
  const MaxLong: int := 0x7FFF_FFFF_FFFF_FFFF

  predicate IsDigit(c: char) {
    '0' <= c <= '9'
  }

  function DigitValue(c: char): (d: nat)
    requires IsDigit(c)
    ensures d < 10
  {
    (c as int) - ('0' as int)
  }

  function DigitChar(d: nat): (c: char)
    requires d < 10
    ensures IsDigit(c) && DigitValue(c) == d
  {
    (('0' as int) + d) as char
  }

  predicate AllDigits(s: string) {
    forall k :: 0 <= k < |s| ==> IsDigit(s[k])
  }

  /** The value of a string of decimal digits, most significant first. */
  function DigitsValue(s: string): (v: nat)
    requires AllDigits(s)
  {
    if |s| == 0 then 0 else DigitsValue(s[..|s| - 1]) * 10 + DigitValue(s[|s| - 1])
  }

  /** A sign and digits with nothing around them, as `Int64.Parse` reads
      them once the surrounding white space is skipped. */
  function ParseSignedDigits(t: string): (r: Option<int>)
    ensures r.Some? ==> MinLong <= r.value <= MaxLong
    ensures r.Some? ==> |t| > 0 && IsDigit(t[|t| - 1])
    ensures r.Some? ==> (r.value < 0 ==> t[0] == '-')
  {
    if |t| == 0 then None
    else
      var negative := t[0] == '-';
      var digits := if t[0] == '-' || t[0] == '+' then t[1..] else t;
      if |digits| == 0 || !AllDigits(digits) then None
      else
        var v: int := if negative then 0 - DigitsValue(digits) else DigitsValue(digits);
        if v < MinLong || v > MaxLong then None
        else
          assert t[|t| - 1] == digits[|digits| - 1];
          Some(v)
  }

  /** `Convert.ToInt64(string)` with `NumberStyles.Integer`: optional white
      space, an optional `+` or `-`, at least one digit, optional white space.
      `None` stands for the `FormatException` or `OverflowException` it throws. */
  function ParseInt64(s: string): (r: Option<int>)
    ensures r.Some? ==> MinLong <= r.value <= MaxLong
    ensures r.Some? ==> exists k :: 0 <= k < |s| && IsDigit(s[k])
    ensures (forall k :: 0 <= k < |s| ==> !IsDigit(s[k])) ==> r.None?
  {
    var t := TrimWith(s, IsNumberWhite);
    var r := ParseSignedDigits(t);
    if r.Some? then
      var k := SkipForward(s, IsNumberWhite, 0) + |t| - 1;
      assert s[k] == t[|t| - 1];
      r
    else r
  }

  // ---------------------------------------------------------------- long.ToString

  /** The decimal digits of a natural number, as `long.ToString()` writes them. */
  function FormatNat(n: nat): (s: string)
    ensures |s| >= 1 && AllDigits(s)
    ensures n == 0 || s[0] != '0'
  {
    if n < 10 then [DigitChar(n)] else FormatNat(n / 10) + [DigitChar(n % 10)]
  }

  /** `long.ToString()` (an interpolated `{value}`): a minus sign for negative
      numbers, then the digits. */
  function FormatInt(n: int): (s: string)
    ensures |s| >= 1
    ensures forall k :: 0 <= k < |s| ==> IsDigit(s[k]) || (k == 0 && s[k] == '-')
    ensures n < 0 <==> s[0] == '-'
  {
    if n < 0 then "-" + FormatNat(-n) else FormatNat(n)
  }

  lemma {:induction false} DigitsValueFormatNat(n: nat)
    ensures DigitsValue(FormatNat(n)) == n
  {
    if n >= 10 {
      var s := FormatNat(n);
      DigitsValueFormatNat(n / 10);
      assert s[..|s| - 1] == FormatNat(n / 10);
    }
  }

  lemma ParseSignedDigitsFormatInt(n: int)
    requires MinLong <= n <= MaxLong
    ensures ParseSignedDigits(FormatInt(n)) == Some(n)
  {
    var s := FormatInt(n);
    if n < 0 {
      assert s[1..] == FormatNat(-n);
      DigitsValueFormatNat(-n);
    } else {
      DigitsValueFormatNat(n);
    }
  }

  /** Parsing a formatted `long` gives the number back: the length and part
      count a peer announces are read back exactly. */
  lemma ParseFormatInt(n: int)
    requires MinLong <= n <= MaxLong
    ensures ParseInt64(FormatInt(n)) == Some(n)
  {
    var s := FormatInt(n);
    assert !IsNumberWhite(s[0]) && !IsNumberWhite(s[|s| - 1]);
    TrimWithKeeps(s, IsNumberWhite);
    ParseSignedDigitsFormatInt(n);
  }

  /** The formatted number is free of white space. */
  lemma FormatIntHasNoWhiteSpace(n: int)
    ensures forall k :: 0 <= k < |FormatInt(n)| ==> !IsWhiteSpace(FormatInt(n)[k]) && FormatInt(n)[k] != '^'
  {
  }
}

=== FILE: wake_on_lan.dfy ===
/**
 `WakeOnLAN.BuildMagicPacket`: the MAC address text loses its `:`, space
 and `-` separators, is hex-decoded, and the packet is six 0xFF bytes
 followed by sixteen copies of the address (the AMD Magic Packet format).
 */
module WakeOnLan {
  import opened Wrappers
  import SocketUtil

  type byte = SocketUtil.byte

  // ---------------------------------------------------------------- Regex.Replace(mac, "[: -]", "")

  predicate IsSeparator(c: char) {
    c == ':' || c == ' ' || c == '-'
  }

  /** The text with every `:`, space and `-` removed. */
  function StripSeparators(s: string): (r: string)
    ensures |r| <= |s|
    ensures forall k :: 0 <= k < |r| ==> !IsSeparator(r[k])
    ensures forall k :: 0 <= k < |r| ==> r[k] in s
  {
    if |s| == 0 then []
    else (if IsSeparator(s[0]) then [] else [s[0]]) + StripSeparators(s[1..])
  }

  /** Stripping distributes over concatenation ... */
  lemma {:induction false} StripAppend(a: string, b: string)
    ensures StripSeparators(a + b) == StripSeparators(a) + StripSeparators(b)
  {
    if |a| > 0 {
      assert (a + b)[1..] == a[1..] + b;
      StripAppend(a[1..], b);
    } else {
      assert a + b == b;
    }
  }

  /** ... keeps every other character and drops every separator, so it is
      determined by these two facts together with `StripAppend`. */
  lemma StripOne(c: char)
    ensures StripSeparators([c]) == if IsSeparator(c) then [] else [c]
  {
    assert [c][1..] == [];
  }

  /** A text without separators is left alone. */
  lemma {:induction false} StripKeeps(s: string)
    requires forall k :: 0 <= k < |s| ==> !IsSeparator(s[k])
    ensures StripSeparators(s) == s
  {
    if |s| > 0 {
      StripKeeps(s[1..]);
    }
  }

  // ---------------------------------------------------------------- Convert.FromHexString

  /** The value of a hex digit in either case; `None` for anything else. */
  function HexDigitValue(c: char): (r: Option<nat>)
    ensures r.Some? <==> ('0' <= c <= '9') || ('a' <= c <= 'f') || ('A' <= c <= 'F')
    ensures r.Some? ==> r.value < 16
  {
    if '0' <= c <= '9' then Some(c as int - '0' as int)
    else if 'a' <= c <= 'f' then Some(c as int - 'a' as int + 10)
    else if 'A' <= c <= 'F' then Some(c as int - 'A' as int + 10)
    else None
  }

  predicate IsHexDigit(c: char) {
    HexDigitValue(c).Some?
  }

  predicate AllHex(s: string) {
    forall k :: 0 <= k < |s| ==> IsHexDigit(s[k])
  }

  /** `Convert.FromHexString`: two digits per byte, the first the high
      nibble. An odd length or a non-hex character is its
      `FormatException`: `None`. The empty text gives no bytes. */
  function FromHexString(s: string): (r: Option<seq<byte>>)
    ensures r.Some? <==> |s| % 2 == 0 && AllHex(s)
    ensures r.Some? ==> |r.value| == |s| / 2
    decreases |s|
  {
    if |s| == 0 then Some([])
    else if |s| == 1 then None
    else
      match (HexDigitValue(s[0]), HexDigitValue(s[1]))
      case (Some(hi), Some(lo)) =>
        var rest := FromHexString(s[2..]);
        assert AllHex(s) <==> AllHex(s[2..]) by {
          assert forall k :: 2 <= k < |s| ==> s[k] == s[2..][k - 2];
        }
        if rest.None? then None else Some([16 * hi + lo] + rest.value)
      case _ => None
  }

  /** Byte `k` of the result is the value of digits `2k` (high) and `2k + 1`. */
  lemma {:induction false} FromHexStringBytes(s: string, k: nat)
    requires FromHexString(s).Some? && k < |s| / 2
    ensures FromHexString(s).value[k] == 16 * HexDigitValue(s[2 * k]).value + HexDigitValue(s[2 * k + 1]).value
    decreases |s|
  {
    if k > 0 {
      FromHexStringBytes(s[2..], k - 1);
      assert s[2 * k] == s[2..][2 * (k - 1)] && s[2 * k + 1] == s[2..][2 * (k - 1) + 1];
    }
  }

  // ---------------------------------------------------------------- the textual forms of an address

  const HexDigits: string := "0123456789ABCDEF"

  /** The upper-case digit of a nibble, as `Convert.ToHexString` writes it. */
  function HexChar(d: nat): (c: char)
    requires d < 16
    ensures HexDigitValue(c) == Some(d) && !IsSeparator(c)
  {
    HexDigits[d]
  }

  /** `Convert.ToHexString`: two upper-case digits per byte. */
  function ToHexString(b: seq<byte>): (s: string)
    ensures |s| == 2 * |b|
    ensures forall k :: 0 <= k < |s| ==> IsHexDigit(s[k]) && !IsSeparator(s[k])
  {
    if |b| == 0 then [] else [HexChar(b[0] / 16), HexChar(b[0] % 16)] + ToHexString(b[1..])
  }

  /** Decoding two leading digits and then the rest. */
  lemma FromHexStringCons(h: char, l: char, t: string)
    requires HexDigitValue(h).Some? && HexDigitValue(l).Some?
    ensures var r := FromHexString([h, l] + t);
      && (r.Some? <==> FromHexString(t).Some?)
      && (r.Some? ==> r.value == [16 * HexDigitValue(h).value + HexDigitValue(l).value] + FromHexString(t).value)
  {
    assert ([h, l] + t)[2..] == t;
  }

  /** Decoding the two digits `ToHexString` writes for a byte, then the rest. */
  lemma FromHexStringByte(x: byte, t: string)
    requires FromHexString(t).Some?
    ensures FromHexString([HexChar(x / 16), HexChar(x % 16)] + t) == Some([x] + FromHexString(t).value)
  {
    FromHexStringCons(HexChar(x / 16), HexChar(x % 16), t);
    assert 16 * (x / 16) + x % 16 == x;
  }

  /** Hex decoding inverts hex encoding. */
  lemma {:induction false} FromToHexString(b: seq<byte>)
    ensures FromHexString(ToHexString(b)) == Some(b)
  {
    if |b| > 0 {
      var rest := b[1..];
      var t := ToHexString(rest);
      assert ToHexString(b) == [HexChar(b[0] / 16), HexChar(b[0] % 16)] + t;
      FromToHexString(rest);
      FromHexStringByte(b[0], t);
      assert [b[0]] + rest == b;
    }
  }

  /** An address written with a separator between the bytes, such as
      `AA:BB:CC:DD:EE:FF` or `AA-BB-CC-DD-EE-FF`. */
  function FormatMac(b: seq<byte>, sep: char): (s: string)
    ensures |b| > 0 ==> |s| == 3 * |b| - 1
    ensures |b| == 0 ==> s == []
  {
    if |b| <= 1 then ToHexString(b) else ToHexString([b[0]]) + [sep] + FormatMac(b[1..], sep)
  }

  /** Stripping the separators of a formatted address leaves its plain hex
      text. */
  lemma {:induction false} StripFormatMac(b: seq<byte>, sep: char)
    requires IsSeparator(sep)
    ensures StripSeparators(FormatMac(b, sep)) == ToHexString(b)
  {
    if |b| <= 1 {
      StripKeeps(ToHexString(b));
    } else {
      var head := ToHexString([b[0]]);
      StripAppend(head + [sep], FormatMac(b[1..], sep));
      StripAppend(head, [sep]);
      StripKeeps(head);
      StripOne(sep);
      StripFormatMac(b[1..], sep);
      assert ToHexString(b) == head + ToHexString(b[1..]);
    }
  }

  // ---------------------------------------------------------------- the packet

  /** The synchronisation stream: six 0xFF bytes. */
  const Header: seq<byte> := [0xFF, 0xFF, 0xFF, 0xFF, 0xFF, 0xFF]

  /** How many copies of the address follow the header. */
  const Copies: nat := 16

  /** `n` copies of `b`, one after the other. */
  function Repeat(b: seq<byte>, n: nat): (r: seq<byte>)
    ensures |r| == n * |b|
  {
    if n == 0 then [] else b + Repeat(b, n - 1)
  }

  /** The packet for a decoded address. */
  function MagicPacket(mac: seq<byte>): (r: seq<byte>)
    ensures |r| == |Header| + Copies * |mac|
    ensures r[..|Header|] == Header
  {
    Header + Repeat(mac, Copies)
  }

  /** `BuildMagicPacket`; `None` stands for the `FormatException` of a text
      that is not an even number of hex digits once the separators are gone. */
  function BuildMagicPacket(macAddress: string): (r: Option<seq<byte>>)
    ensures r.None? <==> FromHexString(StripSeparators(macAddress)).None?
    ensures r.Some? ==>
      && |r.value| == 6 + 16 * (|StripSeparators(macAddress)| / 2)
      && forall k :: 0 <= k < 6 ==> r.value[k] == 0xFF
    ensures r.Some? ==> IsMagicPacketFor(r.value, FromHexString(StripSeparators(macAddress)).value)
  {
    var mac :- FromHexString(StripSeparators(macAddress));
    var r := MagicPacket(mac);
    assert forall k :: 0 <= k < 6 ==> r[k] == r[..|Header|][k];
    MagicPacketIff(r, mac);
    Some(r)
  }

  lemma MulSucc(k: nat, m: nat)
    ensures (k + 1) * m == k * m + m
  {
  }

  lemma MulLe(a: nat, b: nat, m: nat)
    requires a <= b
    ensures a * m <= b * m
  {
  }

  /** Block `k` of `r` when `r` is cut into blocks of `m` bytes: bytes
      `k * m` up to `(k + 1) * m`. */
  function Block(r: seq<byte>, m: nat, k: nat): (blk: seq<byte>)
    requires (k + 1) * m <= |r|
    ensures |blk| == m
  {
    MulSucc(k, m);
    r[k * m..(k + 1) * m]
  }

  /** What a listening network card looks for: the header, then `Copies`
      blocks each equal to its address, block `k` being bytes
      `6 + k * |mac|` up to `6 + (k + 1) * |mac|`. */
  predicate IsMagicPacketFor(packet: seq<byte>, mac: seq<byte>) {
    && |packet| == |Header| + Copies * |mac|
    && packet[..|Header|] == Header
    && forall k :: 0 <= k < Copies ==>
      && (MulLe(k + 1, Copies, |mac|); (k + 1) * |mac| <= |packet| - |Header|)
      && Block(packet[|Header|..], |mac|, k) == mac
  }

  /** Block `k` of `Repeat(b, n)` is `b`. */
  lemma {:induction false} RepeatBlock(b: seq<byte>, n: nat, k: nat)
    requires k < n
    ensures (k + 1) * |b| <= n * |b|
    ensures Block(Repeat(b, n), |b|, k) == b
  {
    var m := |b|;
    MulLe(k + 1, n, m);
    MulSucc(n - 1, m);
    if k > 0 {
      RepeatBlock(b, n - 1, k - 1);
      MulSucc(k - 1, m);
      MulSucc(k, m);
      assert Block(Repeat(b, n), m, k) == Block(Repeat(b, n - 1), m, k - 1);
    }
  }

  /** Dropping the first block shifts the others down by one. */
  lemma ShiftBlock(r: seq<byte>, m: nat, k: nat)
    requires m <= |r| && (k + 2) * m <= |r|
    ensures (k + 1) * m <= |r[m..]| && Block(r[m..], m, k) == Block(r, m, k + 1)
  {
    MulSucc(k, m);
    MulSucc(k + 1, m);
  }

  lemma FirstBlock(r: seq<byte>, m: nat)
    requires m <= |r|
    ensures (0 + 1) * m <= |r| && Block(r, m, 0) == r[..m]
  {
  }

  /** Block `k` of `r`, cut into blocks of `|b|` bytes, exists and is `b`. */
  predicate BlockIs(r: seq<byte>, b: seq<byte>, k: nat) {
    (k + 1) * |b| <= |r| && Block(r, |b|, k) == b
  }

  /** A sequence made of `n` blocks equal to `b` is `Repeat(b, n)`. */
  lemma {:induction false} BlocksAreRepeat(r: seq<byte>, b: seq<byte>, n: nat)
    requires |r| == n * |b|
    requires forall k :: 0 <= k < n ==> BlockIs(r, b, k)
    ensures r == Repeat(b, n)
  {
    var m := |b|;
    if n > 0 {
      assert m <= |r| && |r[m..]| == (n - 1) * m by {
        MulSucc(n - 1, m);
        MulLe(0, n - 1, m);
      }
      var rest := r[m..];
      RestBlocks(r, b, n);
      BlocksAreRepeat(rest, b, n - 1);
      assert r[..m] == b by {
        assert BlockIs(r, b, 0);
        FirstBlock(r, m);
      }
      assert r == r[..m] + rest;
    }
  }

  /** After the first of `n` blocks equal to `b`, `n - 1` such blocks remain. */
  lemma RestBlocks(r: seq<byte>, b: seq<byte>, n: nat)
    requires n > 0 && |b| <= |r|
    requires forall k :: 0 <= k < n ==> BlockIs(r, b, k)
    ensures forall k :: 0 <= k < n - 1 ==> BlockIs(r[|b|..], b, k)
  {
    forall k | 0 <= k < n - 1
      ensures BlockIs(r[|b|..], b, k)
    {
      RestBlock(r, b, n, k);
    }
  }

  lemma RestBlock(r: seq<byte>, b: seq<byte>, n: nat, k: nat)
    requires k + 1 < n && |b| <= |r|
    requires forall k :: 0 <= k < n ==> BlockIs(r, b, k)
    ensures BlockIs(r[|b|..], b, k)
  {
    assert BlockIs(r, b, k + 1);
    ShiftBlock(r, |b|, k);
  }

  /** The magic packet of an address is exactly the packet a card with
      that address looks for. */
  lemma MagicPacketIff(packet: seq<byte>, mac: seq<byte>)
    ensures IsMagicPacketFor(packet, mac) <==> packet == MagicPacket(mac)
  {
    var h := |Header|;
    if packet == MagicPacket(mac) {
      assert packet[h..] == Repeat(mac, Copies);
      forall k | 0 <= k < Copies
        ensures (k + 1) * |mac| <= |packet| - h && Block(packet[h..], |mac|, k) == mac
      {
        RepeatBlock(mac, Copies, k);
      }
    }
    if IsMagicPacketFor(packet, mac) {
      BlocksAreRepeat(packet[h..], mac, Copies);
      assert packet == packet[..h] + packet[h..];
    }
  }

  /** A six-byte address written with any of the separators gives the
      102-byte packet for that address. */
  lemma BuildFromFormattedMac(mac: seq<byte>, sep: char)
    requires |mac| == 6 && IsSeparator(sep)
    ensures BuildMagicPacket(FormatMac(mac, sep)) == Some(MagicPacket(mac))
    ensures |MagicPacket(mac)| == 102
    ensures IsMagicPacketFor(MagicPacket(mac), mac)
  {
    StripFormatMac(mac, sep);
    FromToHexString(mac);
    MagicPacketIff(MagicPacket(mac), mac);
  }

  /** An empty address text is accepted and gives the header alone. */
  lemma EmptyAddressGivesHeader()
    ensures BuildMagicPacket("") == Some(Header)
  {
    assert StripSeparators("") == "";
    assert FromHexString("") == Some([]);
    EmptyRepeat(Copies);
    assert MagicPacket([]) == Header;
  }

  lemma {:induction false} EmptyRepeat(n: nat)
    ensures Repeat([], n) == []
  {
    if n > 0 {
      EmptyRepeat(n - 1);
    }
  }

  /** A text with an odd number of digits, or with a character that is
      neither a hex digit nor a separator, is rejected. */
  lemma MalformedRejected()
    ensures BuildMagicPacket("ABC").None?
    ensures BuildMagicPacket("0G").None?
  {
    StripKeeps("ABC");
    StripKeeps("0G");
    assert !IsHexDigit("0G"[1]);
  }
}

=== FILE: wrappers.dfy ===
/** Failure-carrying values used where the C# code returns null or throws. */
module Wrappers {

  /** A value that may be absent: the model of a C# nullable reference. */
  datatype Option<+T> = None | Some(value: T) {
    predicate IsFailure() {
      None?
    }

    function PropagateFailure<U>(): Option<U>
      requires None?
    {
      None
    }

    function Extract(): T
      requires Some?
    {
      value
    }

    /** The value as a list of at most one element. */
    function ToSeq(): (s: seq<T>)
      ensures |s| <= 1
      ensures Some? ==> s == [value]
      ensures None? ==> s == []
    {
      if Some? then [value] else []
    }
  }

  /** A computed value or the reason it could not be computed. */
  datatype Result<+R, +E> = Success(value: R) | Failure(error: E) {
    predicate IsFailure() {
      Failure?
    }

    function PropagateFailure<U>(): Result<U, E>
      requires Failure?
    {
      Failure(error)
    }

    function Extract(): R
      requires Success?
    {
      value
    }

    function ToOption(): Option<R> {
      match this
      case Success(v) => Some(v)
      case Failure(_) => None
    }
  }
}
